=== FILE: README.md ===
# CRM backend and client mapper — a Dafny model

This project models the request handling of a small CRM: an Express backend over
a SQL store and the browser-side API layer that calls it. Users, accounts,
projects, tasks and updates live in five tables. The backend answers:
- lookups by secret key (`airtable_id`);
- bulk fetches by id list;
- inserts;
- partial updates;
- a login and a `/verify` route;
- an admin router behind a role check.

The client wraps each route in a function. That function reshapes rows into
`{id, fields}` records, groups updates by project and formats dates.

The model has these parts:
- **Store.** Every handler is a pure function from a request and a store to a
  reply and a new store.
  - A store is five tables. Each table has a column set, rows in scan order and
    the last value its id sequence handed out.
  - A query throws when it names a column its table lacks, or when the caller
    lists its index among the `faults`. The handlers turn every such failure
    into a 500.
  - This is how the model captures the foreign-key names that differ between
    files: the login handler reads `user_id`, the main server reads
    `account_owner_id`, and the admin router reads `username` and
    `assigned_to`. The model keeps each file's own names.
- **Values.** JSON values are JavaScript values with JavaScript truthiness. A
  request body is an ordered list of entries.
- **Client calls.** A client call is the composition of the client function
  with the handler it reaches. Its result is how the promise settles plus the
  request paths it issued.

Modules:
- `values.dfy` (`Values`): JSON values, truthiness, `||`, the one-element-list
  shape `v ? [v] : []`, bodies.
- `text.dfy` (`Text`): decimal text, `split`/`join`, ASCII lowercasing, the
  PATCH column-name rule, `padStart`, `includes`.
- `numbers.dfy` (`Numbers`): JavaScript's `Number()` on text and PostgreSQL's
  32-bit `integer` input.
- `statement.dfy` (`Statement`): the SQL text of the two PATCH statements.
- `store.dfy` (`Store`): rows, tables, query failures, parameter binding, insert
  and update.
- `order.dfy` (`Order`): `ORDER BY` as a stable sort with a proved ordering.
- `http.dfy` (`Http`): replies and handler results.
- `api_read.dfy` (`ApiRead`): the GET routes of `api/index.js`.
- `api_write.dfy` (`ApiWrite`): the POST and PATCH routes of `api/index.js`.
- `login.dfy` (`Login`): `api/auth/login.js` and `api/routes/auth.js`.
- `admin.dfy` (`Admin`): `api/routes/admin.js`.
- `client_format.dfy` (`ClientFormat`): the formatters, `processUpdatesByProject`
  and `formatDateForAirtable`.
- `client.dfy` (`Client`): `apiRequest` and the fetch, create and update
  functions of `src/api/index.js`, composed with the handlers.

Behaviour of the code that a reader might not expect, and that the model
keeps:
- `POST /api/tasks` checks only that `Project` is truthy. A task for a project
  that does not exist is created with 201 (`ApiWrite.TaskForMissingProject`).
  A value the `integer` column refuses, such as `"abc"`, fails the INSERT with
  500.
- `POST /api/projects` likewise checks only that the account id is truthy.
- `PATCH /api/tasks/:id` on an id no task has answers 200 with an empty body
  (`ApiWrite.PatchTask`, `Client.UpdateMissingTaskRejects`).
- A task PATCH with an empty body fails with 500, because it calls
  `toLowerCase` on `undefined`.
- Both PATCH routes paste a column name made from a body key into the SQL
  text. A key holding a double quote, or a bare key with a comment marker,
  changes what the statement does (`Statement.QuoteBreakingKey`,
  `Statement.CommentingKey`). The PATCH contracts are stated for keys that
  stay one column name.
- The app mounts the admin router at `/api/admin` with nothing before it that
  sets `req.user`. Every admin request other than a CORS preflight `OPTIONS`
  (which `cors()` answers with 204 first) is therefore refused with 403,
  whatever its route (`Admin.Mounted`).
- A PATCH value for a foreign-key column goes through the column's `integer`
  cast. `"7"` is stored as 7, and `"abc"` fails the UPDATE with 500
  (`ApiWrite.PatchProjectCastsKey`, `ApiWrite.PatchTaskCastsKey`).
- Ids pass through two readers. `Number()` reads `" 1"`, `"1e3"`, `"0x10"` and
  `"-1"` as 1, 1000, 16 and -1 (`Numbers.NumberSignAndBlank` and its
  neighbours). PostgreSQL's `integer` input then refuses anything outside 32
  bits.

## Model

| member | source | states |
|---|---|---|
| Values.ListedLosesOnlyFalsy | src/api/index.js:42-43 | the `[v]`/`[]` shape gives back a truthy reference unchanged and loses only falsy ones |
| Text.DigitsValueOfNatToString | src/api/index.js:139 | the decimal text the client joins reads back as the same number |
| Text.SplitJoin | api/index.js:75 | splitting a comma-join of comma-free parts gives back the parts |
| Text.JoinSplit | api/index.js:75 | joining the pieces of a split gives back the text |
| Text.ReplaceSpaceRunsNoSpace | api/index.js:333 | replacing whitespace runs leaves no whitespace |
| Text.ReplaceSpaceRunsFixpoint | api/index.js:333 | the replacement leaves a string unchanged exactly when it has no whitespace |
| Text.ColumnNameShape | api/index.js:333 | a PATCH column name has neither whitespace nor upper-case letters |
| Text.ColumnNameFixpoint | api/index.js:333 | a key is its own column name exactly when it has no whitespace and no upper-case letter |
| Text.ColumnNameIdempotent | api/index.js:333 | applying the column rule twice is the same as applying it once |
| Text.PadTwo | src/api/index.js:190-191 | `padStart(2, '0')` keeps longer text and left-fills shorter text with zeros up to two characters |
| Store.FirstMatch | api/index.js:217-218 | `rows[0]` of a lookup is the first row in scan order whose column equals the parameter, and there is none exactly when no row matches |
| Store.IntParam | api/index.js:340-341 | a number binds as itself when it fits in 32 bits and fails the query otherwise; text goes through the `integer` input (sign and blanks allowed, 32-bit range); `undefined`/`null` bind as NULL, exactly; any other value fails the query |
| Store.IntParamOfText | api/index.js:340-341 | the decimal text of an integer, with blanks around it, binds as that integer when it fits in 32 bits and fails the query otherwise |
| Store.IntParamExamples | api/index.js:339-341 | `"7"` binds as 7; `"abc"` and `true` make the query fail |
| Numbers.PgInt4Reads | api/index.js:89 | PostgreSQL's `integer` input reads the decimal text of an integer, blanks around it allowed, as that integer exactly when it fits in 32 bits |
| Numbers.JsNumberOfInt | api/index.js:75 | `Number()` reads the decimal text of any integer back as that integer |
| Numbers.NumberSignAndBlank | api/index.js:75 | `Number(" -1")` is -1 |
| Numbers.NumberExponent | api/index.js:75 | `Number("1e3")` is 1000 |
| Numbers.NumberHex | api/index.js:75 | `Number("0x10")` is 16 |
| Numbers.NumberFraction | api/index.js:75 | `Number("1.5")` is no integer, so the cast refuses it |
| Store.InsertRow | api/index.js:221-225 | the insert appends one row with the next sequence id, keeps the table's columns, puts each given value in its column and leaves every other column NULL |
| Store.FindUpdated | api/index.js:339-348 | the first row with the id after the update is the first row with it before, with the assignments applied, and there is none exactly when there was none |
| Store.UniqueIdsPermuted | api/index.js:197 | reordering rows keeps their ids distinct |
| Store.UpdateWhereId | api/index.js:339-342 | the update changes exactly the rows with the id, giving them the assignments |
| Order.SortBy | api/index.js:197 | sorting returns a permutation of its input |
| Order.SortBySorted | api/index.js:197 | the sort's output is ordered by the terms |
| Order.RowCmpTransitive | api/index.js:197 | the row ordering is transitive, so a sorted list is ordered pairwise |
| ApiRead.UserByKey | api/index.js:25-51 | 500 exactly on a store failure; 404 exactly when no user has the key; on 200 every aggregate lists, once each, exactly the ids whose foreign key is the first matching user's id |
| ApiRead.ListUsers | api/index.js:53-60 | on success the reply is a permutation of every user's id, key and name, ordered by name |
| ApiRead.ReadIds | api/index.js:74-75 | missing exactly for a falsy value; not text exactly for a truthy non-string; a list exactly when every comma piece reads through `Number()` and the `integer` cast, and then the list is those integers in piece order |
| ApiRead.ViewsOfSelected | api/index.js:77-89 | the views of the rows a query selects by id are exactly the views of the listed rows, distinct when the selection is |
| ApiRead.ListedViews | api/index.js:77-89 | the selection of a bulk read is the views of exactly the listed rows |
| ApiRead.GetAccounts | api/index.js:71-97 | 400 exactly when `ids` is falsy; 200 exactly when `ids` reads as a list and the query succeeds; on 200 the rows are the views of exactly the accounts with a listed id (every column kept, plus the ids of the account's projects), with distinct ids when the table's ids are |
| ApiRead.AccountView | api/index.js:78-88 | an account row carries the ids of the projects that refer to it and every other column of the account |
| ApiRead.GetProjects | api/index.js:99-126 | as for accounts: on 200 the rows are the views (`ProjectView`) of exactly the projects with a listed id, with distinct ids when the table's ids are |
| ApiRead.ProjectView | api/index.js:106-118 | a project row carries its account's name (NULL when it joins none), its update ids and every other column of the project |
| ApiRead.ProjectUpdateIdsExact | api/index.js:112-118 | a project's update ids are exactly the ids of the updates that refer to it, one per such update, in the order of those updates sorted newest first |
| ApiRead.GetTasks | api/index.js:128-167 | as for accounts: on 200 the rows are the views (`TaskView`) of exactly the tasks with a listed id, with distinct ids when the table's ids are |
| ApiRead.TaskView | api/index.js:135-159 | a task row carries its project's id and name and its assignee's name (NULL when the key joins no row), the entries of exactly the updates that refer to it, and every other column of the task |
| ApiRead.TaskJoins | api/index.js:136-159 | the columns the task query adds, each with the row its key joins (NULL for none) |
| ApiRead.TaskUpdates | api/index.js:144-159 | a task's update list holds exactly the entries of the updates that refer to it, one entry per such update, in scan order |
| ApiRead.GetUpdates | api/index.js:172-204 | 200 exactly when `ids` is falsy or reads as a list and the query succeeds; with no `ids` the rows are the views of every update, with `ids` of exactly the listed ones; either way newest first, with distinct ids when the table's ids are |
| ApiRead.UpdateView | api/index.js:176-188 | an update row carries the live owner name, project id and name, task id and name, and account name (NULL when a key joins no row) and every other column of the update |
| ApiRead.UpdateJoins | api/index.js:177-188 | the six columns the update query adds, each from the row its key joins (NULL for none) |
| ApiRead.UpdateViewKeepsSortKeys | api/index.js:197 | the view of an update keeps its date and creation time |
| ApiRead.UpdateViewsSorted | api/index.js:197 | adding the joined names keeps the newest-first order |
| ApiRead.SortedKeepsSelection | api/index.js:192-199 | sorting the selected updates keeps them the views of exactly the listed rows |
| ApiWrite.FirstOf | api/index.js:212-217 | `x[0]` throws exactly on `undefined` and `null`; it gives an array's first element, a string's first character, an object's property `"0"`, and `undefined` for a boolean or a number |
| ApiWrite.PostAccount | api/index.js:211-227 | 400 exactly when the owner key resolves to no user; 500 exactly when the "Account Owner" value is missing or null (indexing it throws), the owner lookup fails, or, with an owner found, the INSERT fails; no row is inserted unless the reply is 201; a 201 appends a row owned by the resolved user whose name, type and description are the body's "Account Name", "Account Type" and "Account Description" |
| ApiWrite.ResolveUser | api/index.js:217-219 | a resolved user is a user holding the key with a truthy id; no user holding the key means none resolves |
| ApiWrite.PostProject | api/index.js:229-246 | 400 exactly when the account id is falsy or the owner does not resolve; 500 exactly when a key is missing, a lookup fails, the account id is refused by the `integer` cast, or the insert fails; nothing is inserted on failure; a 201 row holds the cast account id and the owner, and NULL for a falsy value |
| ApiWrite.InsertProject | api/index.js:240-244 | 500 exactly when the account id is refused or the insert fails; a 201 appends a row holding the account id, the owner and NULL for a falsy value |
| ApiWrite.PostTask | api/index.js:248-273 | 400 exactly when the project is falsy or a key does not resolve; 500 exactly when a lookup fails, the project is refused by the `integer` cast or the insert fails; a 201 appends a row with the cast project id and the resolved user ids |
| ApiWrite.InsertTask | api/index.js:265-269 | 500 exactly when the project id is refused or the insert fails; a 201 appends a row holding the project id and the two user ids |
| ApiWrite.PostTaskSucceeds | api/index.js:258-269 | with a truthy project, two resolving keys and a working insert, the reply is 201 exactly when the `integer` cast accepts the project, and the row holds the cast id |
| ApiWrite.TaskForMissingProject | api/index.js:261 | a task is created for a project id that no project has |
| ApiWrite.PostUpdate | api/index.js:278-316 | 400 exactly when the update is rejected for a missing project, owner, account or name; 500 exactly on a store failure or a project or task id the `integer` cast refuses; a 201 row holds the cast project and task ids and the owner's, project's and account's names at insert time, and a NULL task when none is given |
| ApiWrite.InsertUpdate | api/index.js:307-312 | 500 exactly when the task id is refused or the insert fails; a 201 row holds the project and owner ids, the three names and the task id as cast |
| ApiWrite.PlaceholderLayout | api/index.js:331-341 | field i is bound through `$i+1` to its own value, the id through `$n+1`, and no two placeholders coincide |
| ApiWrite.AssignmentsValues | api/index.js:331-340 | with distinct columns, the SET list gives every column exactly its placeholder's value |
| ApiWrite.PatchAssignments | api/index.js:331-341 | the SET list gives each key's column the key's value as that column stores it (the cast integer for a foreign key) and assigns no other column |
| ApiWrite.PatchProjectStatement | api/index.js:331-340 | with keys that stay quoted names, the statement quotes exactly the keys' column names, in body order |
| Statement.ProjectStatementNames | api/index.js:331-340 | the project UPDATE quotes exactly its columns, in order, when every column name is free of double quotes |
| Statement.SetListNames | api/index.js:331-335 | the SET list quotes exactly its columns, in order |
| Statement.QuoteBreakingKey | api/index.js:333-340 | for a non-empty `mid`, a key of the form `a"mid"b` is not a safe quoted name, and the statement text names `a` and `b` as two quoted identifiers; with `mid` = ` = 'x', ` that is a second assignment |
| Statement.EscapedQuote | api/index.js:333-340 | a doubled quote inside a quoted identifier is one literal quote: `"a""b"` names the single column `a"b` |
| Statement.QuoteBreakingKeyKept | api/index.js:333 | such a key without blanks or capitals passes the column rule unchanged |
| ApiWrite.PatchProject | api/index.js:320-352 | 400 exactly for an empty body; for keys that stay quoted column names other than `id`: 500 exactly on a store failure, a column named twice, an id the cast refuses or a foreign-key value the cast refuses; 404 exactly when none of these happens and no project has the cast id; on 200 only the projects with the id change, each field's column holding the field's value (a foreign key as the cast integer) and every other column kept, and the reply is the updated row |
| ApiWrite.PatchProjectAt | api/index.js:320-352 | the PATCH with the id already through the cast: 400, 500, 404 and 200 as for PatchProject, for every body; foreign-key values go through the `integer` cast |
| ApiWrite.ApplyProjectPatch | api/index.js:339-348 | on a project that exists the update answers 200 with the updated row and changes only the rows with the id, each field's column holding the value stored for it (a foreign key as the cast integer) |
| ApiWrite.StoredOfBound | api/index.js:340-341 | binding `undefined` as NULL first does not change what a column stores |
| ApiWrite.PatchProjectCastsKey | api/index.js:333-350 | a value sent for a project's foreign key that the cast refuses answers 500; on 200 the rows with the id hold the integer the cast reads |
| ApiWrite.PatchProjectKeepsSnapshots | api/index.js:308-310 | patching a project leaves the names already written into update rows as they were |
| ApiWrite.PatchTask | api/index.js:355-368 | an empty body gives 500; for a first key that lowercases to a plain column name other than `id`: 500 exactly on a store failure, an id the cast refuses or a foreign-key value the cast refuses; on 200 only that column changes, only on rows with the id, holding the value (a foreign key as the cast integer); the reply is the updated row, or empty exactly when no task has the id |
| ApiWrite.PatchTaskAt | api/index.js:355-368 | the task PATCH with the id already through the cast: 500 exactly on a store failure, a refused id or a refused foreign-key value, and on 200 only the first key's column changes on rows with the id, holding the value as the column stores it |
| ApiWrite.PatchTaskCastsKey | api/index.js:359-366 | a value sent for a task's foreign key that the cast refuses answers 500; on 200 the rows with the id hold the integer the cast reads |
| Statement.CommentingKey | api/index.js:361-363 | a key ending in ` --` lowercases to itself and turns the rest of the task UPDATE, the `WHERE` included, into a comment |
| Statement.CommentingKeyNotPlain | api/index.js:361-363 | such a key is not a plain column name, so PatchTask's contract does not cover it |
| ApiWrite.PatchTaskReadsOnlyFirstKey | api/index.js:359-360 | bodies that agree on their first entry give the same reply and store |
| ApiWrite.PatchUser | api/index.js:62-64 | the user PATCH always answers 200 and changes nothing |
| Login.Login | api/auth/login.js:3-64 | 405 exactly for a non-POST; 400 exactly for a falsy key; 404 exactly when no user has the key; 500 exactly when a lookup fails; on 200 the payload of the first user with the key, each list one id per referring row in table order |
| Login.PayloadOf | api/auth/login.js:47-58 | the user part shows only key, name and role, and each list holds one id per row whose foreign key is the user's id, in table order, and no other id |
| Login.Aggregate | api/auth/login.js:26-44 | `SELECT id … WHERE col = $1` lists one id per referring row, in table order, and no other id |
| Login.LoginFailsWithoutUserId | api/auth/login.js:26-30 | in a store without the `user_id` column that the login queries name, every login of a known user fails with 500 |
| Login.Verify | api/routes/auth.js:10-35 | 400 exactly for a falsy key; 500 exactly on a store failure; 404 exactly when no user has the key; on 200 the role of the first matching user |
| Login.LoginAgreesWithVerify | api/routes/auth.js:19-29 | login and verification agree on which keys exist, and a user who logs in verifies with the role the login shows |
| Admin.RouteOf | api/routes/admin.js:18-51 | each of the four routes is reached exactly by its verb and path (GET or HEAD for the listings, POST for the task insert), and any other request is unrouted |
| Admin.PathsExclusive | api/routes/admin.js:18-51 | no path matches two of the three route paths |
| Admin.Serve | api/routes/admin.js:18-63 | a listing is the whole table; 500 exactly on a store failure for each listing and for the insert; an unrouted request gets 404; the task insert appends one row with the title, description and assignee sent and keeps the table's columns; only an insert that answers 201 changes the store |
| Admin.Handle | api/routes/admin.js:5-15 | a non-admin caller gets exactly 403 Forbidden and the store is unchanged; an admin reaches the route handler |
| Admin.Mounted | api/index.js:12-14 | mounted with nothing that sets `req.user`, the router answers every request that reaches it (every one but a CORS preflight) with 403 Forbidden and changes nothing |
| Admin.GuardIgnoresRoute | api/routes/admin.js:15 | whether a request is refused depends only on the caller, never on the route or body |
| Admin.UserListingNeedsUsername | api/routes/admin.js:20 | the admin user listing fails whenever the users table has no `username` column |
| ClientFormat.FormatAccount | src/api/index.js:25-33 | the record has exactly the four fields; the id, name, type and description pass through and a missing project list becomes `[]` |
| ClientFormat.FormatProject | src/api/index.js:35-48 | the record has exactly the nine fields; the id, name, status, dates, value and description pass through; the account id and name keep exactly their truthy values in a list of at most one; missing updates become `[]` |
| ClientFormat.FormatTask | src/api/index.js:50-63 | the record has exactly the nine fields; the id, name, description, status and due date pass through; the project, its name, the assignee and the assignee's name keep exactly their truthy values in a list of at most one |
| ClientFormat.FormatUpdate | src/api/index.js:71-85 | the record has exactly the nine fields; the id, notes, date, type, project and task names pass through; the project, task and owner name keep exactly their truthy values; the account name is carried over |
| ClientFormat.ProcessUpdatesByProject | src/api/index.js:200-214 | no project ids give `{}`; otherwise the keys are exactly the project ids and each bucket equals an independent definition of the grouping |
| ClientFormat.BucketMembers | src/api/index.js:204-211 | an update is in a bucket exactly when one of its project references is a listed, truthy id naming that bucket |
| ClientFormat.HitsPositive | src/api/index.js:206-210 | a reference files an update under a key exactly when some reference of that update names it |
| ClientFormat.BucketAppend | src/api/index.js:204-209 | grouping keeps input order: the bucket of a concatenation is the first part's bucket followed by the second part's |
| ClientFormat.FormatDateForAirtable | src/api/index.js:186-193 | empty text exactly for a falsy input; an unreadable date gives `NaN-NaN-NaN` |
| ClientFormat.DateRoundTrip | src/api/index.js:189-192 | the text splits at `-` into three numbers that read back as the year, the 1-based month and the day, with month and day two digits each |
| ClientFormat.FourDigitYear | src/api/index.js:189-192 | a four-digit year gives a ten-character `YYYY-MM-DD` |
| Client.ApiRequest | src/api/index.js:2-19 | a 2xx JSON reply settles with its body; any other reply rejects, with the body's `error` when there is one |
| Client.IdsRoundTrip | src/api/index.js:139 | the server reads back exactly the ids the client joined when each fits in 32 bits, and refuses the list otherwise |
| Client.SplitDecimals | src/api/index.js:139 | splitting the joined id list at commas gives back the ids' decimal texts |
| Client.IdOfDecimal | src/api/index.js:139 | the decimal text of an id reaches the query as that id exactly when it fits in 32 bits |
| Client.FetchByIds | src/api/index.js:137-159 | the bulk fetch of any endpoint: the one request, settling exactly when every id fits and the query succeeds, with the formatted views of exactly the listed rows |
| Client.FetchAccountsByIds | src/api/index.js:137-141 | no or empty ids give `[]` without a request; otherwise one request, settling exactly when every id fits in 32 bits and the server query succeeds, with the client format of the server's views of exactly the listed accounts |
| Client.FetchProjectsByIds | src/api/index.js:143-147 | as for accounts, over projects |
| Client.FetchTasksByIds | src/api/index.js:149-153 | as for accounts, over tasks |
| Client.FetchUpdatesByIds | src/api/index.js:155-159 | as for accounts, over updates, and the records are newest first |
| Client.FetchUpdatesByProjectId | src/api/index.js:161-165 | a falsy project gives `[]` without a request; a truthy one reaches no server route and rejects |
| Client.FetchAllUpdates | src/api/index.js:195-198 | settles exactly when the server query succeeds, with the client format of the views of every update, newest first by date and then creation time |
| Client.FetchAccountById | src/api/index.js:168 | settles exactly when the id fits in 32 bits and the query succeeds; with `null` exactly when no account has the id, and otherwise with the formatted view of an account with it |
| Client.FetchProjectById | src/api/index.js:169 | as for accounts, over projects |
| Client.FetchUpdateById | src/api/index.js:170 | as for accounts, over updates |
| Client.FetchTaskById | src/api/index.js:171 | as for accounts, over tasks |
| Client.FetchById | src/api/index.js:168-171 | the single fetch of any endpoint: `null` exactly when no row has the id, and otherwise the formatted view of a row with it |
| Client.FirstOfFetched | src/api/index.js:168-171 | the first of the records fetched for one id is `null` exactly when no row has the id |
| Client.FetchAllUsers | src/api/index.js:116-120 | one entry per user, and every user appears under its key and name; the entries are the formatted rows of a permutation of the users' listings sorted by name |
| Client.RouteParam | api/index.js:25 | a route parameter is a non-empty text without `/`, matched as itself or with one trailing `/` |
| Client.RouteParamMatches | api/index.js:62 | every segment is matched, with and without a trailing slash; the empty text, a lone slash and a text with an inner slash are not |
| Client.FetchUserBySecretKeyAsWritten | src/api/index.js:93-114 | a key that is no route segment rejects on the HTML 404 page; a found user is the first one holding the key (less a trailing slash) |
| Client.UnknownKeyRejects | src/api/index.js:111 | as written, a key that reaches the route but that no user has makes the call reject with the server's 404 instead of settling with `null` |
| Client.FetchUserBySecretKey | src/api/index.js:93-114 | with the 404 read from the status: `null` exactly when the key reaches the route and no user has it; a rejection exactly when the key reaches no route or the store fails |
| Client.PostTable | src/api/index.js:124-128 | the four tables with a POST route are reached by their lowercased name, with or without a trailing slash, and no other endpoint reaches a table |
| Client.CreateRecord | src/api/index.js:124-128 | posts to the lowercased table name; a table without a POST route rejects and changes nothing; a created record carries the new row's id and the row; the table gains that row at its end with its columns kept and its sequence advanced to the row's id, and no other table changes |
| Client.UpdateRecord | src/api/index.js:130-133 | patches at the lowercased table name and the id; a table without a PATCH route, or an id that is no route segment, rejects and changes nothing; otherwise the project or task PATCH runs on the matched segment; users are never changed |
| Client.UpdateMissingTaskRejects | src/api/index.js:182 | updating a task id that no task has rejects on the empty 200 reply, and so does an id that reaches no route |
| Client.UpdateUserAcknowledges | src/api/index.js:181 | updating a user settles exactly when the id reaches the route, and changes nothing |

## Findings

| source | as written | input that shows it | evidently intended | confidence | as-written member | corrected member |
|---|---|---|---|---|---|---|
| src/api/index.js:111 | an unknown key is recognised only by an error message that contains "404" | any key no user has: the server answers 404 `{error: "User not found."}`, and that message has no "404" in it | an unknown key settles with `null` | not executed | Client.FetchUserBySecretKeyAsWritten, Client.UnknownKeyRejects | Client.FetchUserBySecretKey |

## Left out

- Network, `fetch`, Express routing internals, `cors`, `body-parser` and logging. Handlers are called directly. A route the server does not declare is modelled as the HTML 404 page, which the client cannot read as JSON.
- The SQL engine. Queries are stated as their result sets over in-memory tables. Store failures other than a missing column are an explicit `faults` parameter, because their causes are outside the code.
- Concurrency. The five login queries run under `Promise.all`; the model treats them as one all-or-nothing step.
- JavaScript `Date` and time zones. `formatDateForAirtable` takes the calendar fields `getFullYear`, `getMonth` and `getDate` as input.
- Rounding in `Number()`. Text is read exactly: a piece like `"1e-400"`, which JavaScript rounds to 0, is taken as a fraction, and so is refused by the cast.
- Store.IntParam: follows the `integer` input of PostgreSQL before version 16. The radix prefixes and underscores that version 16 accepts are refused.
- Store.InsertRow: stores the values its callers give. The POST handlers cast the foreign-key ids through `integer` first; the other columns are stored as sent. The casts of typed columns such as dates or `project_value` are not modelled, and neither are their failures. Column defaults are not modelled either: a column not sent is NULL, even one with a `DEFAULT` such as `updates.created_at`, which the newest-first order reads.
- Values.Val: JSON numbers are integers. A fractional number is not represented, so neither the 500 of `{"Project": 1.5}` (the integer cast refuses it) nor a fractional `Project Value` is modelled.
- Client.FetchAccountsByIds: the ids are integers. The client also joins strings and other values, and the model does not cover those (likewise FetchProjectsByIds, FetchTasksByIds, FetchUpdatesByIds and the single fetches).
- InsertProject: treats a NULL account id as a failure. PostProject never passes one, because it answers 400 for a falsy account first. InsertTask does the same with the project id.
- PatchProject: states its 500, 404 and 200 outcomes only when every key's column name is `QuoteSafe`: 1 to 63 printable ASCII characters and no double quote. For other keys the statement text can name other columns (`Statement.QuoteBreakingKey`), and the model makes no promise there. It also makes no promise for the key `id`: PostgreSQL renumbers the row, while the model has no `id` column to assign and answers 500. Foreign-key values go through the `integer` cast; the casts of the other typed columns (dates, `project_value`) and their failures are not modelled, and those values are stored as sent.
- PatchTask: states its 500 and 200 outcomes only when the lowercased first key is a `PlainIdentifier`: an ASCII lower-case identifier of at most 63 characters that is not a key word. For other keys the statement text can change other rows (`Statement.CommentingKey`), and the model makes no promise there. The key-word list holds the reserved words of PostgreSQL. Identifiers with non-ASCII letters, which PostgreSQL also accepts, are not covered. Nor is the key `id`, which PostgreSQL lets the statement renumber. Foreign-key values go through the `integer` cast; the casts of the other typed columns (dates) and their failures are not modelled, and those values are stored as sent.
- Unicode case mapping. `toLowerCase` is modelled on ASCII letters only.
- The collation `ORDER BY user_name` uses. Text is compared by code point.
- URL encoding of the secret key and ids in the request path. `Client.RouteParam` takes the text after the route prefix as the path segment. It does not model `?` or `#` cutting the path, Express's percent-decoding of parameters, or the dot segments `.` and `..` that `fetch` resolves.
- A missing JSON body (`req.body` undefined).
- The `__proto__` key and integer-like keys, which `Object.keys` orders first.
- The 204 branch of `apiRequest`: no handler answers 204.
- Bodies of HEAD replies.
- Response body shapes other than `{error: …}`. `/verify` and the admin routes send their 500 errors as plain text. `/verify`'s 400 and 404 and the admin router's 403 send `{message: …}`. The model gives all of these an error message.
- ClientFormat.ProcessUpdatesByProject: requires every update's `Project` field to be a list or falsy. Any other value makes the source's `forEach` throw, and the model does not cover that.
- ClientFormat.FormatDateForAirtable: covers years only as integers, and `DateRoundTrip` covers only years from 0 on. A negative year's sign is not padded.
- Client.FetchUserBySecretKeyAsWritten: states only its found-user case and its route miss. Its not-found behaviour is the finding stated by `Client.UnknownKeyRejects`.
- ApiWrite.PatchProjectAt: casts only the foreign-key columns, as PatchProject's line says, and does not model the renumbering a key `id` asks for.
- ApiWrite.ApplyProjectPatch: casts only the foreign-key columns; the other typed columns are stored as sent.
- ApiWrite.PatchTaskAt: casts only the foreign-key columns, as PatchTask's line says, and does not model the renumbering a key `id` asks for.
- The React pages, `App.jsx` and the creation and update shortcuts (`createAccount` … `updateTask`). These only fix the table argument of `createRecord` and `updateRecord`.

=== FILE: admin.dfy ===
/** The admin router (api/routes/admin.js), mounted under `/api/admin`: a role
    check installed in front of every route, three listings and a task insert.
    The router reads the caller from `req.user`, which the request carries as a
    plain value. */
module Admin {
  import opened Values
  import opened Text
  import opened Store
  import opened Http

  /** An admin request: the verb, the path below `/api/admin`, `req.user` and
      the JSON body. */
  datatype AdminRequest = AdminRequest(verb: string, path: string, user: Val, body: Obj)

  /** What an admin route sends: a list of rows or the inserted row. */
  datatype AdminBody = RowList(rows: seq<Row>) | OneRow(row: Row)

  /** `req.user && req.user.user_type === 'admin'`. */
  predicate IsAdmin(user: Val) {
    Truthy(user) && Prop(user, "user_type") == Str("admin")
  }

  /** The routes the router declares. */
  datatype Route = ListUsers | ListProjects | ListTasks | CreateTask | Unrouted

  /** Express route paths match without regard to case and with an optional
      trailing slash. */
  predicate PathIs(path: string, route: string) {
    Lower(path) == route || Lower(path) == route + "/"
  }

  /** The route a request reaches; `HEAD` is served by the `GET` routes. */
  function RouteOf(verb: string, path: string): (r: Route)
    ensures r == CreateTask <==> verb == "POST" && PathIs(path, "/tasks")
    ensures r == ListUsers <==> (verb == "GET" || verb == "HEAD") && PathIs(path, "/users")
    ensures r == ListProjects <==> (verb == "GET" || verb == "HEAD") && PathIs(path, "/projects")
    ensures r == ListTasks <==> (verb == "GET" || verb == "HEAD") && PathIs(path, "/tasks")
    ensures r == Unrouted <==> && !((verb == "GET" || verb == "HEAD") && (PathIs(path, "/users") || PathIs(path, "/projects") || PathIs(path, "/tasks")))
                               && !(verb == "POST" && PathIs(path, "/tasks"))
  {
    PathsExclusive(path);
    var isRead := verb == "GET" || verb == "HEAD";
    if isRead && PathIs(path, "/users") then ListUsers
    else if isRead && PathIs(path, "/projects") then ListProjects
    else if isRead && PathIs(path, "/tasks") then ListTasks
    else if verb == "POST" && PathIs(path, "/tasks") then CreateTask
    else Unrouted
  }

  /** A path matches at most one of the three route paths. */
  lemma PathsExclusive(path: string)
    ensures !(PathIs(path, "/users") && PathIs(path, "/projects"))
    ensures !(PathIs(path, "/users") && PathIs(path, "/tasks"))
    ensures !(PathIs(path, "/projects") && PathIs(path, "/tasks"))
  {
    var l := Lower(path);
    if PathIs(path, "/users") {
      assert l[1] == 'u';
    }
    if PathIs(path, "/projects") {
      assert l[1] == 'p';
    }
  }

  const UserColumns: set<string> := {"username", "email", "user_type"}

  /** `SELECT id, username, email, user_type`: each row cut down to those columns. */
  function Selected(rows: seq<Row>, columns: set<string>): (out: seq<Row>)
    ensures |out| == |rows|
    ensures forall i :: 0 <= i < |rows| ==> out[i].id == rows[i].id && out[i].cols.Keys <= columns
    ensures forall i, c :: 0 <= i < |rows| && c in columns ==> Cell(out[i], c) == Cell(rows[i], c)
  {
    seq(|rows|, i requires 0 <= i < |rows| => Row(rows[i].id, map c | c in columns && c in rows[i].cols :: rows[i].cols[c]))
  }

  function TaskValues(body: Obj): (values: map<string, Val>)
    ensures values.Keys == {"title", "description", "assigned_to"}
  {
    map["title" := AsParam(Get(body, "title")),
        "description" := AsParam(Get(body, "description")),
        "assigned_to" := AsParam(Get(body, "assigned_to"))]
  }

  /** A route handler once the guard has let the request through. */
  function Serve(db: Db, faults: set<nat>, route: Route, body: Obj): (h: Handled<AdminBody>)
    ensures h.reply.status in {200, 201, 404, 500}
    ensures route != CreateTask || h.reply.status != 201 ==> h.db == db
    ensures h.reply.status == 404 <==> route == Unrouted
    ensures route == ListProjects && h.reply.status == 200 ==> h.reply.body == Data(RowList(db.projects.rows))
    ensures route == ListTasks && h.reply.status == 200 ==> h.reply.body == Data(RowList(db.tasks.rows))
    ensures route == ListUsers && h.reply.status == 200 ==> h.reply.body == Data(RowList(Selected(db.users.rows, UserColumns)))
    ensures route == ListUsers ==> (h.reply.status == 500 <==> 0 in faults || !(UserColumns <= db.users.columns))
    ensures route == ListProjects || route == ListTasks ==> (h.reply.status == 500 <==> 0 in faults)
    ensures route == CreateTask ==> (h.reply.status == 500 <==> 0 in faults || !(TaskValues(body).Keys <= db.tasks.columns))
    ensures route == CreateTask && h.reply.status == 201 ==>
              && h.reply.body.Data? && h.reply.body.value.OneRow?
              && var row := h.reply.body.value.row;
              && h.db.tasks.rows == db.tasks.rows + [row]
              && h.db.tasks.columns == db.tasks.columns
              && row.id == db.tasks.serial + 1
              && h.db.tasks.serial == row.id
              && Cell(row, "title") == AsParam(Get(body, "title"))
              && Cell(row, "description") == AsParam(Get(body, "description"))
              && Cell(row, "assigned_to") == AsParam(Get(body, "assigned_to"))
              && forall t :: t != Tasks ==> h.db.Get(t) == db.Get(t)
  {
    match route
    case ListUsers =>
      if 0 in faults || !(UserColumns <= db.users.columns) then Handled(Fail(500, "Server error"), db)
      else Handled(Reply(200, Data(RowList(Selected(db.users.rows, UserColumns)))), db)
    case ListProjects =>
      if 0 in faults then Handled(Fail(500, "Server error"), db)
      else Handled(Reply(200, Data(RowList(db.projects.rows))), db)
    case ListTasks =>
      if 0 in faults then Handled(Fail(500, "Server error"), db)
      else Handled(Reply(200, Data(RowList(db.tasks.rows))), db)
    case CreateTask =>
      var values := TaskValues(body);
      if 0 in faults || !(values.Keys <= db.tasks.columns) then Handled(Fail(500, "Server error"), db)
      else
        var (table, row) := InsertRow(db.tasks, values);
        Handled(Reply(201, Data(OneRow(row))), db.Put(Tasks, table))
    case Unrouted => Handled(Fail(404, "Not Found"), db)
  }

  /** The router: the guard runs first for every request, whatever its route. */
  function Handle(db: Db, faults: set<nat>, req: AdminRequest): (h: Handled<AdminBody>)
    ensures !IsAdmin(req.user) <==> h.reply == Fail(403, "Forbidden")
    ensures !IsAdmin(req.user) ==> h.db == db
    ensures IsAdmin(req.user) ==> h == Serve(db, faults, RouteOf(req.verb, req.path), req.body)
  {
    if !IsAdmin(req.user) then Handled(Fail(403, "Forbidden"), db)
    else Serve(db, faults, RouteOf(req.verb, req.path), req.body)
  }

  /** The router as the app mounts it at `/api/admin`: no middleware before it
      sets `req.user`, so every request that reaches it arrives without a user
      and the guard refuses it, whatever its route, and nothing is written.
      A preflight `OPTIONS` request never reaches it: `cors()` answers that
      one with 204 first. */
  function Mounted(db: Db, faults: set<nat>, verb: string, path: string, body: Obj): (h: Handled<AdminBody>)
    ensures h.reply == Fail(403, "Forbidden")
    ensures h.db == db
  {
    Handle(db, faults, AdminRequest(verb, path, Undefined, body))
  }

  /** The guard depends on the caller alone: two requests from the same caller
      are both refused or both let through, whatever their routes and bodies. */
  lemma GuardIgnoresRoute(db: Db, faults: set<nat>, a: AdminRequest, b: AdminRequest)
    requires a.user == b.user
    ensures Handle(db, faults, a).reply.status == 403 <==> Handle(db, faults, b).reply.status == 403
  {
  }

  /** An admin's listing of users fails whenever the users table lacks the
      `username` column the query names. */
  lemma UserListingNeedsUsername(db: Db, faults: set<nat>, req: AdminRequest)
    requires IsAdmin(req.user) && RouteOf(req.verb, req.path) == ListUsers
    requires "username" !in db.users.columns
    ensures Handle(db, faults, req).reply.status == 500
  {
  }
}

=== FILE: api_read.dfy ===
/** The read endpoints of the Express backend (api/index.js): the user summary
    by secret key, the user list, and the bulk fetches of accounts, projects,
    tasks and updates by an `ids` query parameter. */
module ApiRead {
  import opened Values
  import opened Text
  import opened Numbers
  import opened Store
  import opened Order
  import opened Http

  // ---------------------------------------------------------------------
  // GET /api/users/by-secret-key/:key
  // ---------------------------------------------------------------------

  /** The single row the summary query returns. */
  datatype UserSummary = UserSummary(
    id: nat, airtableId: Val, userName: Val,
    accounts: seq<nat>, projects: seq<nat>, tasksAssignedTo: seq<nat>,
    tasksCreatedBy: seq<nat>, updates: seq<nat>)

  const SummaryNeeds: seq<Need> := [
    (Users, "airtable_id"), (Users, "user_name"), (Accounts, "account_owner_id"),
    (Projects, "project_owner_id"), (Tasks, "assigned_to_id"), (Tasks, "created_by_id"),
    (Updates, "update_owner_id")]

  /** `COALESCE(json_agg(DISTINCT t.id) FILTER (WHERE t.id IS NOT NULL), '[]')`
      over `LEFT JOIN t ON t.col = u.id`. */
  function Owned(t: Table, col: string, uid: nat): seq<nat> {
    Distinct(IdsWhere(t.rows, col, uid))
  }

  /** `ids` lists, each once, exactly the rows of `t` whose `col` refers to `uid`. */
  ghost predicate ExactlyOwned(ids: seq<nat>, t: Table, col: string, uid: nat) {
    && (forall x :: x in ids <==> exists i :: 0 <= i < |t.rows| && t.rows[i].id == x && RefersTo(t.rows[i], col, uid))
    && (forall i, j :: 0 <= i < j < |ids| ==> ids[i] != ids[j])
  }

  /** The summary is the one of `user`, every aggregate exact and free of repeats. */
  ghost predicate SummaryOf(db: Db, user: Row, s: UserSummary) {
    && s.id == user.id
    && s.airtableId == Cell(user, "airtable_id")
    && s.userName == Cell(user, "user_name")
    && ExactlyOwned(s.accounts, db.accounts, "account_owner_id", user.id)
    && ExactlyOwned(s.projects, db.projects, "project_owner_id", user.id)
    && ExactlyOwned(s.tasksAssignedTo, db.tasks, "assigned_to_id", user.id)
    && ExactlyOwned(s.tasksCreatedBy, db.tasks, "created_by_id", user.id)
    && ExactlyOwned(s.updates, db.updates, "update_owner_id", user.id)
  }

  /** GET /api/users/by-secret-key/:key. */
  function UserByKey(db: Db, faults: set<nat>, key: string): (r: Reply<UserSummary>)
    ensures r.status in {200, 404, 500}
    ensures r.status == 500 <==> Throws(db, faults, 0, SummaryNeeds)
    ensures r.status == 404 <==> (!Throws(db, faults, 0, SummaryNeeds)
                                 && forall i :: 0 <= i < |db.users.rows| ==> !TextMatches(db.users.rows[i], "airtable_id", Str(key)))
    ensures r.status == 200 ==> r.body.Data?
                                && FirstMatch(db.users.rows, "airtable_id", Str(key)).Some?
                                && SummaryOf(db, FirstMatch(db.users.rows, "airtable_id", Str(key)).value, r.body.value)
  {
    if Throws(db, faults, 0, SummaryNeeds) then Fail(500, "Failed to fetch user.")
    else match FirstMatch(db.users.rows, "airtable_id", Str(key))
      case None => Fail(404, "User not found.")
      case Some(u) =>
        Reply(200, Data(UserSummary(
          u.id, Cell(u, "airtable_id"), Cell(u, "user_name"),
          Owned(db.accounts, "account_owner_id", u.id),
          Owned(db.projects, "project_owner_id", u.id),
          Owned(db.tasks, "assigned_to_id", u.id),
          Owned(db.tasks, "created_by_id", u.id),
          Owned(db.updates, "update_owner_id", u.id))))
  }

  // ---------------------------------------------------------------------
  // GET /api/users
  // ---------------------------------------------------------------------

  const ByUserName: seq<Term> := [Asc("user_name")]

  /** `SELECT id, airtable_id, user_name`. */
  function UserListing(u: Row): Row {
    Row(u.id, map["airtable_id" := Cell(u, "airtable_id"), "user_name" := Cell(u, "user_name")])
  }

  function UserListings(rows: seq<Row>): (out: seq<Row>)
    ensures |out| == |rows|
    ensures forall i :: 0 <= i < |rows| ==> out[i] == UserListing(rows[i])
  {
    if |rows| == 0 then [] else [UserListing(rows[0])] + UserListings(rows[1..])
  }

  /** GET /api/users: every user's id, key and name, ordered by name. */
  function ListUsers(db: Db, faults: set<nat>): (r: Reply<seq<Row>>)
    ensures r.status in {200, 500}
    ensures r.status == 500 <==> Throws(db, faults, 0, [(Users, "airtable_id"), (Users, "user_name")])
    ensures r.status == 200 ==> r.body.Data? && Sorted(r.body.value, ByUserName)
                                && multiset(r.body.value) == multiset(UserListings(db.users.rows))
  {
    if Throws(db, faults, 0, [(Users, "airtable_id"), (Users, "user_name")]) then Fail(500, "Failed to fetch all users.")
    else
      var out := SortBy(UserListings(db.users.rows), ByUserName);
      SortBySorted(UserListings(db.users.rows), ByUserName);
      Reply(200, Data(out))
  }

  // ---------------------------------------------------------------------
  // The `ids` query parameter
  // ---------------------------------------------------------------------

  /** The integers the pieces of `ids.split(',').map(Number)` become in
      `$1::integer[]`, or `None` when the cast refuses one of them. */
  function IdsOf(pieces: seq<string>): (r: Option<seq<int>>)
    ensures r.Some? <==> AllIds(pieces)
    ensures r.Some? ==> |r.value| == |pieces|
                        && forall i :: 0 <= i < |pieces| ==> IdOfPiece(pieces[i]) == Some(r.value[i])
  {
    var xs := seq(|pieces|, i requires 0 <= i < |pieces| => IdOfPiece(pieces[i]));
    assert forall i :: 0 <= i < |xs| ==> xs[i] == IdOfPiece(pieces[i]);
    AllPresent(xs)
  }

  /** The values of a list of options, when none is missing. */
  function AllPresent(xs: seq<Option<int>>): (r: Option<seq<int>>)
    ensures r.Some? <==> forall i :: 0 <= i < |xs| ==> xs[i].Some?
    ensures r.Some? ==> |r.value| == |xs| && forall i :: 0 <= i < |xs| ==> xs[i] == Some(r.value[i])
  {
    if |xs| == 0 then Some([])
    else match (xs[0], AllPresent(xs[1..]))
      case (Some(n), Some(rest)) =>
        assert forall i :: 1 <= i < |xs| ==> xs[i] == xs[1..][i - 1];
        Some([n] + rest)
      case (None, _) => None
      case (_, None) =>
        assert forall i :: 1 <= i < |xs| ==> xs[i] == xs[1..][i - 1];
        None
  }

  /** Every piece is an id the integer-array cast accepts. */
  predicate AllIds(pieces: seq<string>) {
    forall i :: 0 <= i < |pieces| ==> IdOfPiece(pieces[i]).Some?
  }

  /** What `ids` comes to on the way into the query. */
  datatype IdsArg =
    | Missing                 // `!ids`
    | NotText                 // `ids.split` is not a function
    | NotNumbers              // the integer-array cast refuses a piece
    | IdList(ids: seq<int>)   // the integers of `ids.split(',').map(Number)`

  /** `ids` is read piece by piece: each comma-separated piece through
      `Number()` and the `integer` input function, so `" 1"`, `"1e3"`, `"0x10"`
      and `"-1"` are ids, while `"1.5"`, `"abc"` and `"3000000000"` are not. */
  function ReadIds(v: Val): (a: IdsArg)
    ensures a == Missing <==> !Truthy(v)
    ensures a == NotText <==> Truthy(v) && !v.Str?
    ensures a.IdList? <==> Truthy(v) && v.Str? && AllIds(Split(v.s, ','))
    ensures a.IdList? ==> v.Str? && |a.ids| == |Split(v.s, ',')|
                          && forall i :: 0 <= i < |a.ids| ==> IdOfPiece(Split(v.s, ',')[i]) == Some(a.ids[i])
  {
    if !Truthy(v) then Missing
    else if !v.Str? then NotText
    else
      var pieces := Split(v.s, ',');
      match IdsOf(pieces)
      case None => NotNumbers
      case Some(ids) => IdList(ids)
  }

  // ---------------------------------------------------------------------
  // The rows the bulk endpoints send
  // ---------------------------------------------------------------------

  /** The four kinds of row the bulk endpoints send. */
  datatype Kind = AccountRows | ProjectRows | TaskRows | UpdateRows

  function TableOf(k: Kind): Tbl {
    match k
    case AccountRows => Accounts
    case ProjectRows => Projects
    case TaskRows => Tasks
    case UpdateRows => Updates
  }

  /** The row the endpoint for `k` sends for the table row `a`. */
  function ViewOf(db: Db, k: Kind, a: Row): (o: Row)
    ensures o.id == a.id
  {
    match k
    case AccountRows => AccountView(db, a)
    case ProjectRows => ProjectView(db, a)
    case TaskRows => TaskView(db, a)
    case UpdateRows => UpdateView(db, a)
  }

  function Views(db: Db, k: Kind, rows: seq<Row>): (out: seq<Row>)
    ensures |out| == |rows|
    ensures forall i :: 0 <= i < |rows| ==> out[i] == ViewOf(db, k, rows[i])
    ensures UniqueIds(rows) ==> UniqueIds(out)
  {
    if |rows| == 0 then [] else [ViewOf(db, k, rows[0])] + Views(db, k, rows[1..])
  }

  /** `out` is one view per row of the table whose id is listed, and nothing
      else; ids unique in the table stay unique in `out`. */
  ghost predicate ViewedExactly(out: seq<Row>, db: Db, k: Kind, ids: seq<int>) {
    && (forall o :: o in out ==> exists a :: a in db.Get(TableOf(k)).rows && a.id in ids && o == ViewOf(db, k, a))
    && (forall a :: a in db.Get(TableOf(k)).rows && a.id in ids ==> ViewOf(db, k, a) in out)
    && (UniqueIds(db.Get(TableOf(k)).rows) ==> UniqueIds(out))
  }

  /** The views of the rows a query selects by id are exactly the listed rows' views. */
  lemma ViewsOfSelected(db: Db, k: Kind, sel: seq<Row>, ids: seq<int>)
    requires forall r :: r in sel <==> r in db.Get(TableOf(k)).rows && r.id in ids
    requires UniqueIds(db.Get(TableOf(k)).rows) ==> UniqueIds(sel)
    ensures ViewedExactly(Views(db, k, sel), db, k, ids)
  {
    var out := Views(db, k, sel);
    forall o | o in out ensures exists a :: a in db.Get(TableOf(k)).rows && a.id in ids && o == ViewOf(db, k, a) {
      var i :| 0 <= i < |out| && out[i] == o;
      assert sel[i] in sel;
    }
    forall a | a in db.Get(TableOf(k)).rows && a.id in ids ensures ViewOf(db, k, a) in out {
      var i :| 0 <= i < |sel| && sel[i] == a;
      assert out[i] == ViewOf(db, k, a);
    }
  }

  /** `SELECT … WHERE id = ANY($1)` for the endpoint of kind `k`. */
  function ListedViews(db: Db, k: Kind, ids: seq<int>): (out: seq<Row>)
    ensures ViewedExactly(out, db, k, ids)
  {
    var sel := RowsWithIds(db.Get(TableOf(k)).rows, ids);
    ViewsOfSelected(db, k, sel, ids);
    Views(db, k, sel)
  }

  /** Every row's id is among the ids of its table. */
  lemma IdsListEveryRow(rows: seq<Row>)
    ensures forall r :: r in rows ==> r.id in Ids(rows)
  {
    forall r | r in rows ensures r.id in Ids(rows) {
      var i :| 0 <= i < |rows| && rows[i] == r;
      assert Ids(rows)[i] == r.id;
    }
  }

  // ---------------------------------------------------------------------
  // GET /api/accounts?ids=…
  // ---------------------------------------------------------------------

  const AccountsNeeds: seq<Need> := [(Projects, "account_id")]

  /** `a.*` plus the ids of the projects of the account (`[]` when none). */
  function AccountView(db: Db, a: Row): (o: Row)
    ensures o.id == a.id
    ensures Cell(o, "projects") == Nums(IdsWhere(db.projects.rows, "account_id", a.id))
    ensures forall c :: c != "projects" ==> Cell(o, c) == Cell(a, c)
  {
    With(a, map["projects" := Nums(IdsWhere(db.projects.rows, "account_id", a.id))])
  }

  /** GET /api/accounts. */
  function GetAccounts(db: Db, faults: set<nat>, ids: Val): (r: Reply<seq<Row>>)
    ensures r.status in {200, 400, 500}
    ensures r.status == 400 <==> !Truthy(ids)
    ensures r.status == 200 <==> ReadIds(ids).IdList? && !Throws(db, faults, 0, AccountsNeeds)
    ensures r.status == 200 ==> r.body.Data? && ViewedExactly(r.body.value, db, AccountRows, ReadIds(ids).ids)
    ensures r.status == 200 ==> forall o :: o in r.body.value ==> Cell(o, "projects") == Nums(IdsWhere(db.projects.rows, "account_id", o.id))
  {
    match ReadIds(ids)
    case Missing => Fail(400, "No IDs provided.")
    case IdList(list) =>
      if Throws(db, faults, 0, AccountsNeeds) then Fail(500, "Failed to fetch accounts")
      else Reply(200, Data(ListedViews(db, AccountRows, list)))
    case _ => Fail(500, "Failed to fetch accounts")
  }

  // ---------------------------------------------------------------------
  // GET /api/projects?ids=…
  // ---------------------------------------------------------------------

  /** `ORDER BY date DESC, created_at DESC`. */
  const NewestFirst: seq<Term> := [Desc("date"), Desc("created_at")]

  const ProjectsNeeds: seq<Need> := [
    (Projects, "account_id"), (Accounts, "account_name"),
    (Updates, "project_id"), (Updates, "date"), (Updates, "created_at")]

  /** The ids of a project's updates, newest first. */
  function ProjectUpdateIds(db: Db, pid: nat): seq<nat> {
    Ids(SortBy(RowsWhere(db.updates.rows, "project_id", pid), NewestFirst))
  }

  /** `cell` of the row a foreign key joins to, NULL when it joins none. */
  function Joined(rows: seq<Row>, fk: Val, cell: string): (v: Val)
    ensures Deref(rows, fk).None? ==> v == Null
    ensures Deref(rows, fk).Some? ==> v == Cell(Deref(rows, fk).value, cell)
  {
    match Deref(rows, fk)
    case None => Null
    case Some(t) => Cell(t, cell)
  }

  /** `p.*`, the account's name and the project's update ids newest first. */
  function ProjectView(db: Db, p: Row): (o: Row)
    ensures o.id == p.id
    ensures Cell(o, "account_name") == Joined(db.accounts.rows, Cell(p, "account_id"), "account_name")
    ensures Cell(o, "updates") == Nums(ProjectUpdateIds(db, p.id))
    ensures forall c :: c != "account_name" && c != "updates" ==> Cell(o, c) == Cell(p, c)
  {
    With(p, map[
      "account_name" := Joined(db.accounts.rows, Cell(p, "account_id"), "account_name"),
      "updates" := Nums(ProjectUpdateIds(db, p.id))])
  }

  /** GET /api/projects. */
  function GetProjects(db: Db, faults: set<nat>, ids: Val): (r: Reply<seq<Row>>)
    ensures r.status in {200, 400, 500}
    ensures r.status == 400 <==> !Truthy(ids)
    ensures r.status == 200 <==> ReadIds(ids).IdList? && !Throws(db, faults, 0, ProjectsNeeds)
    ensures r.status == 200 ==> r.body.Data? && ViewedExactly(r.body.value, db, ProjectRows, ReadIds(ids).ids)
  {
    match ReadIds(ids)
    case Missing => Fail(400, "No IDs provided.")
    case IdList(list) =>
      if Throws(db, faults, 0, ProjectsNeeds) then Fail(500, "Failed to fetch projects")
      else Reply(200, Data(ListedViews(db, ProjectRows, list)))
    case _ => Fail(500, "Failed to fetch projects")
  }

  /** The update ids a project lists are exactly its updates, newest first. */
  lemma ProjectUpdateIdsExact(db: Db, pid: nat)
    ensures forall x :: x in ProjectUpdateIds(db, pid) <==> exists u :: u in db.updates.rows && u.id == x && RefersTo(u, "project_id", pid)
    ensures |ProjectUpdateIds(db, pid)| == |RowsWhere(db.updates.rows, "project_id", pid)|
    ensures exists s :: Sorted(s, NewestFirst) && multiset(s) == multiset(RowsWhere(db.updates.rows, "project_id", pid))
                        && ProjectUpdateIds(db, pid) == Ids(s)
  {
    var sel := RowsWhere(db.updates.rows, "project_id", pid);
    var sorted := SortBy(sel, NewestFirst);
    SortBySorted(sel, NewestFirst);
    assert |sorted| == |multiset(sorted)| == |multiset(sel)| == |sel|;
    forall x ensures x in Ids(sorted) <==> exists u :: u in db.updates.rows && u.id == x && RefersTo(u, "project_id", pid) {
      if x in Ids(sorted) {
        var i :| 0 <= i < |sorted| && Ids(sorted)[i] == x;
        assert sorted[i] in multiset(sel);
      }
      if exists u :: u in db.updates.rows && u.id == x && RefersTo(u, "project_id", pid) {
        var u :| u in db.updates.rows && u.id == x && RefersTo(u, "project_id", pid);
        assert u in multiset(sorted);
        var i :| 0 <= i < |sorted| && sorted[i] == u;
        assert Ids(sorted)[i] == x;
      }
    }
  }

  // ---------------------------------------------------------------------
  // GET /api/tasks?ids=…
  // ---------------------------------------------------------------------

  const TasksNeeds: seq<Need> := [
    (Tasks, "project_id"), (Projects, "project_name"), (Tasks, "assigned_to_id"), (Users, "user_name"),
    (Updates, "task_id"), (Updates, "notes"), (Updates, "date"), (Updates, "update_type"),
    (Updates, "update_owner_id")]

  /** The object the task query builds for each of a task's updates. */
  function TaskUpdateEntry(db: Db, u: Row): (v: Val)
    ensures Prop(v, "id") == Num(u.id)
    ensures Prop(v, "notes") == Cell(u, "notes") && Prop(v, "date") == Cell(u, "date")
    ensures Prop(v, "update_type") == Cell(u, "update_type")
    ensures Prop(v, "update_owner_name") == Joined(db.users.rows, Cell(u, "update_owner_id"), "user_name")
  {
    Rec(map[
      "id" := Num(u.id), "notes" := Cell(u, "notes"), "date" := Cell(u, "date"),
      "update_type" := Cell(u, "update_type"),
      "update_owner_name" := Joined(db.users.rows, Cell(u, "update_owner_id"), "user_name")])
  }

  function TaskUpdateEntries(db: Db, rows: seq<Row>): (v: seq<Val>)
    ensures |v| == |rows|
    ensures forall i :: 0 <= i < |rows| ==> v[i] == TaskUpdateEntry(db, rows[i])
  {
    if |rows| == 0 then [] else [TaskUpdateEntry(db, rows[0])] + TaskUpdateEntries(db, rows[1..])
  }

  /** The joined project's id, NULL when the task's project does not exist. */
  function JoinedId(rows: seq<Row>, fk: Val): (v: Val)
    ensures Deref(rows, fk).None? ==> v == Null
    ensures Deref(rows, fk).Some? ==> v == Num(Deref(rows, fk).value.id)
  {
    match Deref(rows, fk)
    case None => Null
    case Some(t) => Num(t.id)
  }

  const TaskExtras: set<string> := {"project_name", "project_id", "assigned_to_name", "updates"}

  /** The `updates` array of a task: one entry per update referring to it
      (`[]` when there is none). */
  function TaskUpdates(db: Db, tid: nat): (v: Val)
    ensures v.Arr?
    ensures forall e :: e in v.items <==> exists u :: u in db.updates.rows && RefersTo(u, "task_id", tid) && e == TaskUpdateEntry(db, u)
    ensures |v.items| == |RowsWhere(db.updates.rows, "task_id", tid)|
    ensures forall i :: 0 <= i < |v.items| ==> v.items[i] == TaskUpdateEntry(db, RowsWhere(db.updates.rows, "task_id", tid)[i])
  {
    var sel := RowsWhere(db.updates.rows, "task_id", tid);
    var es := TaskUpdateEntries(db, sel);
    forall e | e in es ensures exists u :: u in db.updates.rows && RefersTo(u, "task_id", tid) && e == TaskUpdateEntry(db, u) {
      EntryHasUpdate(db, sel, e);
    }
    forall u | u in db.updates.rows && RefersTo(u, "task_id", tid) ensures TaskUpdateEntry(db, u) in es {
      UpdateHasEntry(db, sel, u);
    }
    Arr(es)
  }

  lemma EntryHasUpdate(db: Db, sel: seq<Row>, v: Val)
    requires v in TaskUpdateEntries(db, sel)
    ensures exists u :: u in sel && v == TaskUpdateEntry(db, u)
  {
    var es := TaskUpdateEntries(db, sel);
    var i :| 0 <= i < |es| && es[i] == v;
    assert sel[i] in sel;
  }

  lemma UpdateHasEntry(db: Db, sel: seq<Row>, u: Row)
    requires u in sel
    ensures TaskUpdateEntry(db, u) in TaskUpdateEntries(db, sel)
  {
    var i :| 0 <= i < |sel| && sel[i] == u;
    assert TaskUpdateEntries(db, sel)[i] == TaskUpdateEntry(db, u);
  }

  /** The columns the task query adds. */
  function TaskJoins(db: Db, t: Row): (m: map<string, Val>)
    ensures m.Keys == TaskExtras
    ensures m["project_name"] == Joined(db.projects.rows, Cell(t, "project_id"), "project_name")
    ensures m["project_id"] == JoinedId(db.projects.rows, Cell(t, "project_id"))
    ensures m["assigned_to_name"] == Joined(db.users.rows, Cell(t, "assigned_to_id"), "user_name")
    ensures m["updates"] == TaskUpdates(db, t.id)
  {
    map[
      "project_name" := Joined(db.projects.rows, Cell(t, "project_id"), "project_name"),
      "project_id" := JoinedId(db.projects.rows, Cell(t, "project_id")),
      "assigned_to_name" := Joined(db.users.rows, Cell(t, "assigned_to_id"), "user_name"),
      "updates" := TaskUpdates(db, t.id)]
  }

  /** `t.*`, the project's name and id, the assignee's name, and the task's
      updates as objects (`[]` when none). */
  function TaskView(db: Db, t: Row): (o: Row)
    ensures o.id == t.id
    ensures Cell(o, "project_name") == Joined(db.projects.rows, Cell(t, "project_id"), "project_name")
    ensures Cell(o, "project_id") == JoinedId(db.projects.rows, Cell(t, "project_id"))
    ensures Cell(o, "assigned_to_name") == Joined(db.users.rows, Cell(t, "assigned_to_id"), "user_name")
    ensures Cell(o, "updates") == TaskUpdates(db, t.id)
    ensures forall c :: c !in TaskExtras ==> Cell(o, c) == Cell(t, c)
  {
    With(t, TaskJoins(db, t))
  }

  /** GET /api/tasks. */
  function GetTasks(db: Db, faults: set<nat>, ids: Val): (r: Reply<seq<Row>>)
    ensures r.status in {200, 400, 500}
    ensures r.status == 400 <==> !Truthy(ids)
    ensures r.status == 200 <==> ReadIds(ids).IdList? && !Throws(db, faults, 0, TasksNeeds)
    ensures r.status == 200 ==> r.body.Data? && ViewedExactly(r.body.value, db, TaskRows, ReadIds(ids).ids)
  {
    match ReadIds(ids)
    case Missing => Fail(400, "No IDs provided.")
    case IdList(list) =>
      if Throws(db, faults, 0, TasksNeeds) then Fail(500, "Failed to fetch tasks")
      else Reply(200, Data(ListedViews(db, TaskRows, list)))
    case _ => Fail(500, "Failed to fetch tasks")
  }

  // ---------------------------------------------------------------------
  // GET /api/updates[?ids=…]
  // ---------------------------------------------------------------------

  const UpdatesNeeds: seq<Need> := [
    (Updates, "update_owner_id"), (Users, "user_name"), (Updates, "project_id"),
    (Projects, "project_name"), (Updates, "task_id"), (Tasks, "task_name"),
    (Projects, "account_id"), (Accounts, "account_name"), (Updates, "date"), (Updates, "created_at")]

  /** The account name of the project an update belongs to, NULL when either
      join finds nothing. */
  function UpdateAccount(db: Db, u: Row): Val {
    match Deref(db.projects.rows, Cell(u, "project_id"))
    case None => Null
    case Some(p) => Joined(db.accounts.rows, Cell(p, "account_id"), "account_name")
  }

  const UpdateExtras: set<string> := {
    "update_owner_name", "project_name", "project_id", "task_name", "task_id", "update_account"}

  /** The columns the update query adds: the owner's, project's, task's and
      account's live names, and the joined project and task ids. */
  function UpdateJoins(db: Db, u: Row): (m: map<string, Val>)
    ensures m.Keys == UpdateExtras
    ensures m["project_name"] == Joined(db.projects.rows, Cell(u, "project_id"), "project_name")
    ensures m["update_owner_name"] == Joined(db.users.rows, Cell(u, "update_owner_id"), "user_name")
    ensures m["project_id"] == JoinedId(db.projects.rows, Cell(u, "project_id"))
    ensures m["task_name"] == Joined(db.tasks.rows, Cell(u, "task_id"), "task_name")
    ensures m["task_id"] == JoinedId(db.tasks.rows, Cell(u, "task_id"))
    ensures m["update_account"] == UpdateAccount(db, u)
  {
    map[
      "update_owner_name" := Joined(db.users.rows, Cell(u, "update_owner_id"), "user_name"),
      "project_name" := Joined(db.projects.rows, Cell(u, "project_id"), "project_name"),
      "project_id" := JoinedId(db.projects.rows, Cell(u, "project_id")),
      "task_name" := Joined(db.tasks.rows, Cell(u, "task_id"), "task_name"),
      "task_id" := JoinedId(db.tasks.rows, Cell(u, "task_id")),
      "update_account" := UpdateAccount(db, u)]
  }

  /** `u.*` with the owner's, project's, task's and account's live names, which
      replace the names stored in the row. */
  function UpdateView(db: Db, u: Row): (o: Row)
    ensures o.id == u.id
    ensures Cell(o, "project_name") == Joined(db.projects.rows, Cell(u, "project_id"), "project_name")
    ensures Cell(o, "update_owner_name") == Joined(db.users.rows, Cell(u, "update_owner_id"), "user_name")
    ensures Cell(o, "project_id") == JoinedId(db.projects.rows, Cell(u, "project_id"))
    ensures Cell(o, "task_name") == Joined(db.tasks.rows, Cell(u, "task_id"), "task_name")
    ensures Cell(o, "task_id") == JoinedId(db.tasks.rows, Cell(u, "task_id"))
    ensures Cell(o, "update_account") == UpdateAccount(db, u)
    ensures forall c :: c !in UpdateExtras ==> Cell(o, c) == Cell(u, c)
  {
    With(u, UpdateJoins(db, u))
  }

  /** Views keep the sort keys of their rows, so they stay in order. */
  lemma UpdateViewsSorted(db: Db, rows: seq<Row>)
    requires Sorted(rows, NewestFirst)
    ensures Sorted(Views(db, UpdateRows, rows), NewestFirst)
  {
    var out := Views(db, UpdateRows, rows);
    forall i, j | 0 <= i < j < |out| ensures RowCmp(out[i], out[j], NewestFirst) <= 0 {
      UpdateViewKeepsSortKeys(db, rows[i]);
      UpdateViewKeepsSortKeys(db, rows[j]);
      RowCmpOnlyReadsTerms(out[i], rows[i], out[j], rows[j], NewestFirst);
    }
  }

  /** An update's view has the row's own date and creation time. */
  lemma UpdateViewKeepsSortKeys(db: Db, u: Row)
    ensures Cell(UpdateView(db, u), "date") == Cell(u, "date")
    ensures Cell(UpdateView(db, u), "created_at") == Cell(u, "created_at")
    ensures forall i :: 0 <= i < |NewestFirst| ==> Cell(ViewOf(db, UpdateRows, u), NewestFirst[i].col) == Cell(u, NewestFirst[i].col)
  {
    assert "date" !in UpdateExtras && "created_at" !in UpdateExtras;
    assert NewestFirst[0].col == "date" && NewestFirst[1].col == "created_at";
  }

  /** The update rows the request selects: all of them, or those listed. */
  function UpdatesSelected(db: Db, ids: Val): (sel: seq<Row>)
    requires !Truthy(ids) || ReadIds(ids).IdList?
    ensures forall r :: r in sel <==> r in db.updates.rows && r.id in UpdateIdsAsked(db, ids)
    ensures UniqueIds(db.updates.rows) ==> UniqueIds(sel)
  {
    IdsListEveryRow(db.updates.rows);
    if Truthy(ids) then RowsWithIds(db.updates.rows, ReadIds(ids).ids) else db.updates.rows
  }

  /** The ids the request asks for: the listed ones, or every update's. */
  function UpdateIdsAsked(db: Db, ids: Val): seq<int>
    requires !Truthy(ids) || ReadIds(ids).IdList?
  {
    if Truthy(ids) then ReadIds(ids).ids else Ids(db.updates.rows)
  }

  /** GET /api/updates: every update, or the listed ones, newest first. */
  function GetUpdates(db: Db, faults: set<nat>, ids: Val): (r: Reply<seq<Row>>)
    ensures r.status in {200, 500}
    ensures r.status == 200 <==> (!Truthy(ids) || ReadIds(ids).IdList?) && !Throws(db, faults, 0, UpdatesNeeds)
    ensures r.status == 200 && !Truthy(ids) ==> r.body.Data? && ViewedExactly(r.body.value, db, UpdateRows, Ids(db.updates.rows))
    ensures r.status == 200 && Truthy(ids) ==> r.body.Data? && ViewedExactly(r.body.value, db, UpdateRows, ReadIds(ids).ids)
    ensures r.status == 200 ==> r.body.Data? && Sorted(r.body.value, NewestFirst)
  {
    if Truthy(ids) && !ReadIds(ids).IdList? then Fail(500, "Failed to fetch updates")
    else if Throws(db, faults, 0, UpdatesNeeds) then Fail(500, "Failed to fetch updates")
    else
      var sel := UpdatesSelected(db, ids);
      var sorted := SortBy(sel, NewestFirst);
      SortBySorted(sel, NewestFirst);
      UpdateViewsSorted(db, sorted);
      SortedKeepsSelection(db, sel, sorted, UpdateIdsAsked(db, ids));
      Reply(200, Data(Views(db, UpdateRows, sorted)))
  }

  /** Sorting the selected updates changes their order only. */
  lemma SortedKeepsSelection(db: Db, sel: seq<Row>, sorted: seq<Row>, ids: seq<int>)
    requires multiset(sorted) == multiset(sel)
    requires forall r :: r in sel <==> r in db.updates.rows && r.id in ids
    requires UniqueIds(db.updates.rows) ==> UniqueIds(sel)
    ensures ViewedExactly(Views(db, UpdateRows, sorted), db, UpdateRows, ids)
  {
    forall r ensures r in sorted <==> r in sel {
      assert r in sorted <==> r in multiset(sorted);
      assert r in sel <==> r in multiset(sel);
    }
    if UniqueIds(db.updates.rows) {
      UniqueIdsPermuted(sel, sorted);
    }
    ViewsOfSelected(db, UpdateRows, sorted, ids);
  }
}

=== FILE: api_write.dfy ===
/** The write endpoints of the Express backend (api/index.js): the four POSTs
    that resolve owner keys and insert a row, and the PATCHes of projects, tasks
    and users. */
module ApiWrite {
  import opened Values
  import opened Text
  import opened Store
  import opened Statement
  import opened Http

  /** `x[0]` on a destructured body value: a TypeError on `undefined` or `null`;
      the first element of an array, the first character of a string, the
      property "0" of an object, and `undefined` on a boolean or a number. */
  datatype Indexed = IndexTypeError | Elem(v: Val)

  function FirstOf(v: Val): (e: Indexed)
    ensures e.IndexTypeError? <==> v == Undefined || v == Null
    ensures v.Arr? ==> e == Elem(if |v.items| > 0 then v.items[0] else Undefined)
    ensures v.Str? ==> e == Elem(if |v.s| > 0 then Str(v.s[..1]) else Undefined)
    ensures v.Rec? ==> e == Elem(Prop(v, "0"))
    ensures v.Bool? || v.Num? ==> e == Elem(Undefined)
  {
    match v
    case Undefined => IndexTypeError
    case Null => IndexTypeError
    case Arr(xs) => Elem(if |xs| > 0 then xs[0] else Undefined)
    case Str(s) => Elem(if |s| > 0 then Str(s[..1]) else Undefined)
    case Rec(_) => Elem(Prop(v, "0"))
    case _ => Elem(Undefined)
  }

  const LookupNeeds: seq<Need> := [(Users, "airtable_id")]

  /** `(SELECT id FROM users WHERE airtable_id = $1).rows[0]?.id`, kept only when
      truthy. */
  function ResolveUser(db: Db, key: Val): (r: Option<Row>)
    ensures r.Some? ==> r.value in db.users.rows && r.value.id != 0 && TextMatches(r.value, "airtable_id", key)
    ensures r.None? ==> forall u :: u in db.users.rows && TextMatches(u, "airtable_id", key) ==> u.id == 0 || u != FirstMatch(db.users.rows, "airtable_id", key).value
    ensures (forall u :: u in db.users.rows ==> !TextMatches(u, "airtable_id", key)) ==> r.None?
  {
    match FirstMatch(db.users.rows, "airtable_id", key)
    case Some(u) => if u.id != 0 then Some(u) else None
    case None => None
  }

  /** The store after a successful insert into `t`: `row` appended with the next
      id of the table, every other table untouched. */
  ghost predicate Appended(db: Db, after: Db, t: Tbl, row: Row) {
    && after.Get(t).rows == db.Get(t).rows + [row]
    && after.Get(t).columns == db.Get(t).columns
    && row.id == db.Get(t).serial + 1
    && after.Get(t).serial == row.id
    && forall u :: u != t ==> after.Get(u) == db.Get(u)
  }

  /** Whether the handler's query `k`, an INSERT of `values` into `t`, throws:
      an injected fault, or a column the table lacks. */
  predicate InsertThrows(db: Db, faults: set<nat>, k: nat, t: Tbl, values: map<string, Val>) {
    k in faults || !(values.Keys <= db.Get(t).columns)
  }

  /** An INSERT whose values cover exactly `cols` throws exactly when the
      query is faulted or the table lacks one of `cols`. */
  lemma InsertThrowsOn(db: Db, faults: set<nat>, k: nat, t: Tbl, values: map<string, Val>, cols: set<string>)
    requires values.Keys == cols
    ensures InsertThrows(db, faults, k, t, values) <==> k in faults || !(cols <= db.Get(t).columns)
  {
  }

  /** Inserts into `t` and replies 201 with the new row. */
  function Create(db: Db, t: Tbl, values: map<string, Val>): (h: Handled<Row>)
    requires values.Keys <= db.Get(t).columns
    ensures h.reply.status == 201 && h.reply.body.Data?
    ensures Appended(db, h.db, t, h.reply.body.value)
    ensures forall c :: c in values ==> Cell(h.reply.body.value, c) == values[c]
  {
    var (table, row) := InsertRow(db.Get(t), values);
    Handled(Reply(201, Data(row)), db.Put(t, table))
  }

  // ---------------------------------------------------------------------
  // POST /api/accounts
  // ---------------------------------------------------------------------

  const AccountColumns: set<string> := {"account_name", "account_type", "account_description", "account_owner_id"}

  /** The four columns the account INSERT names: the body's name, type and
      description as sent, and the resolved owner. */
  function AccountValues(body: Obj, owner: nat): (values: map<string, Val>)
    ensures values.Keys == AccountColumns
    ensures values["account_owner_id"] == Num(owner)
    ensures values["account_name"] == AsParam(Get(body, "Account Name"))
    ensures values["account_type"] == AsParam(Get(body, "Account Type"))
    ensures values["account_description"] == AsParam(Get(body, "Account Description"))
  {
    map[
      "account_name" := AsParam(Get(body, "Account Name")),
      "account_type" := AsParam(Get(body, "Account Type")),
      "account_description" := AsParam(Get(body, "Account Description")),
      "account_owner_id" := Num(owner)]
  }

  /** POST /api/accounts: the owner is given by the first element of
      "Account Owner", a user's secret key. */
  function PostAccount(db: Db, faults: set<nat>, body: Obj): (h: Handled<Row>)
    ensures h.reply.status in {201, 400, 500}
    ensures h.reply.status != 201 ==> h.db == db
    ensures h.reply.status == 400 <==> (FirstOf(Get(body, "Account Owner")).Elem? && !Throws(db, faults, 0, LookupNeeds)
                                        && ResolveUser(db, FirstOf(Get(body, "Account Owner")).v).None?)
    ensures h.reply.status == 500 <==> (|| FirstOf(Get(body, "Account Owner")).IndexTypeError? || Throws(db, faults, 0, LookupNeeds)
                                        || (h.reply.status != 400 && (1 in faults || !(AccountColumns <= db.accounts.columns))))
    ensures h.reply.status == 201 ==>
              && h.reply.body.Data?
              && Appended(db, h.db, Accounts, h.reply.body.value)
              && FirstOf(Get(body, "Account Owner")).Elem?
              && ResolveUser(db, FirstOf(Get(body, "Account Owner")).v).Some?
              && Cell(h.reply.body.value, "account_owner_id") == Num(ResolveUser(db, FirstOf(Get(body, "Account Owner")).v).value.id)
              && Cell(h.reply.body.value, "account_name") == AsParam(Get(body, "Account Name"))
              && Cell(h.reply.body.value, "account_type") == AsParam(Get(body, "Account Type"))
              && Cell(h.reply.body.value, "account_description") == AsParam(Get(body, "Account Description"))
  {
    match FirstOf(Get(body, "Account Owner"))
    case IndexTypeError => Handled(Fail(500, "Failed to create account."), db)
    case Elem(key) =>
      if Throws(db, faults, 0, LookupNeeds) then Handled(Fail(500, "Failed to create account."), db)
      else match ResolveUser(db, key)
        case None => Handled(Fail(400, "Invalid account owner ID"), db)
        case Some(owner) =>
          var values := AccountValues(body, owner.id);
          InsertThrowsOn(db, faults, 1, Accounts, values, AccountColumns);
          if InsertThrows(db, faults, 1, Accounts, values) then Handled(Fail(500, "Failed to create account."), db)
          else Create(db, Accounts, values)
  }

  // ---------------------------------------------------------------------
  // POST /api/projects
  // ---------------------------------------------------------------------

  const ProjectColumns: set<string> := {
    "project_name", "project_status", "start_date", "end_date", "account_id",
    "project_value", "project_description", "project_owner_id"}

  /** The project columns taken from the request body as sent. */
  function ProjectInputs(body: Obj): (values: map<string, Val>)
    ensures values.Keys == {"project_name", "project_status", "start_date", "end_date", "project_value", "project_description"}
    ensures values["project_value"] == Or(Get(body, "Project Value"), Null)
  {
    map[
      "project_name" := AsParam(Get(body, "Project Name")),
      "project_status" := AsParam(Get(body, "Project Status")),
      "start_date" := AsParam(Get(body, "Start Date")),
      "end_date" := AsParam(Get(body, "End Date")),
      "project_value" := Or(Get(body, "Project Value"), Null),
      "project_description" := AsParam(Get(body, "Project Description"))]
  }

  function ProjectValues(body: Obj, account: int, owner: nat): (values: map<string, Val>)
    ensures values.Keys == ProjectColumns
    ensures values["account_id"] == Num(account)
    ensures values["project_value"] == Or(Get(body, "Project Value"), Null)
    ensures values["project_owner_id"] == Num(owner)
  {
    ProjectInputs(body) + map["account_id" := Num(account), "project_owner_id" := Num(owner)]
  }

  /** The account and owner keys POST /api/projects reads: `x[0]` of "Account"
      and of "Project Owner", both taken before any query. */
  function ProjectKeys(body: Obj): Option<(Val, Val)> {
    match (FirstOf(Get(body, "Account")), FirstOf(Get(body, "Project Owner")))
    case (Elem(account), Elem(key)) => Some((account, key))
    case _ => None
  }

  /** POST /api/projects. The account id goes into the integer `account_id`
      column through the integer cast, so a value the cast refuses fails the
      INSERT. */
  function PostProject(db: Db, faults: set<nat>, body: Obj): (h: Handled<Row>)
    ensures h.reply.status in {201, 400, 500}
    ensures h.reply.status != 201 ==> h.db == db
    ensures h.reply.status == 400 <==> (ProjectKeys(body).Some? && !Throws(db, faults, 0, LookupNeeds)
                                        && (!Truthy(ProjectKeys(body).value.0)
                                            || ResolveUser(db, ProjectKeys(body).value.1).None?))
    ensures h.reply.status == 500 <==> (ProjectKeys(body).None? || Throws(db, faults, 0, LookupNeeds)
                                        || (h.reply.status != 400
                                            && (IntParam(ProjectKeys(body).value.0) == BadArg
                                                || 1 in faults || !(ProjectColumns <= db.projects.columns))))
    ensures h.reply.status == 201 ==>
              && h.reply.body.Data?
              && Appended(db, h.db, Projects, h.reply.body.value)
              && ProjectKeys(body).Some?
              && Truthy(ProjectKeys(body).value.0)
              && IntParam(ProjectKeys(body).value.0).IntVal?
              && Cell(h.reply.body.value, "account_id") == Num(IntParam(ProjectKeys(body).value.0).n)
              && ResolveUser(db, ProjectKeys(body).value.1).Some?
              && Cell(h.reply.body.value, "project_owner_id") == Num(ResolveUser(db, ProjectKeys(body).value.1).value.id)
              && (!Truthy(Get(body, "Project Value")) ==> Cell(h.reply.body.value, "project_value") == Null)
  {
    match ProjectKeys(body)
    case None => Handled(Fail(500, "Failed to create project."), db)
    case Some((account, key)) =>
      if Throws(db, faults, 0, LookupNeeds) then Handled(Fail(500, "Failed to create project."), db)
      else
        var owner := ResolveUser(db, key);
        if !Truthy(account) || owner.None? then Handled(Fail(400, "Invalid account or owner ID"), db)
        else InsertProject(db, faults, body, IntParam(account), owner.value.id)
  }

  /** The INSERT of a project once the account and the owner have passed the
      checks (query 1). */
  function InsertProject(db: Db, faults: set<nat>, body: Obj, account: IntArg, owner: nat): (h: Handled<Row>)
    ensures h.reply.status in {201, 500}
    ensures h.reply.status == 500 <==> !account.IntVal? || 1 in faults || !(ProjectColumns <= db.projects.columns)
    ensures h.reply.status != 201 ==> h.db == db
    ensures h.reply.status == 201 ==>
              && h.reply.body.Data?
              && Appended(db, h.db, Projects, h.reply.body.value)
              && account.IntVal?
              && Cell(h.reply.body.value, "account_id") == Num(account.n)
              && Cell(h.reply.body.value, "project_owner_id") == Num(owner)
              && (!Truthy(Get(body, "Project Value")) ==> Cell(h.reply.body.value, "project_value") == Null)
  {
    match account
    case IntVal(n) =>
      var values := ProjectValues(body, n, owner);
      InsertThrowsOn(db, faults, 1, Projects, values, ProjectColumns);
      if InsertThrows(db, faults, 1, Projects, values) then Handled(Fail(500, "Failed to create project."), db)
      else Create(db, Projects, values)
    case _ => Handled(Fail(500, "Failed to create project."), db)
  }

  // ---------------------------------------------------------------------
  // POST /api/tasks
  // ---------------------------------------------------------------------

  const TaskColumns: set<string> := {
    "task_name", "project_id", "assigned_to_id", "due_date", "status", "description", "created_by_id"}

  /** The task columns taken from the request body as sent, and the project id
      as the integer cast reads it. */
  function TaskInputs(body: Obj, project: int): (values: map<string, Val>)
    ensures values.Keys == {"task_name", "due_date", "status", "description", "project_id"}
    ensures values["project_id"] == Num(project)
  {
    map[
      "task_name" := AsParam(Get(body, "Task Name")),
      "due_date" := AsParam(Get(body, "Due Date")),
      "status" := AsParam(Get(body, "Status")),
      "description" := AsParam(Get(body, "Description")),
      "project_id" := Num(project)]
  }

  function TaskValues(body: Obj, project: int, assignee: nat, creator: nat): (values: map<string, Val>)
    ensures values.Keys == TaskColumns
    ensures values["project_id"] == Num(project)
    ensures values["assigned_to_id"] == Num(assignee)
    ensures values["created_by_id"] == Num(creator)
  {
    TaskInputs(body, project) + map["assigned_to_id" := Num(assignee), "created_by_id" := Num(creator)]
  }

  /** POST /api/tasks: assignee and creator are secret keys; the project id is
      only checked for truthiness and then cast to an integer by the INSERT. */
  function PostTask(db: Db, faults: set<nat>, body: Obj): (h: Handled<Row>)
    ensures h.reply.status in {201, 400, 500}
    ensures h.reply.status != 201 ==> h.db == db
    ensures h.reply.status == 400 <==> (!Throws(db, faults, 0, LookupNeeds) && !Throws(db, faults, 1, LookupNeeds)
                                        && (!Truthy(Get(body, "Project"))
                                            || ResolveUser(db, Get(body, "Assigned To")).None?
                                            || ResolveUser(db, Get(body, "Created By")).None?))
    ensures h.reply.status == 500 <==> (Throws(db, faults, 0, LookupNeeds) || Throws(db, faults, 1, LookupNeeds)
                                        || (h.reply.status != 400
                                            && (2 in faults || !(TaskColumns <= db.tasks.columns)
                                                || IntParam(Get(body, "Project")) == BadArg)))
    ensures h.reply.status == 201 ==>
              && h.reply.body.Data?
              && Appended(db, h.db, Tasks, h.reply.body.value)
              && IntParam(Get(body, "Project")).IntVal?
              && Cell(h.reply.body.value, "project_id") == Num(IntParam(Get(body, "Project")).n)
              && ResolveUser(db, Get(body, "Assigned To")).Some?
              && ResolveUser(db, Get(body, "Created By")).Some?
              && Cell(h.reply.body.value, "assigned_to_id") == Num(ResolveUser(db, Get(body, "Assigned To")).value.id)
              && Cell(h.reply.body.value, "created_by_id") == Num(ResolveUser(db, Get(body, "Created By")).value.id)
  {
    if Throws(db, faults, 0, LookupNeeds) || Throws(db, faults, 1, LookupNeeds) then
      Handled(Fail(500, "Failed to create task."), db)
    else
      var assignee := ResolveUser(db, Get(body, "Assigned To"));
      var creator := ResolveUser(db, Get(body, "Created By"));
      if !Truthy(Get(body, "Project")) || assignee.None? || creator.None? then
        Handled(Fail(400, "Invalid project, assigned to, or created by ID"), db)
      else
        InsertTask(db, faults, body, IntParam(Get(body, "Project")), assignee.value.id, creator.value.id)
  }

  /** The INSERT of a task once both keys have resolved (query 2). */
  function InsertTask(db: Db, faults: set<nat>, body: Obj, project: IntArg, assignee: nat, creator: nat): (h: Handled<Row>)
    ensures h.reply.status in {201, 500}
    ensures h.reply.status == 500 <==> 2 in faults || !(TaskColumns <= db.tasks.columns)
                                       || !project.IntVal?
    ensures h.reply.status != 201 ==> h.db == db
    ensures h.reply.status == 201 ==>
              && h.reply.body.Data?
              && Appended(db, h.db, Tasks, h.reply.body.value)
              && project.IntVal?
              && Cell(h.reply.body.value, "project_id") == Num(project.n)
              && Cell(h.reply.body.value, "assigned_to_id") == Num(assignee)
              && Cell(h.reply.body.value, "created_by_id") == Num(creator)
  {
    match project
    case IntVal(n) =>
      var values := TaskValues(body, n, assignee, creator);
      InsertThrowsOn(db, faults, 2, Tasks, values, TaskColumns);
      if InsertThrows(db, faults, 2, Tasks, values) then Handled(Fail(500, "Failed to create task."), db)
      else Create(db, Tasks, values)
    case _ => Handled(Fail(500, "Failed to create task."), db)
  }

  /** One user with key "k", no projects, an empty tasks table. */
  function LoneUserDb(): (db: Db)
    ensures db.tasks.columns == TaskColumns && db.projects.rows == []
    ensures db.users.columns == {"airtable_id"}
    ensures db.users.rows == [Row(1, map["airtable_id" := Str("k")])]
  {
    var none := Table({}, [], 0);
    Db(Table({"airtable_id"}, [Row(1, map["airtable_id" := Str("k")])], 1), none, none, Table(TaskColumns, [], 0), none)
  }

  /** A task for project 99, assigned to and created by user "k". */
  function OrphanTaskBody(): (body: Obj)
    ensures Get(body, "Project") == Num(99)
    ensures Get(body, "Assigned To") == Str("k") && Get(body, "Created By") == Str("k")
  {
    [("Project", Num(99)), ("Assigned To", Str("k")), ("Created By", Str("k"))]
  }

  lemma LoneUserResolves()
    ensures ResolveUser(LoneUserDb(), Str("k")).Some?
    ensures !Throws(LoneUserDb(), {}, 0, LookupNeeds) && !Throws(LoneUserDb(), {}, 1, LookupNeeds)
  {
    var user := Row(1, map["airtable_id" := Str("k")]);
    assert TextMatches(user, "airtable_id", Str("k"));
    assert FirstMatch(LoneUserDb().users.rows, "airtable_id", Str("k")) == Some(user);
  }

  /** The converse of the 201 case: with a truthy project, two keys that
      resolve and a tasks table with the inserted columns, the task is created
      exactly when the integer cast accepts the project id, whether or not a
      project has that id. */
  lemma PostTaskSucceeds(db: Db, faults: set<nat>, body: Obj)
    requires !Throws(db, faults, 0, LookupNeeds) && !Throws(db, faults, 1, LookupNeeds) && 2 !in faults
    requires Truthy(Get(body, "Project")) && TaskColumns <= db.tasks.columns
    requires ResolveUser(db, Get(body, "Assigned To")).Some? && ResolveUser(db, Get(body, "Created By")).Some?
    ensures PostTask(db, faults, body).reply.status == 201 <==> IntParam(Get(body, "Project")).IntVal?
    ensures PostTask(db, faults, body).reply.status == 201 ==>
              Cell(PostTask(db, faults, body).reply.body.value, "project_id") == Num(IntParam(Get(body, "Project")).n)
  {
  }

  /** The handler checks only that "Project" is truthy: a task is created for
      project 99 in a store that has no projects at all. */
  lemma TaskForMissingProject()
    ensures LoneUserDb().projects.rows == []
    ensures PostTask(LoneUserDb(), {}, OrphanTaskBody()).reply.status == 201
    ensures Cell(PostTask(LoneUserDb(), {}, OrphanTaskBody()).reply.body.value, "project_id") == Num(99)
  {
    LoneUserResolves();
    assert IntParam(Num(99)) == IntVal(99);
    PostTaskSucceeds(LoneUserDb(), {}, OrphanTaskBody());
  }

  // ---------------------------------------------------------------------
  // POST /api/updates
  // ---------------------------------------------------------------------

  const OwnerNeeds: seq<Need> := [(Users, "airtable_id"), (Users, "user_name")]
  const ProjectInfoNeeds: seq<Need> := [(Projects, "project_name"), (Projects, "account_id"), (Accounts, "account_name")]

  /** The project with the given id together with its account, as
      `FROM projects p JOIN accounts a ON p.account_id = a.id WHERE p.id = $1`
      finds them (primary keys are unique, so the first row with the id). */
  function ProjectWithAccount(db: Db, projectId: Val): (r: Option<(Row, Row)>)
    ensures r.Some? ==> && r.value.0 in db.projects.rows && r.value.1 in db.accounts.rows
                        && IntParam(projectId) == IntVal(r.value.0.id)
                        && RefersTo(r.value.0, "account_id", r.value.1.id)
  {
    match IntParam(projectId)
    case IntVal(n) =>
      (match FindById(db.projects.rows, n)
       case Some(p) =>
         (match Deref(db.accounts.rows, Cell(p, "account_id"))
          case Some(a) => Some((p, a))
          case None => None)
       case None => None)
    case _ => None
  }

  const UpdateColumns: set<string> := {
    "notes", "date", "update_type", "project_id", "task_id", "update_owner_id",
    "project_name", "update_owner_name", "update_account"}

  /** The update columns taken from the request body: the text columns as
      sent, the task id (`task_id || null`) as the integer cast reads it. */
  function UpdateInputs(body: Obj, task: Val): (values: map<string, Val>)
    ensures values.Keys == {"notes", "date", "update_type", "task_id"}
    ensures values["task_id"] == task
  {
    map[
      "notes" := AsParam(Get(body, "Notes")),
      "date" := AsParam(Get(body, "Date")),
      "update_type" := AsParam(Get(body, "Update Type")),
      "task_id" := task]
  }

  /** The update columns the handler looks up: the owner, the project the
      integer cast found, and the names. */
  function UpdateLookups(owner: Row, project: Row, account: Row): (values: map<string, Val>)
    ensures values.Keys == {"project_id", "update_owner_id", "project_name", "update_owner_name", "update_account"}
    ensures values["project_id"] == Num(project.id)
    ensures values["update_owner_id"] == Num(owner.id)
    ensures values["project_name"] == Cell(project, "project_name")
    ensures values["update_owner_name"] == Cell(owner, "user_name")
    ensures values["update_account"] == Cell(account, "account_name")
  {
    map[
      "project_id" := Num(project.id),
      "update_owner_id" := Num(owner.id),
      "project_name" := Cell(project, "project_name"),
      "update_owner_name" := Cell(owner, "user_name"),
      "update_account" := Cell(account, "account_name")]
  }

  function UpdateValues(body: Obj, task: Val, owner: Row, project: Row, account: Row): (values: map<string, Val>)
    ensures values.Keys == UpdateColumns
    ensures values["task_id"] == task
    ensures values["project_id"] == Num(project.id)
    ensures values["update_owner_id"] == Num(owner.id)
    ensures values["project_name"] == Cell(project, "project_name")
    ensures values["update_owner_name"] == Cell(owner, "user_name")
    ensures values["update_account"] == Cell(account, "account_name")
  {
    UpdateInputs(body, task) + UpdateLookups(owner, project, account)
  }

  /** The denormalised names the new update row carries are the ones of its
      owner, its project and the project's account at insert time. */
  ghost predicate SnapshotAtInsert(db: Db, body: Obj, row: Row) {
    && (exists u :: && u in db.users.rows && u.id != 0
                    && TextMatches(u, "airtable_id", Get(body, "Update Owner"))
                    && Cell(row, "update_owner_id") == Num(u.id)
                    && Cell(row, "update_owner_name") == Cell(u, "user_name"))
    && (exists p, a :: && p in db.projects.rows && a in db.accounts.rows
                       && IntParam(Get(body, "Project")) == IntVal(p.id)
                       && RefersTo(p, "account_id", a.id)
                       && Cell(row, "project_name") == Cell(p, "project_name")
                       && Cell(row, "update_account") == Cell(a, "account_name"))
  }

  /** Why POST /api/updates answers 400: a falsy project, an unknown owner, a
      project or account that cannot be found, or a name that is empty. */
  predicate UpdateRejected(db: Db, body: Obj) {
    var owner := FirstMatch(db.users.rows, "airtable_id", Get(body, "Update Owner"));
    var info := ProjectWithAccount(db, Get(body, "Project"));
    || !Truthy(Get(body, "Project")) || owner.None? || owner.value.id == 0 || info.None?
    || !Truthy(Cell(owner.value, "user_name"))
    || !Truthy(Cell(info.value.0, "project_name"))
    || !Truthy(Cell(info.value.1, "account_name"))
  }

  /** POST /api/updates: resolves the owner's id and name and the project's and
      account's names, and writes those names into the new row. The project id
      and the task id reach integer columns through the integer cast. */
  function PostUpdate(db: Db, faults: set<nat>, body: Obj): (h: Handled<Row>)
    ensures h.reply.status in {201, 400, 500}
    ensures h.reply.status != 201 ==> h.db == db
    ensures h.reply.status == 400 <==> (!Throws(db, faults, 0, OwnerNeeds) && !Throws(db, faults, 1, ProjectInfoNeeds)
                                        && IntParam(Get(body, "Project")) != BadArg && UpdateRejected(db, body))
    ensures h.reply.status == 500 <==> (|| Throws(db, faults, 0, OwnerNeeds) || Throws(db, faults, 1, ProjectInfoNeeds)
                                        || IntParam(Get(body, "Project")) == BadArg
                                        || (h.reply.status != 400
                                            && (2 in faults || !(UpdateColumns <= db.updates.columns)
                                                || IntParam(Or(Get(body, "Task"), Null)) == BadArg)))
    ensures h.reply.status == 201 ==>
              && h.reply.body.Data?
              && Appended(db, h.db, Updates, h.reply.body.value)
              && SnapshotAtInsert(db, body, h.reply.body.value)
              && Truthy(Cell(h.reply.body.value, "project_name"))
              && Truthy(Cell(h.reply.body.value, "update_owner_name"))
              && Truthy(Cell(h.reply.body.value, "update_account"))
              && IntParam(Get(body, "Project")).IntVal?
              && Cell(h.reply.body.value, "project_id") == Num(IntParam(Get(body, "Project")).n)
              && Cell(h.reply.body.value, "task_id") == IntCell(IntParam(Or(Get(body, "Task"), Null)))
              && (!Truthy(Get(body, "Task")) ==> Cell(h.reply.body.value, "task_id") == Null)
  {
    if || Throws(db, faults, 0, OwnerNeeds) || Throws(db, faults, 1, ProjectInfoNeeds)
       || IntParam(Get(body, "Project")) == BadArg
    then Handled(Fail(500, "Failed to create update."), db)
    else if UpdateRejected(db, body) then
      Handled(Fail(400, "Invalid IDs, or associated names/account could not be found."), db)
    else
      var owner := FirstMatch(db.users.rows, "airtable_id", Get(body, "Update Owner")).value;
      var info := ProjectWithAccount(db, Get(body, "Project")).value;
      assert owner in db.users.rows && TextMatches(owner, "airtable_id", Get(body, "Update Owner"));
      InsertUpdate(db, faults, body, owner, info.0, info.1, IntParam(Or(Get(body, "Task"), Null)))
  }

  /** The INSERT of an update once the owner and the project's names have been
      found (query 2). */
  function InsertUpdate(db: Db, faults: set<nat>, body: Obj, owner: Row, project: Row, account: Row, task: IntArg): (h: Handled<Row>)
    ensures h.reply.status in {201, 500}
    ensures h.reply.status == 500 <==> (2 in faults || !(UpdateColumns <= db.updates.columns)
                                        || task == BadArg)
    ensures h.reply.status != 201 ==> h.db == db
    ensures h.reply.status == 201 ==>
              && h.reply.body.Data?
              && Appended(db, h.db, Updates, h.reply.body.value)
              && Cell(h.reply.body.value, "project_id") == Num(project.id)
              && Cell(h.reply.body.value, "update_owner_id") == Num(owner.id)
              && Cell(h.reply.body.value, "project_name") == Cell(project, "project_name")
              && Cell(h.reply.body.value, "update_owner_name") == Cell(owner, "user_name")
              && Cell(h.reply.body.value, "update_account") == Cell(account, "account_name")
              && Cell(h.reply.body.value, "task_id") == IntCell(task)
  {
    var values := UpdateValues(body, IntCell(task), owner, project, account);
    InsertThrowsOn(db, faults, 2, Updates, values, UpdateColumns);
    if task == BadArg || InsertThrows(db, faults, 2, Updates, values) then Handled(Fail(500, "Failed to create update."), db)
    else Create(db, Updates, values)
  }

  // ---------------------------------------------------------------------
  // PATCH /api/projects/:id
  // ---------------------------------------------------------------------

  /** `Object.keys(fields).map((key, index) => "<column>" = $<index + 1>)`. */
  function SetPlan(fields: Obj): (plan: seq<Assignment>)
    ensures |plan| == |fields|
  {
    seq(|fields|, i requires 0 <= i < |fields| => Assignment(ColumnName(fields[i].0), i + 1))
  }

  /** `[...Object.values(fields), id]`. */
  function PatchParams(fields: Obj, id: string): (params: seq<Val>)
    ensures |params| == |fields| + 1
  {
    seq(|fields|, i requires 0 <= i < |fields| => AsParam(fields[i].1)) + [Str(id)]
  }

  /** `WHERE id = $<values.length + 1>`. */
  function IdPlaceholder(fields: Obj): nat {
    |fields| + 1
  }

  /** The parameter the statement binds to `$k`. */
  function Bind(params: seq<Val>, k: nat): Val
    requires 1 <= k <= |params|
  {
    params[k - 1]
  }

  /** Field i is bound through `$i+1` to its own value, the id through `$n+1`,
      and no two placeholders coincide. */
  lemma PlaceholderLayout(fields: Obj, id: string)
    ensures forall i :: 0 <= i < |fields| ==>
              && 1 <= SetPlan(fields)[i].placeholder <= |fields|
              && Bind(PatchParams(fields, id), SetPlan(fields)[i].placeholder) == AsParam(fields[i].1)
              && SetPlan(fields)[i].column == ColumnName(fields[i].0)
    ensures Bind(PatchParams(fields, id), IdPlaceholder(fields)) == Str(id)
    ensures forall i, j :: 0 <= i < j < |fields| ==> SetPlan(fields)[i].placeholder != SetPlan(fields)[j].placeholder
  {
  }

  predicate PlaceholdersBound(plan: seq<Assignment>, params: seq<Val>) {
    forall i :: 0 <= i < |plan| ==> 1 <= plan[i].placeholder <= |params|
  }

  predicate DistinctColumns(plan: seq<Assignment>) {
    forall i, j :: 0 <= i < j < |plan| ==> plan[i].column != plan[j].column
  }

  /** What the SET list assigns: each column the value bound to its placeholder. */
  function Assignments(plan: seq<Assignment>, params: seq<Val>): (m: map<string, Val>)
    requires PlaceholdersBound(plan, params)
    ensures forall c :: c in m <==> exists i :: 0 <= i < |plan| && plan[i].column == c
  {
    if |plan| == 0 then map[]
    else
      var last := plan[|plan| - 1];
      var m := Assignments(plan[..|plan| - 1], params);
      assert forall i :: 0 <= i < |plan| - 1 ==> plan[..|plan| - 1][i] == plan[i];
      m[last.column := Bind(params, last.placeholder)]
  }

  /** With distinct columns, every column gets exactly its own placeholder's value. */
  lemma {:induction false} AssignmentsValues(plan: seq<Assignment>, params: seq<Val>)
    requires PlaceholdersBound(plan, params) && DistinctColumns(plan)
    ensures forall i :: 0 <= i < |plan| ==> Assignments(plan, params)[plan[i].column] == Bind(params, plan[i].placeholder)
  {
    if |plan| > 0 {
      var init := plan[..|plan| - 1];
      assert forall i :: 0 <= i < |init| ==> init[i] == plan[i];
      AssignmentsValues(init, params);
    }
  }

  function PatchNeeds(plan: seq<Assignment>): (needs: seq<Need>)
    ensures |needs| == |plan|
    ensures forall i :: 0 <= i < |plan| ==> needs[i] == (Projects, plan[i].column)
  {
    seq(|plan|, i requires 0 <= i < |plan| => (Projects, plan[i].column))
  }

  /** The integer foreign-key columns of the tables the PATCH routes write. */
  predicate IntKey(t: Tbl, column: string) {
    || (t == Projects && (column == "account_id" || column == "project_owner_id"))
    || (t == Tasks && (column == "project_id" || column == "assigned_to_id" || column == "created_by_id"))
  }

  /** PostgreSQL types a parameter assigned to an integer column as an integer,
      so a value the integer cast refuses makes the UPDATE throw. */
  predicate Refused(t: Tbl, column: string, v: Val) {
    IntKey(t, column) && IntParam(v) == BadArg
  }

  /** The value an UPDATE stores for `v` sent to `column`: the integer the cast
      reads for an integer key, the value as bound otherwise. */
  function Stored(t: Tbl, column: string, v: Val): (r: Val)
    ensures r != Undefined
    ensures IntKey(t, column) && IntParam(v).IntVal? ==> r == Num(IntParam(v).n)
    ensures IntKey(t, column) && (v == Undefined || v == Null) ==> r == Null
    ensures !IntKey(t, column) ==> r == AsParam(v)
  {
    if IntKey(t, column) then IntCell(IntParam(v)) else AsParam(v)
  }

  /** Whether the UPDATE throws: an injected fault, a column the table lacks, a
      column assigned twice, an id the integer cast rejects, or a value the
      cast of an integer key rejects. */
  predicate PatchThrows(db: Db, faults: set<nat>, arg: IntArg, fields: Obj) {
    || Throws(db, faults, 0, PatchNeeds(SetPlan(fields)))
    || !DistinctColumns(SetPlan(fields))
    || !arg.IntVal?
    || exists k :: 0 <= k < |fields| && Refused(Projects, ColumnName(fields[k].0), fields[k].1)
  }

  /** After a PATCH of project `n`: only the projects table changed; rows with
      another id are as they were; each row with id `n` holds, under every
      field's column name, the value stored for that field (the cast integer
      for an integer key), and keeps its other columns. */
  ghost predicate PatchedRows(db: Db, after: Db, n: int, fields: Obj) {
    && (forall t :: t != Projects ==> after.Get(t) == db.Get(t))
    && after.projects.columns == db.projects.columns
    && after.projects.serial == db.projects.serial
    && |after.projects.rows| == |db.projects.rows|
    && forall i :: 0 <= i < |db.projects.rows| ==>
         var old_, new_ := db.projects.rows[i], after.projects.rows[i];
         && new_.id == old_.id
         && (old_.id != n ==> new_ == old_)
         && (old_.id == n ==>
               && (forall k :: 0 <= k < |fields| ==> Cell(new_, ColumnName(fields[k].0)) == Stored(Projects, ColumnName(fields[k].0), fields[k].1))
               && (forall c :: (forall k :: 0 <= k < |fields| ==> ColumnName(fields[k].0) != c) ==> Cell(new_, c) == Cell(old_, c)))
  }

  /** Every key's column name stays one quoted identifier in the statement, and
      none is the primary key. */
  predicate SafeKeys(fields: Obj) {
    forall k :: 0 <= k < |fields| ==> QuoteSafe(ColumnName(fields[k].0)) && ColumnName(fields[k].0) != "id"
  }

  /** With safe keys, the UPDATE the handler runs quotes exactly the keys'
      column names, in body order, so it assigns those columns and no other. */
  lemma PatchProjectStatement(fields: Obj)
    requires SafeKeys(fields)
    ensures var names := QuotedNames(ProjectStatement(SetPlan(fields), IdPlaceholder(fields)));
            |names| == |fields| && forall k :: 0 <= k < |fields| ==> names[k] == ColumnName(fields[k].0)
  {
    ProjectStatementNames(SetPlan(fields), IdPlaceholder(fields));
  }

  /** PATCH /api/projects/:id. What the handler does is stated for safe keys:
      for other keys the statement's text is not the SET list the plan
      describes. */
  function PatchProject(db: Db, faults: set<nat>, id: string, fields: Obj): (h: Handled<Row>)
    ensures h.reply.status in {200, 400, 404, 500}
    ensures h.reply.status == 400 <==> |fields| == 0
    ensures h.reply.status != 200 ==> h.db == db
    ensures SafeKeys(fields) ==>
              (h.reply.status == 404 <==> (|fields| > 0 && !PatchThrows(db, faults, IntParam(Str(id)), fields)
                                           && forall i :: 0 <= i < |db.projects.rows| ==> db.projects.rows[i].id != IntParam(Str(id)).n))
    ensures SafeKeys(fields) ==>
              (h.reply.status == 500 <==> |fields| > 0 && PatchThrows(db, faults, IntParam(Str(id)), fields))
    ensures SafeKeys(fields) && h.reply.status == 200 ==>
              && IntParam(Str(id)).IntVal? && h.reply.body.Data? && h.reply.body.value.id == IntParam(Str(id)).n
              && PatchedRows(db, h.db, IntParam(Str(id)).n, fields)
              && Some(h.reply.body.value) == FindById(h.db.projects.rows, IntParam(Str(id)).n)
  {
    PatchProjectAt(db, faults, id, IntParam(Str(id)), fields)
  }

  /** The handler with the id already through the integer cast (`arg`). */
  function PatchProjectAt(db: Db, faults: set<nat>, id: string, arg: IntArg, fields: Obj): (h: Handled<Row>)
    ensures h.reply.status in {200, 400, 404, 500}
    ensures h.reply.status == 400 <==> |fields| == 0
    ensures h.reply.status != 200 ==> h.db == db
    ensures h.reply.status == 404 <==> (|fields| > 0 && !PatchThrows(db, faults, arg, fields)
                                        && forall i :: 0 <= i < |db.projects.rows| ==> db.projects.rows[i].id != arg.n)
    ensures h.reply.status == 500 <==> |fields| > 0 && PatchThrows(db, faults, arg, fields)
    ensures h.reply.status == 200 ==>
              && arg.IntVal? && h.reply.body.Data? && h.reply.body.value.id == arg.n
              && PatchedRows(db, h.db, arg.n, fields)
              && Some(h.reply.body.value) == FindById(h.db.projects.rows, arg.n)
  {
    if |fields| == 0 then Handled(Fail(400, "No fields provided to update."), db)
    else if PatchThrows(db, faults, arg, fields) then Handled(Fail(500, "Failed to update project."), db)
    else
      match FindById(db.projects.rows, arg.n)
      case None => Handled(Fail(404, "Project not found or no update was made."), db)
      case Some(p) => ApplyProjectPatch(db, id, arg.n, fields)
  }

  /** What the UPDATE's SET list assigns, read through the placeholders and the
      columns' types: every key's column gets the value stored for that key's
      value, and no other column is assigned. */
  function PatchAssignments(fields: Obj, id: string): (assign: map<string, Val>)
    requires DistinctColumns(SetPlan(fields))
    ensures forall k :: 0 <= k < |fields| ==>
              ColumnName(fields[k].0) in assign && assign[ColumnName(fields[k].0)] == Stored(Projects, ColumnName(fields[k].0), fields[k].1)
    ensures forall c :: c in assign ==> exists k :: 0 <= k < |fields| && ColumnName(fields[k].0) == c
  {
    var plan, params := SetPlan(fields), PatchParams(fields, id);
    PlaceholderLayout(fields, id);
    AssignmentsValues(plan, params);
    var bound := Assignments(plan, params);
    assert forall k :: 0 <= k < |fields| ==> ColumnName(fields[k].0) in bound && bound[ColumnName(fields[k].0)] == AsParam(fields[k].1);
    StoredAfterBinding(fields, bound);
    StoredColumns(bound)
  }

  /** Each bound value as its column's type stores it. */
  function StoredColumns(bound: map<string, Val>): (m: map<string, Val>)
    ensures m.Keys == bound.Keys
    ensures forall c :: c in bound ==> m[c] == Stored(Projects, c, bound[c])
  {
    map c | c in bound :: Stored(Projects, c, bound[c])
  }

  lemma StoredAfterBinding(fields: Obj, bound: map<string, Val>)
    requires forall k :: 0 <= k < |fields| ==> ColumnName(fields[k].0) in bound && bound[ColumnName(fields[k].0)] == AsParam(fields[k].1)
    ensures forall k :: 0 <= k < |fields| ==>
              Stored(Projects, ColumnName(fields[k].0), bound[ColumnName(fields[k].0)]) == Stored(Projects, ColumnName(fields[k].0), fields[k].1)
  {
    forall k | 0 <= k < |fields| ensures Stored(Projects, ColumnName(fields[k].0), bound[ColumnName(fields[k].0)])
                                            == Stored(Projects, ColumnName(fields[k].0), fields[k].1) {
      StoredOfBound(Projects, ColumnName(fields[k].0), fields[k].1);
    }
  }

  /** Binding a value first (`undefined` as NULL) does not change what is stored. */
  lemma StoredOfBound(t: Tbl, column: string, v: Val)
    ensures Stored(t, column, AsParam(v)) == Stored(t, column, v)
  {
  }

  /** The UPDATE of the projects with id `n`, replying with the patched row. */
  function ApplyProjectPatch(db: Db, id: string, n: int, fields: Obj): (h: Handled<Row>)
    requires DistinctColumns(SetPlan(fields))
    requires FindById(db.projects.rows, n).Some?
    ensures h.reply.status == 200 && h.reply.body.Data? && h.reply.body.value.id == n
    ensures PatchedRows(db, h.db, n, fields)
    ensures Some(h.reply.body.value) == FindById(h.db.projects.rows, n)
  {
    var assign := PatchAssignments(fields, id);
    var after := db.Put(Projects, db.projects.(rows := UpdateWhereId(db.projects.rows, n, assign)));
    PatchedRowsHold(db, after, n, fields, assign);
    FindUpdated(db.projects.rows, n, assign);
    Handled(Reply(200, Data(With(FindById(db.projects.rows, n).value, assign))), after)
  }

  lemma PatchedRowsHold(db: Db, after: Db, n: int, fields: Obj, assign: map<string, Val>)
    requires forall k :: 0 <= k < |fields| ==>
               ColumnName(fields[k].0) in assign && assign[ColumnName(fields[k].0)] == Stored(Projects, ColumnName(fields[k].0), fields[k].1)
    requires forall c :: c in assign ==> exists k :: 0 <= k < |fields| && ColumnName(fields[k].0) == c
    requires after == db.Put(Projects, db.projects.(rows := UpdateWhereId(db.projects.rows, n, assign)))
    ensures PatchedRows(db, after, n, fields)
  {
  }

  /** A value sent for a foreign key is stored as the integer the cast reads
      (`"7"` as 7), and a value the cast refuses (`"abc"`) answers 500. */
  lemma PatchProjectCastsKey(db: Db, faults: set<nat>, id: string, key: string, v: Val)
    requires IntKey(Projects, ColumnName(key))
    ensures var h := PatchProject(db, faults, id, [(key, v)]);
            && (IntParam(v) == BadArg ==> h.reply.status == 500)
            && (h.reply.status == 200 ==>
                  && IntParam(v) != BadArg
                  && forall i :: 0 <= i < |h.db.projects.rows| && h.db.projects.rows[i].id == IntParam(Str(id)).n ==>
                       Cell(h.db.projects.rows[i], ColumnName(key)) == IntCell(IntParam(v)))
  {
    var fields := [(key, v)];
    var h := PatchProjectAt(db, faults, id, IntParam(Str(id)), fields);
    assert PatchProject(db, faults, id, fields) == h;
    if IntParam(v) == BadArg {
      assert Refused(Projects, ColumnName(fields[0].0), fields[0].1);
      assert PatchThrows(db, faults, IntParam(Str(id)), fields);
    }
  }

  /** Renaming or otherwise patching a project leaves every update row as it was,
      so the names an update captured at insert time stay as they were. */
  lemma PatchProjectKeepsSnapshots(db: Db, faults: set<nat>, id: string, fields: Obj)
    ensures PatchProject(db, faults, id, fields).db.updates == db.updates
    ensures PatchProject(db, faults, id, fields).db.users == db.users
  {
    var h := PatchProjectAt(db, faults, id, IntParam(Str(id)), fields);
    assert PatchProject(db, faults, id, fields) == h;
    if h.reply.status == 200 {
      assert h.db.Get(Updates) == db.Get(Updates) && h.db.Get(Users) == db.Get(Users);
    }
  }

  // ---------------------------------------------------------------------
  // PATCH /api/tasks/:id
  // ---------------------------------------------------------------------

  /** The first key, lowercased, is a bare column name PostgreSQL reads as
      itself, and not the primary key. */
  predicate SafeTaskKey(fields: Obj) {
    |fields| > 0 && PlainIdentifier(Lower(fields[0].0)) && Lower(fields[0].0) != "id"
  }

  /** PATCH /api/tasks/:id: sets the column named by the lowercased first key
      only, through the integer cast when that column is an integer key. An
      empty body fails on `undefined.toLowerCase()`; an id no task has answers
      200 with no body. What the statement does is stated for a key
      that is a plain column name. */
  function PatchTask(db: Db, faults: set<nat>, id: string, fields: Obj): (h: Handled<Row>)
    ensures h.reply.status in {200, 500}
    ensures |fields| == 0 ==> h.reply.status == 500
    ensures h.reply.status != 200 ==> h.db == db
    ensures SafeTaskKey(fields) ==>
              (h.reply.status == 500 <==> (|| Throws(db, faults, 0, [(Tasks, Lower(fields[0].0))]) || !IntParam(Str(id)).IntVal?
                                          || Refused(Tasks, Lower(fields[0].0), fields[0].1)))
    ensures SafeTaskKey(fields) && h.reply.status == 200 ==> TaskPatched(db, h, IntParam(Str(id)).n, fields)
  {
    PatchTaskAt(db, faults, IntParam(Str(id)), fields)
  }

  /** After a PATCH of task `n`: only the tasks table changed, only the rows
      with the id, and in those only the first key's lowercased column; the
      reply is the patched row, or no body when no task has the id. */
  ghost predicate TaskPatched(db: Db, h: Handled<Row>, n: int, fields: Obj) {
    && |fields| > 0
    && (forall t :: t != Tasks ==> h.db.Get(t) == db.Get(t))
    && |h.db.tasks.rows| == |db.tasks.rows|
    && (forall i :: 0 <= i < |db.tasks.rows| && db.tasks.rows[i].id != n ==> h.db.tasks.rows[i] == db.tasks.rows[i])
    && (forall i :: 0 <= i < |db.tasks.rows| && db.tasks.rows[i].id == n ==>
          && Cell(h.db.tasks.rows[i], Lower(fields[0].0)) == Stored(Tasks, Lower(fields[0].0), fields[0].1)
          && forall c :: c != Lower(fields[0].0) ==> Cell(h.db.tasks.rows[i], c) == Cell(db.tasks.rows[i], c))
    && (h.reply.body.Blank? <==> forall i :: 0 <= i < |db.tasks.rows| ==> db.tasks.rows[i].id != n)
    && (h.reply.body.Data? ==> Some(h.reply.body.value) == FindById(h.db.tasks.rows, n))
  }

  /** The handler with the id already through the integer cast (`arg`). */
  function PatchTaskAt(db: Db, faults: set<nat>, arg: IntArg, fields: Obj): (h: Handled<Row>)
    ensures h.reply.status in {200, 500}
    ensures |fields| == 0 ==> h.reply.status == 500
    ensures h.reply.status != 200 ==> h.db == db
    ensures |fields| > 0 ==>
              (h.reply.status == 500 <==> (|| Throws(db, faults, 0, [(Tasks, Lower(fields[0].0))]) || !arg.IntVal?
                                          || Refused(Tasks, Lower(fields[0].0), fields[0].1)))
    ensures h.reply.status == 200 ==> arg.IntVal? && TaskPatched(db, h, arg.n, fields)
  {
    if |fields| == 0 then Handled(Fail(500, "Failed to update task."), db)
    else
      var column := Lower(fields[0].0);
      if Throws(db, faults, 0, [(Tasks, column)]) || !arg.IntVal? || Refused(Tasks, column, fields[0].1) then
        Handled(Fail(500, "Failed to update task."), db)
      else
        var n := arg.n;
        var assign := map[column := Stored(Tasks, column, fields[0].1)];
        var after := db.Put(Tasks, db.tasks.(rows := UpdateWhereId(db.tasks.rows, n, assign)));
        FindUpdated(db.tasks.rows, n, assign);
        match FindById(db.tasks.rows, n)
        case None => Handled(Reply(200, Blank), after)
        case Some(t) => Handled(Reply(200, Data(With(t, assign))), after)
  }

  /** A value sent for a foreign key of a task is stored as the integer the
      cast reads, and a value the cast refuses answers 500. */
  lemma PatchTaskCastsKey(db: Db, faults: set<nat>, id: string, key: string, v: Val)
    requires IntKey(Tasks, Lower(key))
    ensures var h := PatchTask(db, faults, id, [(key, v)]);
            && (IntParam(v) == BadArg ==> h.reply.status == 500)
            && (h.reply.status == 200 ==>
                  && IntParam(v) != BadArg
                  && forall i :: 0 <= i < |h.db.tasks.rows| && h.db.tasks.rows[i].id == IntParam(Str(id)).n ==>
                       Cell(h.db.tasks.rows[i], Lower(key)) == IntCell(IntParam(v)))
  {
    assert PatchTask(db, faults, id, [(key, v)]) == PatchTaskAt(db, faults, IntParam(Str(id)), [(key, v)]);
  }

  /** Only the first key of the body matters: bodies that agree on it give the
      same reply and the same store. */
  lemma PatchTaskReadsOnlyFirstKey(db: Db, faults: set<nat>, id: string, first: (string, Val), rest1: Obj, rest2: Obj)
    ensures PatchTask(db, faults, id, [first] + rest1) == PatchTask(db, faults, id, [first] + rest2)
  {
  }

  // ---------------------------------------------------------------------
  // PATCH /api/users/:id
  // ---------------------------------------------------------------------

  /** PATCH /api/users/:id acknowledges and changes nothing. */
  function PatchUser(db: Db, id: string, fields: Obj): (h: Handled<Val>)
    ensures h.db == db && h.reply.status == 200
  {
    Handled(Reply(200, Data(Rec(map["message" := Str("User update acknowledged.")]))), db)
  }
}

=== FILE: client.dfy ===
/** The client's API functions (src/api/index.js) composed with the server
    handlers they call: each call yields what its promise settles with and the
    request paths (below `/api/`) it issued. */
module Client {
  import opened Values
  import opened Text
  import opened Store
  import opened Http
  import opened ApiRead
  import opened ApiWrite
  import opened ClientFormat
  import opened Numbers
  import opened Order

  /** How a promise settles: with a value, or rejected with an error's message
      and, for a failed HTTP reply, its status (0 for any other error). */
  datatype Outcome<T> = Done(value: T) | Thrown(message: string, status: nat)

  /** A client call: its outcome and the requests it issued, in order. */
  datatype Call<T> = Call(outcome: Outcome<T>, requests: seq<string>)

  /** A client call that writes: the call and the store after it. */
  datatype Written<T> = Written(call: Call<T>, db: Db)

  /** The rejection `res.json()` gives a body that is not JSON: the empty body of
      `res.json(undefined)`, or the HTML page Express sends for an unknown route. */
  const NotJson: string := "Unexpected end of JSON input"

  /** The value Express gives a `:param` that ends a route path, for the text
      the client writes after the route's prefix: a non-empty segment without
      `/`, with one trailing `/` dropped (the router is not strict). Any other
      text reaches no route, and Express answers with its HTML 404 page. */
  function RouteParam(s: string): (p: Option<string>)
    ensures p.Some? ==> |p.value| > 0 && '/' !in p.value
    ensures p.Some? ==> s == p.value || s == p.value + "/"
  {
    if |s| > 0 && '/' !in s then Some(s)
    else if |s| > 1 && s[|s| - 1] == '/' && '/' !in s[..|s| - 1] then Some(s[..|s| - 1])
    else None
  }

  /** Every segment is matched, as itself and with a trailing slash; the empty
      text, a lone slash and a text with an inner slash are not. */
  lemma RouteParamMatches(p: string, a: string, b: string)
    requires |p| > 0 && '/' !in p
    ensures RouteParam(p) == Some(p)
    ensures RouteParam(p + "/") == Some(p)
    ensures RouteParam("") == None && RouteParam("/") == None
    ensures |a| > 0 && |b| > 0 ==> RouteParam(a + "/" + b) == None
  {
    var q := p + "/";
    assert q[..|q| - 1] == p;
    assert '/' in q;
    if |a| > 0 && |b| > 0 {
      var t := a + "/" + b;
      assert t[|a|] == '/';
      if t[|t| - 1] == '/' {
        assert t[..|t| - 1][|a|] == '/';
      }
    }
  }

  /** `apiRequest`: a 2xx reply settles with its JSON body; any other reply is
      thrown with the body's `error`, or with its status when there is none. */
  function ApiRequest<T>(r: Reply<T>): (o: Outcome<T>)
    ensures o.Done? <==> 200 <= r.status < 300 && r.body.Data?
    ensures o.Done? ==> o.value == r.body.value
    ensures !(200 <= r.status < 300) && !r.body.Blank? ==> o.Thrown? && o.status == r.status
    ensures !(200 <= r.status < 300) && r.body.Error? && r.body.message != "" ==> o.message == r.body.message
  {
    if 200 <= r.status < 300 then
      match r.body
      case Data(v) => Done(v)
      case _ => Thrown(NotJson, 0)
    else
      var fallback := "Request failed with status " + NatToString(r.status);
      match r.body
      case Error(m) => Thrown(if m != "" then m else fallback, r.status)
      case Data(_) => Thrown(fallback, r.status)
      case Blank => Thrown(NotJson, 0)
  }

  // ---------------------------------------------------------------------
  // Bulk fetches by id list
  // ---------------------------------------------------------------------

  function Decimals(ids: seq<int>): (ds: seq<string>)
    ensures |ds| == |ids|
    ensures forall i :: 0 <= i < |ids| ==> ds[i] == IntToString(ids[i])
  {
    seq(|ids|, i requires 0 <= i < |ids| => IntToString(ids[i]))
  }

  /** `ids.join(',')`. */
  function IdsText(ids: seq<int>): string
    requires |ids| > 0
  {
    Join(Decimals(ids), ',')
  }

  lemma {:induction false} JoinNonEmpty(parts: seq<string>, sep: char)
    requires |parts| >= 1 && |parts[0]| >= 1
    ensures |Join(parts, sep)| >= 1
  {
  }

  /** The decimal text of an integer holds no comma. */
  lemma DecimalNoComma(n: int)
    ensures ',' !in IntToString(n)
  {
    if n < 0 {
      var d := NatToString(-n);
      assert IntToString(n) == "-" + d;
      assert AllDigits(d);
    }
  }

  /** The text of an id reaches the query as that id when it is a 32-bit
      integer, and is refused by the cast otherwise. */
  lemma IdOfDecimal(n: int)
    ensures IdOfPiece(IntToString(n)) == if InInt4(n) then Some(n) else None
  {
    JsNumberOfInt(n);
  }

  predicate AllInt4(ids: seq<int>) {
    forall i :: 0 <= i < |ids| ==> InInt4(ids[i])
  }

  /** The server reads back exactly the ids the client joined, when every one
      of them fits the `integer` type; otherwise the cast refuses the list. */
  lemma IdsRoundTrip(ids: seq<int>)
    requires |ids| > 0
    ensures ReadIds(Str(IdsText(ids))) == if AllInt4(ids) then IdList(ids) else NotNumbers
  {
    var ds := Decimals(ids);
    var text := IdsText(ids);
    SplitDecimals(ids);
    assert Truthy(Str(text));
    forall i | 0 <= i < |ds| ensures IdOfPiece(ds[i]) == if InInt4(ids[i]) then Some(ids[i]) else None {
      IdOfDecimal(ids[i]);
    }
    var a := ReadIds(Str(text));
    if AllInt4(ids) {
      assert AllIds(ds);
      assert a.IdList?;
      assert forall i :: 0 <= i < |ids| ==> a.ids[i] == ids[i];
      assert a.ids == ids;
    } else {
      var i :| 0 <= i < |ids| && !InInt4(ids[i]);
      assert IdOfPiece(ds[i]).None?;
      assert !a.IdList?;
    }
  }

  /** The id list splits back into the decimals it was joined from. */
  lemma SplitDecimals(ids: seq<int>)
    requires |ids| > 0
    ensures Split(IdsText(ids), ',') == Decimals(ids)
    ensures |IdsText(ids)| > 0
  {
    var ds := Decimals(ids);
    JoinNonEmpty(ds, ',');
    forall i | 0 <= i < |ds| ensures ',' !in ds[i] {
      DecimalNoComma(ids[i]);
    }
    SplitJoin(ds, ',');
  }

  /** The record the client makes of a row the endpoint for `k` sends. */
  function FormatOf(k: Kind, row: Row): (r: Record)
    ensures r.id == Num(row.id)
  {
    match k
    case AccountRows => FormatAccount(row)
    case ProjectRows => FormatProject(row)
    case TaskRows => FormatTask(row)
    case UpdateRows => FormatUpdate(row)
  }

  /** `rows.map(format)` for the rows of endpoint `k`. */
  function Formats(k: Kind, rows: seq<Row>): (rs: seq<Record>)
    ensures |rs| == |rows|
    ensures forall i :: 0 <= i < |rows| ==> rs[i] == FormatOf(k, rows[i])
  {
    seq(|rows|, i requires 0 <= i < |rows| => FormatOf(k, rows[i]))
  }

  function Formatted(rows: seq<Row>, format: Row -> Record): (rs: seq<Record>)
    ensures |rs| == |rows|
    ensures forall i :: 0 <= i < |rows| ==> rs[i] == format(rows[i])
  {
    seq(|rows|, i requires 0 <= i < |rows| => format(rows[i]))
  }

  /** The records are the client's format of the server's views of exactly the
      listed rows of the table behind `k`, one per row, and with distinct ids
      when the table's ids are. */
  ghost predicate RecordsOfViews(out: seq<Record>, db: Db, k: Kind, ids: seq<int>) {
    exists rows :: ViewedExactly(rows, db, k, ids) && out == Formats(k, rows)
  }

  /** As `RecordsOfViews`, and newest first by date and then creation time. */
  ghost predicate NewestRecordsOfViews(out: seq<Record>, db: Db, k: Kind, ids: seq<int>) {
    exists rows :: ViewedExactly(rows, db, k, ids) && Sorted(rows, NewestFirst) && out == Formats(k, rows)
  }

  /** Records made of views with distinct ids have distinct ids. */
  lemma FormatsKeepIds(k: Kind, rows: seq<Row>)
    requires UniqueIds(rows)
    ensures forall i, j :: 0 <= i < j < |rows| ==> Formats(k, rows)[i].id != Formats(k, rows)[j].id
  {
  }

  /** `(await apiRequest(path)).map(format)`. */
  function FetchList(path: string, r: Reply<seq<Row>>, format: Row -> Record): (c: Call<seq<Record>>)
    ensures c.requests == [path]
    ensures c.outcome.Done? <==> 200 <= r.status < 300 && r.body.Data?
    ensures c.outcome.Done? ==> c.outcome.value == Formatted(r.body.value, format)
  {
    match ApiRequest(r)
    case Done(rows) => Call(Done(Formatted(rows, format)), [path])
    case Thrown(m, s) => Call(Thrown(m, s), [path])
  }

  /** `(await apiRequest(path)).map(formatX)` for the rows of endpoint `k`. */
  function FetchViews(path: string, r: Reply<seq<Row>>, k: Kind): (c: Call<seq<Record>>)
    ensures c.requests == [path]
    ensures c.outcome.Done? <==> 200 <= r.status < 300 && r.body.Data?
    ensures c.outcome.Done? ==> c.outcome.value == Formats(k, r.body.value)
  {
    match ApiRequest(r)
    case Done(rows) => Call(Done(Formats(k, rows)), [path])
    case Thrown(m, s) => Call(Thrown(m, s), [path])
  }

  /** No ids, or an empty list: `[]` without a request. */
  predicate NoIds(ids: Option<seq<int>>) {
    ids.None? || |ids.value| == 0
  }

  /** `fetchXByIds(ids)` for endpoint `k` once the list is known not to be empty. */
  method FetchByIds(db: Db, faults: set<nat>, k: Kind, ids: seq<int>) returns (c: Call<seq<Record>>)
    requires |ids| > 0
    ensures c.requests == [QueryOf(k) + IdsText(ids)]
    ensures c.outcome.Done? <==> AllInt4(ids) && !Throws(db, faults, 0, NeedsOf(k))
    ensures c.outcome.Done? ==> RecordsOfViews(c.outcome.value, db, k, ids)
    ensures c.outcome.Done? && k == UpdateRows ==> NewestRecordsOfViews(c.outcome.value, db, k, ids)
  {
    var text := IdsText(ids);
    JoinNonEmpty(Decimals(ids), ',');
    IdsRoundTrip(ids);
    var r := GetByIds(db, faults, k, Str(text));
    assert r.status == 200 <==> AllInt4(ids) && !Throws(db, faults, 0, NeedsOf(k));
    c := FetchViews(QueryOf(k) + text, r, k);
    if c.outcome.Done? {
      assert r.status == 200 && ReadIds(Str(text)).ids == ids;
      assert ViewedExactly(r.body.value, db, k, ids) && c.outcome.value == Formats(k, r.body.value);
    }
  }

  /** The path of the bulk read of endpoint `k`, up to its id list. */
  function QueryOf(k: Kind): string {
    match k
    case AccountRows => "accounts?ids="
    case ProjectRows => "projects?ids="
    case TaskRows => "tasks?ids="
    case UpdateRows => "updates?ids="
  }

  function NeedsOf(k: Kind): seq<Need> {
    match k
    case AccountRows => AccountsNeeds
    case ProjectRows => ProjectsNeeds
    case TaskRows => TasksNeeds
    case UpdateRows => UpdatesNeeds
  }

  /** The server's reply to `GET /api/<endpoint of k>?ids=…`. */
  method GetByIds(db: Db, faults: set<nat>, k: Kind, ids: Val) returns (r: Reply<seq<Row>>)
    requires Truthy(ids)
    ensures r.status in {200, 500}
    ensures r.status == 200 <==> ReadIds(ids).IdList? && !Throws(db, faults, 0, NeedsOf(k))
    ensures r.status == 200 ==> r.body.Data? && ViewedExactly(r.body.value, db, k, ReadIds(ids).ids)
    ensures r.status == 200 && k == UpdateRows ==> Sorted(r.body.value, NewestFirst)
  {
    match k
    case AccountRows => r := GetAccounts(db, faults, ids);
    case ProjectRows => r := GetProjects(db, faults, ids);
    case TaskRows => r := GetTasks(db, faults, ids);
    case UpdateRows => r := GetUpdates(db, faults, ids);
  }

  method FetchAccountsByIds(db: Db, faults: set<nat>, ids: Option<seq<int>>) returns (c: Call<seq<Record>>)
    ensures NoIds(ids) ==> c == Call(Done([]), [])
    ensures !NoIds(ids) ==> c.requests == ["accounts?ids=" + IdsText(ids.value)]
    ensures !NoIds(ids) ==> (c.outcome.Done? <==> AllInt4(ids.value) && !Throws(db, faults, 0, AccountsNeeds))
    ensures !NoIds(ids) && c.outcome.Done? ==> RecordsOfViews(c.outcome.value, db, AccountRows, ids.value)
  {
    if NoIds(ids) {
      c := Call(Done([]), []);
    } else {
      c := FetchByIds(db, faults, AccountRows, ids.value);
    }
  }

  method FetchProjectsByIds(db: Db, faults: set<nat>, ids: Option<seq<int>>) returns (c: Call<seq<Record>>)
    ensures NoIds(ids) ==> c == Call(Done([]), [])
    ensures !NoIds(ids) ==> c.requests == ["projects?ids=" + IdsText(ids.value)]
    ensures !NoIds(ids) ==> (c.outcome.Done? <==> AllInt4(ids.value) && !Throws(db, faults, 0, ProjectsNeeds))
    ensures !NoIds(ids) && c.outcome.Done? ==> RecordsOfViews(c.outcome.value, db, ProjectRows, ids.value)
  {
    if NoIds(ids) {
      c := Call(Done([]), []);
    } else {
      c := FetchByIds(db, faults, ProjectRows, ids.value);
    }
  }

  method FetchTasksByIds(db: Db, faults: set<nat>, ids: Option<seq<int>>) returns (c: Call<seq<Record>>)
    ensures NoIds(ids) ==> c == Call(Done([]), [])
    ensures !NoIds(ids) ==> c.requests == ["tasks?ids=" + IdsText(ids.value)]
    ensures !NoIds(ids) ==> (c.outcome.Done? <==> AllInt4(ids.value) && !Throws(db, faults, 0, TasksNeeds))
    ensures !NoIds(ids) && c.outcome.Done? ==> RecordsOfViews(c.outcome.value, db, TaskRows, ids.value)
  {
    if NoIds(ids) {
      c := Call(Done([]), []);
    } else {
      c := FetchByIds(db, faults, TaskRows, ids.value);
    }
  }

  method FetchUpdatesByIds(db: Db, faults: set<nat>, ids: Option<seq<int>>) returns (c: Call<seq<Record>>)
    ensures NoIds(ids) ==> c == Call(Done([]), [])
    ensures !NoIds(ids) ==> c.requests == ["updates?ids=" + IdsText(ids.value)]
    ensures !NoIds(ids) ==> (c.outcome.Done? <==> AllInt4(ids.value) && !Throws(db, faults, 0, UpdatesNeeds))
    ensures !NoIds(ids) && c.outcome.Done? ==> NewestRecordsOfViews(c.outcome.value, db, UpdateRows, ids.value)
  {
    if NoIds(ids) {
      c := Call(Done([]), []);
    } else {
      c := FetchByIds(db, faults, UpdateRows, ids.value);
    }
  }

  /** `fetchUpdatesByProjectId`: the server has no `updates/by-project` route,
      so any truthy project id ends in Express's HTML 404 page, which
      `res.json()` cannot read. */
  function FetchUpdatesByProjectId(projectId: Val): (c: Call<seq<Record>>)
    ensures !Truthy(projectId) ==> c == Call(Done([]), [])
    ensures Truthy(projectId) ==> c.outcome.Thrown? && |c.requests| == 1
  {
    if !Truthy(projectId) then Call(Done([]), [])
    else Call(Thrown(NotJson, 0), ["updates/by-project/" + PropertyKey(projectId)])
  }

  /** `fetchAllUpdates`: every update, formatted, newest first. */
  method FetchAllUpdates(db: Db, faults: set<nat>) returns (c: Call<seq<Record>>)
    ensures c.requests == ["updates"]
    ensures c.outcome.Done? <==> !Throws(db, faults, 0, UpdatesNeeds)
    ensures c.outcome.Done? ==> NewestRecordsOfViews(c.outcome.value, db, UpdateRows, Ids(db.updates.rows))
  {
    var r := GetUpdates(db, faults, Undefined);
    c := FetchViews("updates", r, UpdateRows);
    if c.outcome.Done? {
      assert ViewedExactly(r.body.value, db, UpdateRows, Ids(db.updates.rows)) && c.outcome.value == Formats(UpdateRows, r.body.value);
    }
  }

  // ---------------------------------------------------------------------
  // Single fetches
  // ---------------------------------------------------------------------

  /** `(await fetchXByIds([id]))[0] || null`. */
  function FirstOrNull(c: Call<seq<Record>>): (f: Call<Option<Record>>)
    ensures f.requests == c.requests
    ensures f.outcome.Done? <==> c.outcome.Done?
    ensures c.outcome.Done? ==> (f.outcome.value.None? <==> |c.outcome.value| == 0)
    ensures c.outcome.Done? && |c.outcome.value| > 0 ==> f.outcome.value == Some(c.outcome.value[0])
  {
    match c.outcome
    case Done(rs) => Call(Done(if |rs| > 0 then Some(rs[0]) else None), c.requests)
    case Thrown(m, s) => Call(Thrown(m, s), c.requests)
  }

  /** A single fetch settles with `null` exactly when the table has no row with
      the id, and otherwise with the record of the view of a row with it. */
  ghost predicate FoundById(c: Call<Option<Record>>, db: Db, k: Kind, id: int) {
    c.outcome.Done? ==>
      && (c.outcome.value.None? <==> forall a :: a in db.Get(TableOf(k)).rows ==> a.id != id)
      && (c.outcome.value.Some? ==>
            exists a :: a in db.Get(TableOf(k)).rows && a.id == id && c.outcome.value.value == FormatOf(k, ViewOf(db, k, a)))
  }

  lemma FirstOfFetched(c: Call<seq<Record>>, db: Db, k: Kind, id: int)
    requires c.outcome.Done? ==> RecordsOfViews(c.outcome.value, db, k, [id])
    ensures FoundById(FirstOrNull(c), db, k, id)
  {
    if c.outcome.Done? {
      var rows :| ViewedExactly(rows, db, k, [id]) && c.outcome.value == Formats(k, rows);
      if |rows| > 0 {
        FirstView(rows, db, k, id);
      } else {
        NoView(rows, db, k, id);
      }
    }
  }

  /** The first of the views of the rows with `id` is the view of such a row. */
  lemma FirstView(rows: seq<Row>, db: Db, k: Kind, id: int)
    requires ViewedExactly(rows, db, k, [id]) && |rows| > 0
    ensures exists a :: a in db.Get(TableOf(k)).rows && a.id == id && rows[0] == ViewOf(db, k, a)
  {
    assert rows[0] in rows;
  }

  /** No views of the rows with `id` means no row has it. */
  lemma NoView(rows: seq<Row>, db: Db, k: Kind, id: int)
    requires ViewedExactly(rows, db, k, [id]) && |rows| == 0
    ensures forall a :: a in db.Get(TableOf(k)).rows ==> a.id != id
  {
    forall a | a in db.Get(TableOf(k)).rows ensures a.id != id {
      assert a.id in [id] ==> ViewOf(db, k, a) in rows;
    }
  }

  /** `fetchXById(id)` for endpoint `k`. */
  method FetchById(db: Db, faults: set<nat>, k: Kind, id: int) returns (c: Call<Option<Record>>)
    ensures c.requests == [QueryOf(k) + IntToString(id)]
    ensures c.outcome.Done? <==> InInt4(id) && !Throws(db, faults, 0, NeedsOf(k))
    ensures FoundById(c, db, k, id)
  {
    var all := FetchByIds(db, faults, k, [id]);
    assert IdsText([id]) == IntToString(id) by {
      assert Decimals([id]) == [IntToString(id)];
    }
    assert AllInt4([id]) <==> InInt4(id);
    FirstOfFetched(all, db, k, id);
    c := FirstOrNull(all);
  }

  method FetchAccountById(db: Db, faults: set<nat>, id: int) returns (c: Call<Option<Record>>)
    ensures c.requests == ["accounts?ids=" + IntToString(id)]
    ensures c.outcome.Done? <==> InInt4(id) && !Throws(db, faults, 0, AccountsNeeds)
    ensures FoundById(c, db, AccountRows, id)
  {
    c := FetchById(db, faults, AccountRows, id);
  }

  method FetchProjectById(db: Db, faults: set<nat>, id: int) returns (c: Call<Option<Record>>)
    ensures c.requests == ["projects?ids=" + IntToString(id)]
    ensures c.outcome.Done? <==> InInt4(id) && !Throws(db, faults, 0, ProjectsNeeds)
    ensures FoundById(c, db, ProjectRows, id)
  {
    c := FetchById(db, faults, ProjectRows, id);
  }

  method FetchTaskById(db: Db, faults: set<nat>, id: int) returns (c: Call<Option<Record>>)
    ensures c.requests == ["tasks?ids=" + IntToString(id)]
    ensures c.outcome.Done? <==> InInt4(id) && !Throws(db, faults, 0, TasksNeeds)
    ensures FoundById(c, db, TaskRows, id)
  {
    c := FetchById(db, faults, TaskRows, id);
  }

  method FetchUpdateById(db: Db, faults: set<nat>, id: int) returns (c: Call<Option<Record>>)
    ensures c.requests == ["updates?ids=" + IntToString(id)]
    ensures c.outcome.Done? <==> InInt4(id) && !Throws(db, faults, 0, UpdatesNeeds)
    ensures FoundById(c, db, UpdateRows, id)
  {
    c := FetchById(db, faults, UpdateRows, id);
  }

  // ---------------------------------------------------------------------
  // Users
  // ---------------------------------------------------------------------

  /** `{id: u.airtable_id, fields: {"User Name": u.user_name}}`. */
  function UserEntry(u: Row): Record {
    Record(Cell(u, "airtable_id"), map["User Name" := Cell(u, "user_name")])
  }

  /** A listing carries the key and the name of its user. */
  lemma ListingEntry(u: Row)
    ensures UserEntry(UserListing(u)) == UserEntry(u)
  {
  }

  /** A permutation of the users' listings holds every user's listing. */
  lemma ListedUser(out: seq<Row>, users: seq<Row>, u: Row)
    requires multiset(out) == multiset(UserListings(users))
    requires u in users
    ensures UserListing(u) in out
  {
    var i :| 0 <= i < |users| && users[i] == u;
    assert UserListings(users)[i] in multiset(UserListings(users));
  }

  lemma FormattedHas(rows: seq<Row>, format: Row -> Record, x: Row)
    requires x in rows
    ensures format(x) in Formatted(rows, format)
  {
    var k :| 0 <= k < |rows| && rows[k] == x;
    assert Formatted(rows, format)[k] == format(x);
  }

  lemma PermutationLength<T>(a: seq<T>, b: seq<T>)
    requires multiset(a) == multiset(b)
    ensures |a| == |b|
  {
    assert |multiset(a)| == |multiset(b)|;
  }

  /** Entries made from a permutation of the users' listings: one per user,
      each under its own key and name. */
  lemma UsersEntered(out: seq<Row>, users: seq<Row>)
    requires multiset(out) == multiset(UserListings(users))
    ensures |Formatted(out, UserEntry)| == |users|
    ensures forall u :: u in users ==> UserEntry(u) in Formatted(out, UserEntry)
  {
    PermutationLength(out, UserListings(users));
    forall u | u in users ensures UserEntry(u) in Formatted(out, UserEntry) {
      ListedUser(out, users, u);
      FormattedHas(out, UserEntry, UserListing(u));
      ListingEntry(u);
    }
  }

  /** `fetchAllUsers`: one entry per user, keyed by secret key. */
  function FetchAllUsers(db: Db, faults: set<nat>): (c: Call<seq<Record>>)
    ensures c.requests == ["users"]
    ensures c.outcome.Done? <==> !Throws(db, faults, 0, [(Users, "airtable_id"), (Users, "user_name")])
    ensures c.outcome.Done? ==> |c.outcome.value| == |db.users.rows|
    ensures c.outcome.Done? ==> forall u :: u in db.users.rows ==> UserEntry(u) in c.outcome.value
    ensures c.outcome.Done? ==>
              exists s :: && multiset(s) == multiset(UserListings(db.users.rows)) && Sorted(s, ByUserName)
                          && c.outcome.value == Formatted(s, UserEntry)
  {
    var r := ListUsers(db, faults);
    if r.status == 200 then
      UsersEntered(r.body.value, db.users.rows);
      assert multiset(r.body.value) == multiset(UserListings(db.users.rows)) && Sorted(r.body.value, ByUserName);
      FetchList("users", r, UserEntry)
    else FetchList("users", r, UserEntry)
  }

  /** The record the client builds from a user summary. */
  function UserRecord(s: UserSummary): Record {
    Record(s.airtableId, map[
      "User Name" := s.userName,
      "Accounts" := Nums(s.accounts),
      "Projects" := Nums(s.projects),
      "Tasks (Assigned To)" := Nums(s.tasksAssignedTo),
      "Tasks (Created By)" := Nums(s.tasksCreatedBy),
      "Updates" := Nums(s.updates)])
  }

  /** `fetchUserBySecretKey` as written: a rejection whose message contains
      "404" is read as "no such user". A key that is no route segment reaches
      no route. */
  function FetchUserBySecretKeyAsWritten(db: Db, faults: set<nat>, key: string): (c: Call<Option<Record>>)
    ensures c.requests == ["users/by-secret-key/" + key]
    ensures RouteParam(key).None? ==> c.outcome == Thrown(NotJson, 0)
    ensures c.outcome.Done? && c.outcome.value.Some? ==>
              && RouteParam(key).Some?
              && var k := RouteParam(key).value;
              && FirstMatch(db.users.rows, "airtable_id", Str(k)).Some?
              && c.outcome.value.value.id == Cell(FirstMatch(db.users.rows, "airtable_id", Str(k)).value, "airtable_id")
  {
    var path := "users/by-secret-key/" + key;
    match RouteParam(key)
    case None => Call(Thrown(NotJson, 0), [path])
    case Some(k) =>
      match ApiRequest(UserByKey(db, faults, k))
      case Done(s) => Call(Done(Some(UserRecord(s))), [path])
      case Thrown(m, st) => Call(if Contains(m, "404") then Done(None) else Thrown(m, st), [path])
  }

  lemma NoFourInMessage()
    ensures !Contains("User not found.", "404")
  {
    var hay := "User not found.";
    forall i | 0 <= i <= |hay| - 3 ensures !OccursAt(hay, "404", i) {
      assert hay[i] != '4';
      if i + 3 <= |hay| {
        assert hay[i..i + 3][0] == hay[i];
      }
    }
  }

  /** The server reports an unknown key as "User not found.", which does not
      contain "404": the as-written client rejects instead of settling with
      `null`. */
  lemma UnknownKeyRejects(db: Db, faults: set<nat>, key: string)
    requires RouteParam(key).Some?
    requires !Throws(db, faults, 0, SummaryNeeds)
    requires forall i :: 0 <= i < |db.users.rows| ==> !TextMatches(db.users.rows[i], "airtable_id", Str(RouteParam(key).value))
    ensures FetchUserBySecretKeyAsWritten(db, faults, key).outcome == Thrown("User not found.", 404)
  {
    NoFourInMessage();
  }

  /** `fetchUserBySecretKey` reading the reply's status: `null` for the
      server's 404. A key that reaches no route still rejects, since Express's
      HTML page fails to parse before any status is read. */
  function FetchUserBySecretKey(db: Db, faults: set<nat>, key: string): (c: Call<Option<Record>>)
    ensures c.requests == ["users/by-secret-key/" + key]
    ensures c.outcome.Thrown? <==> RouteParam(key).None? || Throws(db, faults, 0, SummaryNeeds)
    ensures c.outcome == Done(None) <==>
              && RouteParam(key).Some?
              && !Throws(db, faults, 0, SummaryNeeds)
              && forall i :: 0 <= i < |db.users.rows| ==> !TextMatches(db.users.rows[i], "airtable_id", Str(RouteParam(key).value))
    ensures c.outcome.Done? && c.outcome.value.Some? ==>
              && RouteParam(key).Some?
              && var k := RouteParam(key).value;
              && FirstMatch(db.users.rows, "airtable_id", Str(k)).Some?
              && c.outcome.value.value.id == Cell(FirstMatch(db.users.rows, "airtable_id", Str(k)).value, "airtable_id")
  {
    var path := "users/by-secret-key/" + key;
    match RouteParam(key)
    case None => Call(Thrown(NotJson, 0), [path])
    case Some(k) =>
      match ApiRequest(UserByKey(db, faults, k))
      case Done(s) => Call(Done(Some(UserRecord(s))), [path])
      case Thrown(m, st) => Call(if st == 404 then Done(None) else Thrown(m, st), [path])
  }

  // ---------------------------------------------------------------------
  // Create and update
  // ---------------------------------------------------------------------

  /** `{id: result.id, fields: result}`. */
  function CreatedRecord(row: Row): (r: Record)
    ensures r.id == Num(row.id) && Field(r, "id") == Num(row.id)
  {
    Record(Num(row.id), AsVal(row).props)
  }

  /** Express matches a route path with or without a trailing slash. */
  predicate Names(endpoint: string, route: string) {
    endpoint == route || endpoint == route + "/"
  }

  /** Paths that name a route start with the route's first character. */
  lemma NamesFirst(endpoint: string, route: string)
    ensures Names(endpoint, route) && |route| > 0 ==> |endpoint| > 0 && endpoint[0] == route[0]
  {
    if Names(endpoint, route) && |route| > 0 && endpoint != route {
      assert endpoint == route + "/";
      assert endpoint[0] == (route + "/")[0];
    }
  }

  /** The table a lowercased endpoint names, for the four tables with a POST route. */
  function PostTable(endpoint: string): (t: Option<Tbl>)
    ensures t == Some(Accounts) <==> Names(endpoint, "accounts")
    ensures t == Some(Projects) <==> Names(endpoint, "projects")
    ensures t == Some(Tasks) <==> Names(endpoint, "tasks")
    ensures t == Some(Updates) <==> Names(endpoint, "updates")
    ensures t != Some(Users)
  {
    NamesFirst(endpoint, "accounts");
    NamesFirst(endpoint, "projects");
    NamesFirst(endpoint, "tasks");
    NamesFirst(endpoint, "updates");
    if Names(endpoint, "accounts") then Some(Accounts)
    else if Names(endpoint, "projects") then Some(Projects)
    else if Names(endpoint, "tasks") then Some(Tasks)
    else if Names(endpoint, "updates") then Some(Updates)
    else None
  }

  function Post(db: Db, faults: set<nat>, t: Tbl, fields: Obj): (h: Handled<Row>)
    ensures h.reply.status != 201 ==> h.db == db
    ensures h.reply.status == 201 ==> h.reply.body.Data? && Appended(db, h.db, t, h.reply.body.value)
  {
    match t
    case Accounts => PostAccount(db, faults, fields)
    case Projects => PostProject(db, faults, fields)
    case Tasks => PostTask(db, faults, fields)
    case Updates => PostUpdate(db, faults, fields)
    case Users => Handled(Reply(404, Blank), db)
  }

  /** `createRecord(table, fields)`: posts to the lowercased table name; the new
      record carries the new row's id and the row itself as its fields. */
  function CreateRecord(db: Db, faults: set<nat>, table: string, fields: Obj): (w: Written<Record>)
    ensures w.call.requests == [Lower(table)]
    ensures w.call.outcome.Thrown? ==> w.db == db
    ensures PostTable(Lower(table)).None? ==> w.call.outcome.Thrown? && w.db == db
    ensures w.call.outcome.Done? ==>
              && PostTable(Lower(table)).Some?
              && var t := PostTable(Lower(table)).value;
              && |w.db.Get(t).rows| == |db.Get(t).rows| + 1
              && var row := w.db.Get(t).rows[|db.Get(t).rows|];
              && Appended(db, w.db, t, row)
              && w.call.outcome.value == CreatedRecord(row)
  {
    var endpoint := Lower(table);
    match PostTable(endpoint)
    case None => Written(Call(Thrown(NotJson, 0), [endpoint]), db)
    case Some(t) =>
      var h := Post(db, faults, t, fields);
      match ApiRequest(h.reply)
      case Done(row) => Written(Call(Done(CreatedRecord(row)), [endpoint]), h.db)
      case Thrown(m, s) => Written(Call(Thrown(m, s), [endpoint]), h.db)
  }

  /** `updateRecord(table, id, fields)` for the three tables with a PATCH route;
      any other table, or an id that is no route segment, reaches no route. */
  function UpdateRecord(db: Db, faults: set<nat>, table: string, id: string, fields: Obj): (w: Written<Val>)
    ensures w.call.requests == [Lower(table) + "/" + id]
    ensures Lower(table) !in {"projects", "tasks", "users"} || RouteParam(id).None? ==>
              w.call.outcome == Thrown(NotJson, 0) && w.db == db
    ensures Lower(table) == "users" ==> w.db == db
    ensures Lower(table) == "projects" && RouteParam(id).Some? ==> w.db == PatchProject(db, faults, RouteParam(id).value, fields).db
    ensures Lower(table) == "tasks" && RouteParam(id).Some? ==> w.db == PatchTask(db, faults, RouteParam(id).value, fields).db
  {
    var endpoint := Lower(table);
    var path := endpoint + "/" + id;
    if endpoint !in {"projects", "tasks", "users"} then Written(Call(Thrown(NotJson, 0), [path]), db)
    else
      match RouteParam(id)
      case None => Written(Call(Thrown(NotJson, 0), [path]), db)
      case Some(p) =>
        if endpoint == "projects" then
          var h := PatchProject(db, faults, p, fields);
          Written(Call(match ApiRequest(h.reply) case Done(row) => Done(AsVal(row)) case Thrown(m, s) => Thrown(m, s), [path]), h.db)
        else if endpoint == "tasks" then
          var h := PatchTask(db, faults, p, fields);
          Written(Call(match ApiRequest(h.reply) case Done(row) => Done(AsVal(row)) case Thrown(m, s) => Thrown(m, s), [path]), h.db)
        else
          var h := PatchUser(db, p, fields);
          Written(Call(ApiRequest(h.reply), [path]), h.db)
  }

  /** `updateTask(id, fields)` on an id no task has: the server answers 200
      with no body, and reading it rejects (as does an id that reaches no
      route). */
  lemma UpdateMissingTaskRejects(db: Db, faults: set<nat>, id: string, fields: Obj)
    requires |fields| > 0
    requires !Throws(db, faults, 0, [(Tasks, Lower(fields[0].0))]) && !Refused(Tasks, Lower(fields[0].0), fields[0].1)
    requires RouteParam(id).Some? ==>
               && IntParam(Str(RouteParam(id).value)).IntVal?
               && forall i :: 0 <= i < |db.tasks.rows| ==> db.tasks.rows[i].id != IntParam(Str(RouteParam(id).value)).n
    ensures UpdateRecord(db, faults, "Tasks", id, fields).call.outcome == Thrown(NotJson, 0)
  {
    assert Lower("Tasks") == "tasks";
    if RouteParam(id).Some? {
      var p := RouteParam(id).value;
      var h := PatchTaskAt(db, faults, IntParam(Str(p)), fields);
      assert PatchTask(db, faults, p, fields) == h;
      assert h.reply.body.Blank?;
    }
  }

  /** `updateUser` settles with the acknowledgement exactly when the id reaches
      the route, and never changes the store. */
  lemma UpdateUserAcknowledges(db: Db, faults: set<nat>, id: string, fields: Obj)
    ensures UpdateRecord(db, faults, "Users", id, fields).db == db
    ensures UpdateRecord(db, faults, "Users", id, fields).call.outcome.Done? <==> RouteParam(id).Some?
  {
    assert Lower("Users") == "users";
  }
}

=== FILE: client_format.dfy ===
/** The client-side shaping of server rows (src/api/index.js): the `{id, fields}`
    records the pages consume, the grouping of updates by project, and the
    `YYYY-MM-DD` date text. */
module ClientFormat {
  import opened Values
  import opened Text
  import opened Store

  /** A record as the pages consume it: an id and named fields. */
  datatype Record = Record(id: Val, fields: map<string, Val>)

  /** `record.fields[name]`. */
  function Field(r: Record, name: string): Val {
    if name in r.fields then r.fields[name] else Undefined
  }

  /** The field carries the optional reference `v` in the one-element-list
      shape: `[v]` when `v` is truthy, `[]` otherwise, so that `v` can be read
      back exactly when it was truthy. */
  ghost predicate KeepsReference(r: Record, name: string, v: Val) {
    && Field(r, name).Arr? && |Field(r, name).items| <= 1
    && Unlisted(Field(r, name)) == Or(v, Undefined)
  }

  /** The field is the list `v` when there is one and `[]` otherwise: never
      falsy, so the pages can iterate it. */
  ghost predicate DefaultsToEmpty(r: Record, name: string, v: Val) {
    && Truthy(Field(r, name))
    && (Truthy(v) ==> Field(r, name) == v)
    && (!Truthy(v) ==> Field(r, name) == Arr([]))
  }

  function FormatAccount(a: Row): (r: Record)
    ensures r.id == Num(a.id)
    ensures Field(r, "Account Name") == Cell(a, "account_name")
    ensures Field(r, "Account Type") == Cell(a, "account_type")
    ensures DefaultsToEmpty(r, "Projects", Cell(a, "projects"))
    ensures Field(r, "Account Description") == Cell(a, "account_description")
    ensures r.fields.Keys == {"Account Name", "Account Description", "Account Type", "Projects"}
  {
    Record(Num(a.id), map[
      "Account Name" := Cell(a, "account_name"),
      "Account Description" := Cell(a, "account_description"),
      "Account Type" := Cell(a, "account_type"),
      "Projects" := Or(Cell(a, "projects"), Arr([]))])
  }

  function FormatProject(p: Row): (r: Record)
    ensures r.id == Num(p.id)
    ensures Field(r, "Project Name") == Cell(p, "project_name")
    ensures KeepsReference(r, "Account", Cell(p, "account_id"))
    ensures KeepsReference(r, "Account Name (from Account)", Cell(p, "account_name"))
    ensures DefaultsToEmpty(r, "Updates", Cell(p, "updates"))
    ensures Field(r, "Project Status") == Cell(p, "project_status")
    ensures Field(r, "Start Date") == Cell(p, "start_date") && Field(r, "End Date") == Cell(p, "end_date")
    ensures Field(r, "Project Value") == Cell(p, "project_value")
    ensures Field(r, "Project Description") == Cell(p, "project_description")
    ensures r.fields.Keys == {"Project Name", "Project Status", "Start Date", "End Date", "Account",
                              "Account Name (from Account)", "Project Value", "Project Description", "Updates"}
  {
    ListedLosesOnlyFalsy(Cell(p, "account_id"));
    ListedLosesOnlyFalsy(Cell(p, "account_name"));
    Record(Num(p.id), map[
      "Project Name" := Cell(p, "project_name"),
      "Project Status" := Cell(p, "project_status"),
      "Start Date" := Cell(p, "start_date"),
      "End Date" := Cell(p, "end_date"),
      "Account" := Listed(Cell(p, "account_id")),
      "Account Name (from Account)" := Listed(Cell(p, "account_name")),
      "Project Value" := Cell(p, "project_value"),
      "Project Description" := Cell(p, "project_description"),
      "Updates" := Or(Cell(p, "updates"), Arr([]))])
  }

  function FormatTask(t: Row): (r: Record)
    ensures r.id == Num(t.id)
    ensures Field(r, "Task Name") == Cell(t, "task_name")
    ensures KeepsReference(r, "Project", Cell(t, "project_id"))
    ensures KeepsReference(r, "Project Name", Cell(t, "project_name"))
    ensures KeepsReference(r, "Assigned To", Cell(t, "assigned_to_id"))
    ensures KeepsReference(r, "Assigned To Name", Cell(t, "assigned_to_name"))
    ensures DefaultsToEmpty(r, "Updates", Cell(t, "updates"))
    ensures Field(r, "Description") == Cell(t, "description")
    ensures Field(r, "Status") == Cell(t, "status") && Field(r, "Due Date") == Cell(t, "due_date")
    ensures r.fields.Keys == {"Task Name", "Description", "Status", "Due Date", "Project", "Project Name",
                              "Assigned To", "Assigned To Name", "Updates"}
  {
    ListedLosesOnlyFalsy(Cell(t, "project_id"));
    ListedLosesOnlyFalsy(Cell(t, "project_name"));
    ListedLosesOnlyFalsy(Cell(t, "assigned_to_id"));
    ListedLosesOnlyFalsy(Cell(t, "assigned_to_name"));
    Record(Num(t.id), map[
      "Task Name" := Cell(t, "task_name"),
      "Description" := Cell(t, "description"),
      "Status" := Cell(t, "status"),
      "Due Date" := Cell(t, "due_date"),
      "Project" := Listed(Cell(t, "project_id")),
      "Project Name" := Listed(Cell(t, "project_name")),
      "Assigned To" := Listed(Cell(t, "assigned_to_id")),
      "Assigned To Name" := Listed(Cell(t, "assigned_to_name")),
      "Updates" := Or(Cell(t, "updates"), Arr([]))])
  }

  function FormatUpdate(u: Row): (r: Record)
    ensures r.id == Num(u.id)
    ensures Field(r, "Notes") == Cell(u, "notes") && Field(r, "Date") == Cell(u, "date")
    ensures KeepsReference(r, "Project", Cell(u, "project_id"))
    ensures KeepsReference(r, "Task", Cell(u, "task_id"))
    ensures KeepsReference(r, "Update Owner Name", Cell(u, "update_owner_name"))
    ensures Field(r, "Account Name") == Cell(u, "update_account")
    ensures Field(r, "Update Type") == Cell(u, "update_type")
    ensures Field(r, "Project Name") == Cell(u, "project_name") && Field(r, "Task Name") == Cell(u, "task_name")
    ensures r.fields.Keys == {"Notes", "Date", "Update Type", "Project", "Task", "Update Owner Name",
                              "Project Name", "Task Name", "Account Name"}
  {
    ListedLosesOnlyFalsy(Cell(u, "project_id"));
    ListedLosesOnlyFalsy(Cell(u, "task_id"));
    ListedLosesOnlyFalsy(Cell(u, "update_owner_name"));
    Record(Num(u.id), map[
      "Notes" := Cell(u, "notes"),
      "Date" := Cell(u, "date"),
      "Update Type" := Cell(u, "update_type"),
      "Project" := Listed(Cell(u, "project_id")),
      "Task" := Listed(Cell(u, "task_id")),
      "Update Owner Name" := Listed(Cell(u, "update_owner_name")),
      "Project Name" := Cell(u, "project_name"),
      "Task Name" := Cell(u, "task_name"),
      "Account Name" := Cell(u, "update_account")])
  }

  // ---------------------------------------------------------------------
  // processUpdatesByProject
  // ---------------------------------------------------------------------

  /** The property key a value becomes when it indexes a plain object
      (`String(v)`; an array element that is `null` or `undefined` becomes ""). */
  function PropertyKey(v: Val): string
    decreases v
  {
    match v
    case Undefined => "undefined"
    case Null => "null"
    case Bool(b) => if b then "true" else "false"
    case Num(n) => IntToString(n)
    case Str(s) => s
    case Arr(items) =>
      if |items| == 0 then ""
      else Join(seq(|items|, i requires 0 <= i < |items| =>
                      if items[i] == Null || items[i] == Undefined then "" else PropertyKey(items[i])), ',')
    case Rec(_) => "[object Object]"
  }

  /** The keys of the result object: one per listed project id. */
  function KeysOf(pids: seq<Val>): set<string> {
    set i | 0 <= i < |pids| :: PropertyKey(pids[i])
  }

  /** `update.fields.Project || []` can be walked with `forEach`: it is a list
      or falsy. Any other value makes the loop throw. */
  predicate HasProjectList(u: Record) {
    !Truthy(Field(u, "Project")) || Field(u, "Project").Arr?
  }

  function ProjectsOf(u: Record): seq<Val>
    requires HasProjectList(u)
  {
    if Field(u, "Project").Arr? then Field(u, "Project").items else []
  }

  /** Whether the loop files the update under `key` for the project reference
      `p`: `p` is truthy, `projectIds.find` finds it, and it names that key.
      `p in pids` is structural equality, which is `includes`'s SameValueZero
      for the strings and numbers an Airtable link field holds; two arrays or
      objects with equal contents would be equal here but not in JavaScript,
      which compares them by reference. */
  predicate FilesUnder(p: Val, pids: seq<Val>, key: string) {
    Truthy(p) && p in pids && PropertyKey(p) == key
  }

  /** How many of the references `ps` file their update under `key`. */
  function Hits(ps: seq<Val>, pids: seq<Val>, key: string): nat {
    if |ps| == 0 then 0
    else Hits(ps[..|ps| - 1], pids, key) + (if FilesUnder(ps[|ps| - 1], pids, key) then 1 else 0)
  }

  function Repeat(u: Record, n: nat): (s: seq<Record>)
    ensures |s| == n && forall i :: 0 <= i < n ==> s[i] == u
    ensures forall x :: x in s <==> n > 0 && x == u
  {
    var s := seq(n, _ => u);
    assert n > 0 ==> s[0] == u;
    s
  }

  /** One reference of an update, handled: the update is appended to the bucket
      the reference files it under, if any. */
  function File(buckets: map<string, seq<Record>>, u: Record, p: Val, pids: seq<Val>): (m: map<string, seq<Record>>)
    requires buckets.Keys == KeysOf(pids)
    ensures m.Keys == buckets.Keys
    ensures forall k :: k in m ==> m[k] == buckets[k] + (if FilesUnder(p, pids, k) then [u] else [])
  {
    if Truthy(p) && p in pids then
      var at :| 0 <= at < |pids| && pids[at] == p;
      buckets[PropertyKey(p) := buckets[PropertyKey(p)] + [u]]
    else buckets
  }

  lemma FileKeepsInvariant(updates: seq<Record>, n: nat, ps: seq<Val>, j: nat, pids: seq<Val>,
                           before: map<string, seq<Record>>, after: map<string, seq<Record>>)
    requires n < |updates| && j < |ps|
    requires forall i :: 0 <= i < |updates| ==> HasProjectList(updates[i])
    requires forall k :: k in before ==> before[k] == Bucket(updates[..n], pids, k) + Repeat(updates[n], Hits(ps[..j], pids, k))
    requires after.Keys == before.Keys
    requires forall k :: k in after ==> after[k] == before[k] + (if FilesUnder(ps[j], pids, k) then [updates[n]] else [])
    ensures forall k :: k in after ==> after[k] == Bucket(updates[..n], pids, k) + Repeat(updates[n], Hits(ps[..j + 1], pids, k))
  {
    forall k | k in after
      ensures after[k] == Bucket(updates[..n], pids, k) + Repeat(updates[n], Hits(ps[..j + 1], pids, k))
    {
      HitsStep(ps, j, pids, k);
      var h := Hits(ps[..j], pids, k);
      if FilesUnder(ps[j], pids, k) {
        assert Repeat(updates[n], h) + [updates[n]] == Repeat(updates[n], h + 1);
      }
    }
  }

  /** The reference definition of one bucket: the updates in input order, each
      once per reference that files it under `key`. */
  function Bucket(updates: seq<Record>, pids: seq<Val>, key: string): seq<Record>
    requires forall i :: 0 <= i < |updates| ==> HasProjectList(updates[i])
  {
    if |updates| == 0 then []
    else
      var last := updates[|updates| - 1];
      Bucket(updates[..|updates| - 1], pids, key) + Repeat(last, Hits(ProjectsOf(last), pids, key))
  }

  /** `projectIds.forEach(pid => { updatesByProjectId[pid] = []; })`. */
  function EmptyBuckets(pids: seq<Val>): (m: map<string, seq<Record>>)
    ensures m.Keys == KeysOf(pids)
    ensures forall k :: k in m ==> m[k] == []
  {
    map k | k in KeysOf(pids) :: []
  }

  lemma HitsStep(ps: seq<Val>, j: nat, pids: seq<Val>, key: string)
    requires j < |ps|
    ensures Hits(ps[..j + 1], pids, key) == Hits(ps[..j], pids, key) + (if FilesUnder(ps[j], pids, key) then 1 else 0)
  {
    assert ps[..j + 1][..j] == ps[..j];
  }

  lemma BucketStep(updates: seq<Record>, n: nat, pids: seq<Val>, key: string)
    requires n < |updates|
    requires forall i :: 0 <= i < |updates| ==> HasProjectList(updates[i])
    ensures Bucket(updates[..n + 1], pids, key) == Bucket(updates[..n], pids, key) + Repeat(updates[n], Hits(ProjectsOf(updates[n]), pids, key))
  {
    assert updates[..n + 1][..n] == updates[..n];
  }

  /** The body of the outer `forEach`: every reference of update `n` handled in
      turn, which extends each bucket from the first `n` updates to the first
      `n + 1`. */
  method FileUpdate(allUpdates: seq<Record>, n: nat, pids: seq<Val>, buckets: map<string, seq<Record>>)
    returns (after: map<string, seq<Record>>)
    requires n < |allUpdates|
    requires forall i :: 0 <= i < |allUpdates| ==> HasProjectList(allUpdates[i])
    requires buckets.Keys == KeysOf(pids)
    requires forall k :: k in buckets ==> buckets[k] == Bucket(allUpdates[..n], pids, k)
    ensures after.Keys == KeysOf(pids)
    ensures forall k :: k in after ==> after[k] == Bucket(allUpdates[..n + 1], pids, k)
  {
    var u := allUpdates[n];
    var ps := ProjectsOf(u);
    after := buckets;
    var j := 0;
    while j < |ps|
      invariant 0 <= j <= |ps|
      invariant after.Keys == KeysOf(pids)
      invariant forall k :: k in after ==> after[k] == Bucket(allUpdates[..n], pids, k) + Repeat(u, Hits(ps[..j], pids, k))
    {
      var filed := File(after, u, ps[j], pids);
      FileKeepsInvariant(allUpdates, n, ps, j, pids, after, filed);
      after := filed;
      j := j + 1;
    }
    assert ps[..j] == ps;
    forall k | k in after
      ensures after[k] == Bucket(allUpdates[..n + 1], pids, k)
    {
      BucketStep(allUpdates, n, pids, k);
    }
  }

  /** `processUpdatesByProject(allUpdates, projectIds)`; `None` stands for a
      missing or `null` list of project ids. */
  method ProcessUpdatesByProject(allUpdates: seq<Record>, projectIds: Option<seq<Val>>)
    returns (buckets: map<string, seq<Record>>)
    requires forall i :: 0 <= i < |allUpdates| ==> HasProjectList(allUpdates[i])
    ensures projectIds.None? ==> buckets == map[]
    ensures projectIds.Some? ==> buckets.Keys == KeysOf(projectIds.value)
    ensures projectIds.Some? ==> forall k :: k in buckets ==> buckets[k] == Bucket(allUpdates, projectIds.value, k)
  {
    if projectIds.None? || |projectIds.value| == 0 {
      buckets := map[];
    } else {
      var pids := projectIds.value;
      buckets := EmptyBuckets(pids);
      var n := 0;
      while n < |allUpdates|
        invariant 0 <= n <= |allUpdates|
        invariant buckets.Keys == KeysOf(pids)
        invariant forall k :: k in buckets ==> buckets[k] == Bucket(allUpdates[..n], pids, k)
      {
        buckets := FileUpdate(allUpdates, n, pids, buckets);
        n := n + 1;
      }
      assert allUpdates[..n] == allUpdates;
    }
  }

  /** A reference files its update under some key exactly when one of the
      references does so. */
  lemma {:induction false} HitsPositive(ps: seq<Val>, pids: seq<Val>, key: string)
    ensures Hits(ps, pids, key) > 0 <==> exists j :: 0 <= j < |ps| && FilesUnder(ps[j], pids, key)
  {
    if |ps| > 0 {
      var init := ps[..|ps| - 1];
      HitsPositive(init, pids, key);
      assert forall j :: 0 <= j < |init| ==> init[j] == ps[j];
    }
  }

  /** An update is in a bucket exactly when one of its project references files
      it there. */
  lemma {:induction false} BucketMembers(updates: seq<Record>, pids: seq<Val>, key: string, x: Record)
    requires forall i :: 0 <= i < |updates| ==> HasProjectList(updates[i])
    ensures x in Bucket(updates, pids, key) <==>
              exists i :: 0 <= i < |updates| && updates[i] == x && Hits(ProjectsOf(updates[i]), pids, key) > 0
  {
    if |updates| > 0 {
      var init := updates[..|updates| - 1];
      BucketMembers(init, pids, key, x);
      assert forall i :: 0 <= i < |init| ==> init[i] == updates[i];
    }
  }

  /** Buckets keep input order: the bucket of a concatenation is the bucket of
      the first part followed by the bucket of the second. */
  lemma {:induction false} BucketAppend(a: seq<Record>, b: seq<Record>, pids: seq<Val>, key: string)
    requires forall i :: 0 <= i < |a| ==> HasProjectList(a[i])
    requires forall i :: 0 <= i < |b| ==> HasProjectList(b[i])
    ensures forall i :: 0 <= i < |a + b| ==> HasProjectList((a + b)[i])
    ensures Bucket(a + b, pids, key) == Bucket(a, pids, key) + Bucket(b, pids, key)
  {
    assert forall i :: 0 <= i < |a + b| ==> HasProjectList((a + b)[i]) by {
      forall i | 0 <= i < |a + b| ensures HasProjectList((a + b)[i]) {
        if i >= |a| { assert (a + b)[i] == b[i - |a|]; }
      }
    }
    if |b| > 0 {
      var binit := b[..|b| - 1];
      assert (a + b)[..|a + b| - 1] == a + binit;
      BucketAppend(a, binit, pids, key);
    } else {
      assert a + b == a;
    }
  }

  // ---------------------------------------------------------------------
  // formatDateForAirtable
  // ---------------------------------------------------------------------

  /** What `formatDateForAirtable` is given: a falsy value, something `Date`
      cannot read, or a date with its calendar fields (month from 0). */
  datatype DateInput = NoDate | InvalidDate | Calendar(year: int, month0: int, day: int)

  /** The ranges a `Date` gives its month and day. */
  predicate WellFormed(d: DateInput) {
    d.Calendar? ==> 0 <= d.month0 <= 11 && 1 <= d.day <= 31
  }

  function FormatDateForAirtable(d: DateInput): (s: string)
    requires WellFormed(d)
    ensures s == "" <==> d.NoDate?
    ensures d.InvalidDate? ==> s == "NaN-NaN-NaN"
  {
    match d
    case NoDate => ""
    case InvalidDate => "NaN-NaN-NaN"
    case Calendar(y, m0, day) => IntToString(y) + "-" + PadTwo(NatToString(m0 + 1)) + "-" + PadTwo(NatToString(day))
  }

  /** Padding with a leading zero does not change a number's value. */
  lemma {:induction false} LeadingZero(s: string)
    requires AllDigits(s)
    ensures AllDigits("0" + s) && DigitsValue("0" + s) == DigitsValue(s)
  {
    if |s| > 0 {
      var init := s[..|s| - 1];
      LeadingZero(init);
      assert ("0" + s)[..|"0" + s| - 1] == "0" + init;
    }
  }

  /** `String(n).padStart(2, '0')` for 1 ≤ n ≤ 31: two digits reading back as `n`. */
  lemma PaddedNumber(n: nat)
    requires 1 <= n <= 31
    ensures |PadTwo(NatToString(n))| == 2 && AllDigits(PadTwo(NatToString(n)))
    ensures DigitsValue(PadTwo(NatToString(n))) == n
  {
    DigitsValueOfNatToString(n);
    var s := NatToString(n);
    if n < 10 {
      LeadingZero(s);
      assert PadTwo(s) == "0" + s;
    } else {
      assert n / 10 < 10;
      assert |s| == 2;
    }
  }

  /** For a year from 0 on, the text splits at `-` into three numbers that read
      back as the year, the 1-based month and the day, month and day with two
      digits each. */
  lemma DateRoundTrip(y: nat, m0: int, day: int)
    requires WellFormed(Calendar(y, m0, day))
    ensures var parts := Split(FormatDateForAirtable(Calendar(y, m0, day)), '-');
            && |parts| == 3
            && AllDigits(parts[0]) && AllDigits(parts[1]) && AllDigits(parts[2])
            && DigitsValue(parts[0]) == y && DigitsValue(parts[1]) == m0 + 1 && DigitsValue(parts[2]) == day
            && |parts[1]| == 2 && |parts[2]| == 2
  {
    var a, b, c := NatToString(y), PadTwo(NatToString(m0 + 1)), PadTwo(NatToString(day));
    PaddedNumber(m0 + 1);
    PaddedNumber(day);
    DigitsValueOfNatToString(y);
    var parts := [a, b, c];
    assert forall i :: 0 <= i < |parts| ==> '-' !in parts[i] by {
      assert forall i :: 0 <= i < |parts| ==> AllDigits(parts[i]);
    }
    assert Join(parts, '-') == a + "-" + b + "-" + c by {
      assert Join([c], '-') == c;
      assert Join([b, c], '-') == b + "-" + c by {
        assert [b, c][1..] == [c];
      }
      assert parts[1..] == [b, c];
    }
    SplitJoin(parts, '-');
  }

  /** A four-digit year gives the ten characters of `YYYY-MM-DD`. */
  lemma FourDigitYear(y: nat, m0: int, day: int)
    requires WellFormed(Calendar(y, m0, day)) && 1000 <= y <= 9999
    ensures |FormatDateForAirtable(Calendar(y, m0, day))| == 10
  {
    PaddedNumber(m0 + 1);
    PaddedNumber(day);
    var y1, y2, y3 := y / 10, y / 100, y / 1000;
    assert y1 / 10 == y2 && y2 / 10 == y3 && 1 <= y3 <= 9 && 10 <= y2 <= 99 && 100 <= y1 <= 999;
    assert |NatToString(y3)| == 1;
    assert |NatToString(y2)| == 2;
    assert |NatToString(y1)| == 3;
    assert |NatToString(y)| == 4;
  }
}

=== FILE: http.dfy ===
/** What a handler sends back, and the store it leaves behind. */
module Http {
  import opened Store

  /** A response body: data, an error message, or nothing at all. */
  datatype Payload<T> = Data(value: T) | Error(message: string) | Blank

  datatype Reply<T> = Reply(status: nat, body: Payload<T>)

  /** A handler's reply together with the store after the request. */
  datatype Handled<T> = Handled(reply: Reply<T>, db: Db)

  function Fail<T>(status: nat, message: string): Reply<T> {
    Reply(status, Error(message))
  }
}

=== FILE: login.dfy ===
/** The login handler (api/auth/login.js) and the `/verify` route
    (api/routes/auth.js). Both look a user up by secret key, the `airtable_id`
    column. The login handler reads the user's rows through foreign keys named
    `user_id`, which are not the names the rest of the backend writes. */
module Login {
  import opened Values
  import opened Store
  import opened Http

  /** The user as the login payload shows it: no numeric id. */
  datatype LoginUser = LoginUser(airtableId: Val, userName: Val, userType: Val)

  /** The login reply. Each list stands for the `rows` of a `SELECT id` query,
      objects of the form `{id}`; the model keeps the ids, in table order. */
  datatype LoginPayload = LoginPayload(
    user: LoginUser,
    accounts: seq<nat>,
    projects: seq<nat>,
    tasksAssignedTo: seq<nat>,
    tasksCreatedBy: seq<nat>,
    updates: seq<nat>)

  const UserNeeds: seq<Need> := [(Users, "airtable_id")]

  /** The five id lists, in the order the handler issues their queries (1 to 5). */
  const ForeignKeys: seq<Need> := [
    (Accounts, "user_id"), (Projects, "user_id"), (Tasks, "assigned_to_id"),
    (Tasks, "created_by_id"), (Updates, "user_id")]

  /** Whether one of the five aggregate queries throws. They run together and
      the handler waits for all of them, so one failure fails the request. */
  predicate AnyAggregateThrows(db: Db, faults: set<nat>) {
    exists k :: 0 <= k < |ForeignKeys| && Throws(db, faults, k + 1, [ForeignKeys[k]])
  }

  /** `SELECT id FROM t WHERE col = $1`: the ids of the rows referring to `uid`. */
  function Aggregate(t: Table, col: string, uid: nat): (ids: seq<nat>)
    ensures ListsExactly(ids, t, col, uid)
  {
    IdsWhere(t.rows, col, uid)
  }

  /** `ids` lists the rows of `t` whose column `col` refers to `uid`: one id per
      such row, in table order, and no other id. */
  ghost predicate ListsExactly(ids: seq<nat>, t: Table, col: string, uid: nat) {
    && ids == Ids(RowsWhere(t.rows, col, uid))
    && |ids| == |RowsWhere(t.rows, col, uid)|
    && forall x :: x in ids <==> exists i :: 0 <= i < |t.rows| && t.rows[i].id == x && RefersTo(t.rows[i], col, uid)
  }

  /** The request body's `secretKey`. */
  function SecretKey(body: Obj): Val {
    Get(body, "secretKey")
  }

  /** The login handler. */
  function Login(db: Db, faults: set<nat>, verb: string, body: Obj): (r: Reply<LoginPayload>)
    ensures r.status in {200, 400, 404, 405, 500}
    ensures r.status == 405 <==> verb != "POST"
    ensures r.status == 400 <==> verb == "POST" && !Truthy(SecretKey(body))
    ensures r.status == 404 <==> (verb == "POST" && Truthy(SecretKey(body)) && !Throws(db, faults, 0, UserNeeds)
                                  && FirstMatch(db.users.rows, "airtable_id", SecretKey(body)).None?)
    ensures r.status == 500 <==> (verb == "POST" && Truthy(SecretKey(body))
                                  && (Throws(db, faults, 0, UserNeeds)
                                      || (FirstMatch(db.users.rows, "airtable_id", SecretKey(body)).Some?
                                          && AnyAggregateThrows(db, faults))))
    ensures r.status == 200 ==>
              && r.body.Data?
              && var user := FirstMatch(db.users.rows, "airtable_id", SecretKey(body));
              && user.Some?
              && r.body.value.user == LoginUser(Cell(user.value, "airtable_id"), Cell(user.value, "user_name"), Cell(user.value, "user_type"))
              && ListsExactly(r.body.value.accounts, db.accounts, "user_id", user.value.id)
              && ListsExactly(r.body.value.projects, db.projects, "user_id", user.value.id)
              && ListsExactly(r.body.value.tasksAssignedTo, db.tasks, "assigned_to_id", user.value.id)
              && ListsExactly(r.body.value.tasksCreatedBy, db.tasks, "created_by_id", user.value.id)
              && ListsExactly(r.body.value.updates, db.updates, "user_id", user.value.id)
  {
    if verb != "POST" then Fail(405, "Method Not Allowed")
    else if !Truthy(SecretKey(body)) then Fail(400, "Secret key is required.")
    else if Throws(db, faults, 0, UserNeeds) then Fail(500, "Internal Server Error")
    else match FirstMatch(db.users.rows, "airtable_id", SecretKey(body))
      case None => Fail(404, "User not found.")
      case Some(u) =>
        if AnyAggregateThrows(db, faults) then Fail(500, "Internal Server Error")
        else
          Reply(200, Data(PayloadOf(db, u)))
  }

  /** The payload for user `u`: its key, name and role, and the five id lists. */
  function PayloadOf(db: Db, u: Row): (p: LoginPayload)
    ensures p.user == LoginUser(Cell(u, "airtable_id"), Cell(u, "user_name"), Cell(u, "user_type"))
    ensures ListsExactly(p.accounts, db.accounts, "user_id", u.id)
    ensures ListsExactly(p.projects, db.projects, "user_id", u.id)
    ensures ListsExactly(p.tasksAssignedTo, db.tasks, "assigned_to_id", u.id)
    ensures ListsExactly(p.tasksCreatedBy, db.tasks, "created_by_id", u.id)
    ensures ListsExactly(p.updates, db.updates, "user_id", u.id)
  {
    LoginPayload(
      LoginUser(Cell(u, "airtable_id"), Cell(u, "user_name"), Cell(u, "user_type")),
      Aggregate(db.accounts, "user_id", u.id), Aggregate(db.projects, "user_id", u.id),
      Aggregate(db.tasks, "assigned_to_id", u.id), Aggregate(db.tasks, "created_by_id", u.id),
      Aggregate(db.updates, "user_id", u.id))
  }

  /** Against a store laid out as the rest of the backend writes it (accounts
      owned through `account_owner_id`, no `user_id` column), every login of a
      known user fails. */
  lemma LoginFailsWithoutUserId(db: Db, faults: set<nat>, body: Obj)
    requires "user_id" !in db.accounts.columns
    requires Truthy(SecretKey(body)) && !Throws(db, faults, 0, UserNeeds)
    requires FirstMatch(db.users.rows, "airtable_id", SecretKey(body)).Some?
    ensures Login(db, faults, "POST", body).status == 500
  {
    assert Throws(db, faults, 1, [ForeignKeys[0]]);
  }

  // ---------------------------------------------------------------------
  // POST /api/auth/verify
  // ---------------------------------------------------------------------

  const VerifyNeeds: seq<Need> := [(Users, "airtable_id"), (Users, "user_type")]

  /** POST /verify: the `user_type` of the first user with the key. */
  function Verify(db: Db, faults: set<nat>, body: Obj): (r: Reply<Val>)
    ensures r.status in {200, 400, 404, 500}
    ensures r.status == 400 <==> !Truthy(SecretKey(body))
    ensures r.status == 500 <==> Truthy(SecretKey(body)) && Throws(db, faults, 0, VerifyNeeds)
    ensures r.status == 404 <==> (Truthy(SecretKey(body)) && !Throws(db, faults, 0, VerifyNeeds)
                                  && forall i :: 0 <= i < |db.users.rows| ==> !TextMatches(db.users.rows[i], "airtable_id", SecretKey(body)))
    ensures r.status == 200 ==> && r.body.Data? && r.body.value.Rec?
                                && exists i :: && 0 <= i < |db.users.rows| && TextMatches(db.users.rows[i], "airtable_id", SecretKey(body))
                                               && (forall j :: 0 <= j < i ==> !TextMatches(db.users.rows[j], "airtable_id", SecretKey(body)))
                                               && r.body.value == Rec(map["user_type" := Cell(db.users.rows[i], "user_type")])
  {
    if !Truthy(SecretKey(body)) then Fail(400, "Secret key is required for verification.")
    else if Throws(db, faults, 0, VerifyNeeds) then Fail(500, "Server error during user verification.")
    else match FirstMatch(db.users.rows, "airtable_id", SecretKey(body))
      case None => Fail(404, "User not found in database.")
      case Some(u) => Reply(200, Data(Rec(map["user_type" := Cell(u, "user_type")])))
  }

  /** Login and verification agree on who exists: when neither user lookup
      throws, login answers 404 exactly when verification does, and a user that
      logs in verifies with the role the login payload shows. */
  lemma LoginAgreesWithVerify(db: Db, faults: set<nat>, body: Obj)
    requires Truthy(SecretKey(body)) && !Throws(db, faults, 0, VerifyNeeds)
    ensures Login(db, faults, "POST", body).status == 404 <==> Verify(db, faults, body).status == 404
    ensures Login(db, faults, "POST", body).status == 200 ==>
              && Verify(db, faults, body).status == 200
              && Verify(db, faults, body).body.value == Rec(map["user_type" := Login(db, faults, "POST", body).body.value.user.userType])
  {
    assert HasColumns(db, UserNeeds) by {
      assert VerifyNeeds[0] == UserNeeds[0];
    }
  }
}

=== FILE: numbers.dfy ===
/** The two integer readers an id passes through: JavaScript's `Number()` on a
    piece of text, and PostgreSQL's input function for the 32-bit `integer`
    type, which every integer parameter and `$1::integer[]` element meets. */
module Numbers {
  import opened Values
  import opened Text

  const Int4Min: int := -0x8000_0000
  const Int4Max: int := 0x7FFF_FFFF

  /** The range of PostgreSQL's `integer`. */
  predicate InInt4(n: int) {
    Int4Min <= n <= Int4Max
  }

  // ---------------------------------------------------------------------
  // Trimming
  // ---------------------------------------------------------------------

  function TrimStart(s: string, blank: char -> bool): (r: string)
    ensures |r| <= |s|
    ensures |r| > 0 ==> !blank(r[0])
  {
    if |s| > 0 && blank(s[0]) then TrimStart(s[1..], blank) else s
  }

  function TrimEnd(s: string, blank: char -> bool): (r: string)
    ensures |r| <= |s|
    ensures |r| > 0 ==> !blank(r[|r| - 1])
  {
    if |s| > 0 && blank(s[|s| - 1]) then TrimEnd(s[..|s| - 1], blank) else s
  }

  /** `s` without the blanks at either end. */
  function Trim(s: string, blank: char -> bool): string {
    TrimEnd(TrimStart(s, blank), blank)
  }

  predicate AllBlank(s: string, blank: char -> bool) {
    forall i :: 0 <= i < |s| ==> blank(s[i])
  }

  /** Leading blanks in front of a text that starts with a non-blank are dropped. */
  lemma {:induction false} TrimStartBlanks(b: string, t: string, blank: char -> bool)
    requires AllBlank(b, blank) && |t| > 0 && !blank(t[0])
    ensures TrimStart(b + t, blank) == t
  {
    if |b| > 0 {
      assert (b + t)[1..] == b[1..] + t;
      TrimStartBlanks(b[1..], t, blank);
    } else {
      assert b + t == t;
    }
  }

  /** Trailing blanks behind a text that ends with a non-blank are dropped. */
  lemma {:induction false} TrimEndBlanks(t: string, b: string, blank: char -> bool)
    requires AllBlank(b, blank) && |t| > 0 && !blank(t[|t| - 1])
    ensures TrimEnd(t + b, blank) == t
  {
    if |b| > 0 {
      assert (t + b)[..|t + b| - 1] == t + b[..|b| - 1];
      TrimEndBlanks(t, b[..|b| - 1], blank);
    } else {
      assert t + b == t;
    }
  }

  /** Trimming drops exactly the blanks around a text that has none at its ends. */
  lemma TrimAround(b1: string, t: string, b2: string, blank: char -> bool)
    requires AllBlank(b1, blank) && AllBlank(b2, blank)
    requires |t| > 0 && !blank(t[0]) && !blank(t[|t| - 1])
    ensures Trim(b1 + t + b2, blank) == t
  {
    assert b1 + t + b2 == b1 + (t + b2);
    TrimStartBlanks(b1, t + b2, blank);
    TrimEndBlanks(t, b2, blank);
  }

  // ---------------------------------------------------------------------
  // PostgreSQL's integer input
  // ---------------------------------------------------------------------

  /** The blanks PostgreSQL skips around an integer: C `isspace`, that is space,
      tab, line feed, vertical tab, form feed and carriage return. */
  predicate IsPgSpace(c: char) {
    c == ' ' || '\t' <= c <= '\r'
  }

  /** An optional leading sign: whether it is `-`, and the text after it. */
  function SignOf(t: string): (r: (bool, string))
    ensures |r.1| <= |t|
  {
    if |t| > 0 && (t[0] == '-' || t[0] == '+') then (t[0] == '-', t[1..]) else (false, t)
  }

  /** The integer input of PostgreSQL: blanks around, an optional sign and at
      least one decimal digit. `None` is the error the input function raises,
      also for a value outside the 32-bit range. */
  function PgInt4(s: string): (r: Option<int>)
    ensures r.Some? ==> InInt4(r.value)
  {
    var (neg, digits) := SignOf(Trim(s, IsPgSpace));
    if |digits| == 0 || !AllDigits(digits) then None
    else
      var v: int := DigitsValue(digits);
      var n := if neg then -v else v;
      if InInt4(n) then Some(n) else None
  }

  /** The decimal text of an integer, with any blanks around it, reads back as
      that integer when it fits in 32 bits and is refused otherwise. */
  lemma PgInt4Reads(n: int, b1: string, b2: string)
    requires AllBlank(b1, IsPgSpace) && AllBlank(b2, IsPgSpace)
    ensures PgInt4(b1 + IntToString(n) + b2) == if InInt4(n) then Some(n) else None
  {
    var t := IntToString(n);
    var m: nat := if n < 0 then -n else n;
    DigitsValueOfNatToString(m);
    var d := NatToString(m);
    assert !IsPgSpace(t[0]) && !IsPgSpace(t[|t| - 1]) by {
      if n < 0 {
        assert t == "-" + d && t[|t| - 1] == d[|d| - 1];
      }
      assert IsDigit(d[0]) && IsDigit(d[|d| - 1]);
    }
    TrimAround(b1, t, b2, IsPgSpace);
    if n < 0 {
      assert t[1..] == d;
    }
  }

  // ---------------------------------------------------------------------
  // JavaScript's Number() on text
  // ---------------------------------------------------------------------

  /** What `Number(text)` gives, as far as the integer cast after it can tell:
      an integer, a number with a fractional part, an infinity, or NaN. */
  datatype NumberValue = Integral(n: int) | Fractional | Infinite | NaN

  function Pow10(e: nat): (p: nat)
    ensures p >= 1
  {
    if e == 0 then 1 else 10 * Pow10(e - 1)
  }

  /** The value `m × 10^e`. */
  function Scaled(m: nat, e: int): NumberValue {
    if e >= 0 then Integral(m * Pow10(e))
    else if m % Pow10(-e) == 0 then Integral(m / Pow10(-e))
    else Fractional
  }

  function Negated(v: NumberValue): NumberValue {
    if v.Integral? then Integral(-v.n) else v
  }

  /** The index of the first character satisfying `p`, `|s|` when there is none. */
  function IndexWhere(s: string, p: char -> bool): (i: nat)
    ensures i <= |s|
    ensures forall j :: 0 <= j < i ==> !p(s[j])
    ensures i < |s| ==> p(s[i])
  {
    if |s| == 0 then 0
    else if p(s[0]) then 0
    else
      var i := IndexWhere(s[1..], p);
      assert forall j :: 1 <= j < i + 1 ==> s[j] == s[1..][j - 1];
      i + 1
  }

  /** The first index whose character satisfies `p` is `k`. */
  lemma IndexWhereAt(s: string, p: char -> bool, k: nat)
    requires k < |s| && p(s[k]) && forall j :: 0 <= j < k ==> !p(s[j])
    ensures IndexWhere(s, p) == k
  {
  }

  /** No character satisfies `p`. */
  lemma IndexWhereNone(s: string, p: char -> bool)
    requires forall j :: 0 <= j < |s| ==> !p(s[j])
    ensures IndexWhere(s, p) == |s|
  {
  }

  predicate IsExponentMark(c: char) {
    c == 'e' || c == 'E'
  }

  predicate IsPoint(c: char) {
    c == '.'
  }

  /** The exponent after `e`: an optional sign and at least one digit. */
  function ExponentOf(s: string): Option<int> {
    var (neg, digits) := SignOf(s);
    if |digits| == 0 || !AllDigits(digits) then None
    else
      var v: int := DigitsValue(digits);
      Some(if neg then -v else v)
  }

  lemma DigitsConcat(a: string, b: string)
    requires AllDigits(a) && AllDigits(b)
    ensures AllDigits(a + b)
  {
    assert forall i :: |a| <= i < |a + b| ==> (a + b)[i] == b[i - |a|];
  }

  /** Digits with an optional point and fraction, at least one digit in all,
      scaled by `10^exp`. */
  function Mantissa(m: string, exp: int): NumberValue {
    var d := IndexWhere(m, IsPoint);
    var whole := m[..d];
    var frac := if d < |m| then m[d + 1..] else "";
    if !AllDigits(whole) || !AllDigits(frac) || |whole| + |frac| == 0 then NaN
    else
      DigitsConcat(whole, frac);
      Scaled(DigitsValue(whole + frac), exp - |frac|)
  }

  /** An unsigned decimal literal: `Infinity`, or a mantissa with an optional
      exponent. */
  function UnsignedDecimal(t: string): NumberValue {
    if t == "Infinity" then Infinite
    else
      var k := IndexWhere(t, IsExponentMark);
      if k == |t| then Mantissa(t, 0)
      else match ExponentOf(t[k + 1..])
        case None => NaN
        case Some(e) => Mantissa(t[..k], e)
  }

  /** The value of a digit in bases up to 16; 16 for any other character. */
  function RadixDigit(c: char): (d: nat)
    ensures d <= 16
  {
    if '0' <= c <= '9' then c as int - '0' as int
    else if 'a' <= c <= 'f' then c as int - 'a' as int + 10
    else if 'A' <= c <= 'F' then c as int - 'A' as int + 10
    else 16
  }

  /** The value of digits in base `radix`, `None` when one is not a digit of it. */
  function RadixValue(s: string, radix: nat): Option<nat> {
    if |s| == 0 then Some(0)
    else match RadixValue(s[..|s| - 1], radix)
      case None => None
      case Some(v) =>
        var d := RadixDigit(s[|s| - 1]);
        if d < radix then Some(v * radix + d) else None
  }

  /** `0x…`, `0o…` and `0b…` literals, which take no sign. */
  function NonDecimal(mark: char, digits: string): NumberValue {
    var radix := if mark == 'x' || mark == 'X' then 16 else if mark == 'o' || mark == 'O' then 8 else 2;
    if |digits| == 0 then NaN
    else match RadixValue(digits, radix)
      case Some(n) => Integral(n)
      case None => NaN
  }

  predicate IsRadixMark(c: char) {
    c in "xXoObB"
  }

  /** `Number(s)` on a string: blanks trimmed, `""` is 0, then a radix literal
      or a signed decimal literal; anything else is NaN. */
  function JsNumber(s: string): NumberValue {
    var t := Trim(s, IsJsSpace);
    if t == "" then Integral(0)
    else if |t| >= 2 && t[0] == '0' && IsRadixMark(t[1]) then NonDecimal(t[1], t[2..])
    else if t[0] == '+' then UnsignedDecimal(t[1..])
    else if t[0] == '-' then Negated(UnsignedDecimal(t[1..]))
    else UnsignedDecimal(t)
  }

  lemma MantissaDigits(t: string)
    requires |t| > 0 && AllDigits(t)
    ensures Mantissa(t, 0) == Integral(DigitsValue(t))
  {
    assert forall j :: 0 <= j < |t| ==> !IsPoint(t[j]);
    assert t[..IndexWhere(t, IsPoint)] == t;
    assert t + "" == t;
  }

  /** A plain digit string is read as its decimal value. */
  lemma UnsignedDigits(t: string)
    requires |t| > 0 && AllDigits(t)
    ensures UnsignedDecimal(t) == Integral(DigitsValue(t))
  {
    assert t != "Infinity" by { assert IsDigit(t[0]); }
    assert forall j :: 0 <= j < |t| ==> !IsExponentMark(t[j]);
    assert IndexWhere(t, IsExponentMark) == |t|;
    MantissaDigits(t);
  }

  /** A text without blanks at its ends is not changed by trimming. */
  lemma TrimKeeps(t: string, blank: char -> bool)
    requires |t| > 0 && !blank(t[0]) && !blank(t[|t| - 1])
    ensures Trim(t, blank) == t
  {
  }

  /** A digit string that does not start with a radix prefix or a sign is read
      as a decimal literal. */
  lemma JsNumberOfDigits(s: string)
    requires |s| > 0 && AllDigits(s)
    ensures JsNumber(s) == Integral(DigitsValue(s))
  {
    assert IsDigit(s[0]) && IsDigit(s[|s| - 1]);
    TrimKeeps(s, IsJsSpace);
    if |s| >= 2 {
      assert IsDigit(s[1]);
      assert !IsRadixMark(s[1]);
    }
    UnsignedDigits(s);
  }

  /** The decimal text of a natural number reads back as that number. */
  lemma JsNumberOfDecimal(n: nat)
    ensures JsNumber(NatToString(n)) == Integral(n)
  {
    JsNumberOfDigits(NatToString(n));
    DigitsValueOfNatToString(n);
  }

  /** The decimal text of any integer, sign included, reads back as it. */
  lemma JsNumberOfInt(n: int)
    ensures JsNumber(IntToString(n)) == Integral(n)
  {
    if n >= 0 {
      JsNumberOfDecimal(n);
    } else {
      assert IntToString(n) == "-" + NatToString(-n);
      JsNumberOfMinus(NatToString(-n));
      DigitsValueOfNatToString(-n);
    }
  }

  /** A minus sign before digits negates their value. */
  lemma JsNumberOfMinus(d: string)
    requires |d| > 0 && AllDigits(d)
    ensures JsNumber("-" + d) == Integral(-(DigitsValue(d) as int))
  {
    var t := "-" + d;
    assert t[|t| - 1] == d[|d| - 1];
    TrimKeeps(t, IsJsSpace);
    assert t[1..] == d;
    UnsignedDigits(d);
  }

  /** `Number()` skips blanks and reads a sign: `" -1"` is -1. */
  lemma NumberSignAndBlank()
    ensures JsNumber(" -1") == Integral(-1)
  {
    TrimAround(" ", "-1", "", IsJsSpace);
    assert " " + "-1" + "" == " -1";
    assert "-1"[1..] == "1";
    UnsignedDigits("1");
  }

  /** `Number()` reads an exponent: `"1e3"` is 1000. */
  lemma NumberExponent()
    ensures JsNumber("1e3") == Integral(1000)
  {
    TrimKeeps("1e3", IsJsSpace);
    assert IndexWhere("1e3", IsExponentMark) == 1;
    assert "1e3"[..1] == "1" && "1e3"[2..] == "3";
    assert ExponentOf("3") == Some(3) by {
      assert DigitsValue("3") == 3;
    }
    MantissaDigits("1");
    assert Mantissa("1", 3) == Integral(1000);
  }

  /** `Number()` reads a radix prefix: `"0x10"` is 16. */
  lemma NumberHex()
    ensures JsNumber("0x10") == Integral(16)
  {
    TrimKeeps("0x10", IsJsSpace);
    assert "0x10"[2..] == "10";
    assert "10"[..1] == "1";
    assert "1"[..0] == "";
  }

  /** `Number()` keeps a fraction, which no integer cast accepts: `"1.5"`. */
  lemma NumberFraction()
    ensures JsNumber("1.5") == Fractional
  {
    TrimKeeps("1.5", IsJsSpace);
    assert forall j :: 0 <= j < 3 ==> !IsExponentMark("1.5"[j]);
    assert IndexWhere("1.5", IsExponentMark) == 3;
    assert IndexWhere("1.5", IsPoint) == 1;
    assert "1.5"[..1] == "1" && "1.5"[2..] == "5" && "1" + "5" == "15";
    assert DigitsValue("15") == 15 by { assert "15"[..1] == "1"; }
  }

  /** The id a piece of the `ids` text becomes in `$1::integer[]`: node-postgres
      writes the number `Number(piece)` as its decimal text, which the integer
      input accepts only for an integer inside the 32-bit range. */
  function IdOfPiece(piece: string): (r: Option<int>)
    ensures JsNumber(piece).Integral? ==> r == PgInt4(IntToString(JsNumber(piece).n))
    ensures !JsNumber(piece).Integral? ==> r.None?
  {
    match JsNumber(piece)
    case Integral(n) =>
      PgInt4Reads(n, "", "");
      assert "" + IntToString(n) + "" == IntToString(n);
      if InInt4(n) then Some(n) else None
    case _ => None
  }
}

=== FILE: order.dfy ===
/** `ORDER BY` over rows: a list of (column, direction) terms compared in turn,
    NULL sorting above every value as it does by default in PostgreSQL, text
    compared character by character. The sort is an insertion sort that keeps
    rows with equal keys in scan order. */
module Order {
  import opened Values
  import opened Store

  /** The part of a cell the comparison looks at. */
  datatype SortKey = KNum(n: int) | KStr(s: string) | KNull

  function KeyOf(v: Val): SortKey {
    match v
    case Num(n) => KNum(n)
    case Str(s) => KStr(s)
    case Bool(b) => KNum(if b then 1 else 0)
    case _ => KNull
  }

  /** Character-by-character comparison: -1, 0 or 1. */
  function StrCmp(a: string, b: string): int {
    if |a| == 0 && |b| == 0 then 0
    else if |a| == 0 then -1
    else if |b| == 0 then 1
    else if a[0] < b[0] then -1
    else if a[0] > b[0] then 1
    else StrCmp(a[1..], b[1..])
  }

  /** Ascending comparison of keys: numbers, then text, then NULL. */
  function KeyCmp(a: SortKey, b: SortKey): int {
    match (a, b)
    case (KNum(x), KNum(y)) => if x < y then -1 else if x > y then 1 else 0
    case (KStr(x), KStr(y)) => StrCmp(x, y)
    case (KNull, KNull) => 0
    case (KNum(_), _) => -1
    case (_, KNum(_)) => 1
    case (KStr(_), KNull) => -1
    case (KNull, KStr(_)) => 1
  }

  lemma {:induction false} StrCmpAntisymmetric(a: string, b: string)
    ensures StrCmp(a, b) == -StrCmp(b, a)
    ensures StrCmp(a, b) == 0 <==> a == b
  {
    if |a| > 0 && |b| > 0 && a[0] == b[0] {
      StrCmpAntisymmetric(a[1..], b[1..]);
      assert a == [a[0]] + a[1..] && b == [b[0]] + b[1..];
    }
  }

  lemma {:induction false} StrCmpTransitive(a: string, b: string, c: string)
    requires StrCmp(a, b) <= 0 && StrCmp(b, c) <= 0
    ensures StrCmp(a, c) <= 0
  {
    if |a| > 0 && |b| > 0 && |c| > 0 && a[0] == b[0] && b[0] == c[0] {
      StrCmpTransitive(a[1..], b[1..], c[1..]);
    }
  }

  lemma KeyCmpAntisymmetric(a: SortKey, b: SortKey)
    ensures KeyCmp(a, b) == -KeyCmp(b, a)
    ensures KeyCmp(a, b) == 0 <==> a == b
  {
    if a.KStr? && b.KStr? {
      StrCmpAntisymmetric(a.s, b.s);
    }
  }

  lemma KeyCmpTransitive(a: SortKey, b: SortKey, c: SortKey)
    requires KeyCmp(a, b) <= 0 && KeyCmp(b, c) <= 0
    ensures KeyCmp(a, c) <= 0
  {
    if a.KStr? && b.KStr? && c.KStr? {
      StrCmpTransitive(a.s, b.s, c.s);
    }
  }

  /** One `ORDER BY` term. */
  datatype Term = Asc(col: string) | Desc(col: string)

  function TermCmp(a: Row, b: Row, t: Term): int {
    match t
    case Asc(c) => KeyCmp(KeyOf(Cell(a, c)), KeyOf(Cell(b, c)))
    case Desc(c) => KeyCmp(KeyOf(Cell(b, c)), KeyOf(Cell(a, c)))
  }

  /** The comparison `ORDER BY terms` makes: the first term that tells the rows
      apart decides; rows no term tells apart compare 0. */
  function RowCmp(a: Row, b: Row, terms: seq<Term>): int {
    if |terms| == 0 then 0
    else
      var c := TermCmp(a, b, terms[0]);
      if c != 0 then c else RowCmp(a, b, terms[1..])
  }

  lemma TermCmpAntisymmetric(a: Row, b: Row, t: Term)
    ensures TermCmp(a, b, t) == -TermCmp(b, a, t)
  {
    KeyCmpAntisymmetric(KeyOf(Cell(a, t.col)), KeyOf(Cell(b, t.col)));
  }

  lemma {:induction false} RowCmpAntisymmetric(a: Row, b: Row, terms: seq<Term>)
    ensures RowCmp(a, b, terms) == -RowCmp(b, a, terms)
  {
    if |terms| > 0 {
      TermCmpAntisymmetric(a, b, terms[0]);
      RowCmpAntisymmetric(a, b, terms[1..]);
    }
  }

  lemma {:induction false} RowCmpTransitive(a: Row, b: Row, c: Row, terms: seq<Term>)
    requires RowCmp(a, b, terms) <= 0 && RowCmp(b, c, terms) <= 0
    ensures RowCmp(a, c, terms) <= 0
  {
    if |terms| > 0 {
      var t := terms[0];
      var ka, kb, kc := KeyOf(Cell(a, t.col)), KeyOf(Cell(b, t.col)), KeyOf(Cell(c, t.col));
      KeyCmpAntisymmetric(ka, kb);
      KeyCmpAntisymmetric(kb, kc);
      KeyCmpAntisymmetric(ka, kc);
      if t.Asc? {
        if KeyCmp(ka, kb) <= 0 && KeyCmp(kb, kc) <= 0 {
          KeyCmpTransitive(ka, kb, kc);
        }
      } else {
        if KeyCmp(kb, ka) <= 0 && KeyCmp(kc, kb) <= 0 {
          KeyCmpTransitive(kc, kb, ka);
        }
      }
      if TermCmp(a, b, t) == 0 && TermCmp(b, c, t) == 0 {
        RowCmpTransitive(a, b, c, terms[1..]);
      }
    }
  }

  /** The comparison depends only on the cells the terms name. */
  lemma {:induction false} RowCmpOnlyReadsTerms(a: Row, a2: Row, b: Row, b2: Row, terms: seq<Term>)
    requires forall i :: 0 <= i < |terms| ==> Cell(a, terms[i].col) == Cell(a2, terms[i].col) && Cell(b, terms[i].col) == Cell(b2, terms[i].col)
    ensures RowCmp(a, b, terms) == RowCmp(a2, b2, terms)
  {
    if |terms| > 0 {
      RowCmpOnlyReadsTerms(a, a2, b, b2, terms[1..]);
    }
  }

  /** Every row comes no later than the rows after it. */
  ghost predicate Sorted(s: seq<Row>, terms: seq<Term>) {
    forall i, j :: 0 <= i < j < |s| ==> RowCmp(s[i], s[j], terms) <= 0
  }

  /** Places `x` before the first row it does not compare above. */
  function InsertSorted(x: Row, s: seq<Row>, terms: seq<Term>): (r: seq<Row>)
    ensures multiset(r) == multiset(s) + multiset{x}
  {
    if |s| == 0 then [x]
    else if RowCmp(x, s[0], terms) <= 0 then [x] + s
    else
      var rest := InsertSorted(x, s[1..], terms);
      assert s == [s[0]] + s[1..];
      [s[0]] + rest
  }

  /** The rows as `ORDER BY terms` returns them: the same rows, ordered. */
  function SortBy(s: seq<Row>, terms: seq<Term>): (r: seq<Row>)
    ensures multiset(r) == multiset(s)
  {
    if |s| == 0 then []
    else
      var rest := SortBy(s[1..], terms);
      assert s == [s[0]] + s[1..];
      InsertSorted(s[0], rest, terms)
  }

  /** A row that compares no later than every row of a sorted list may go first. */
  lemma PrependKeepsOrder(x: Row, s: seq<Row>, terms: seq<Term>)
    requires Sorted(s, terms)
    requires forall k :: 0 <= k < |s| ==> RowCmp(x, s[k], terms) <= 0
    ensures Sorted([x] + s, terms)
  {
    var r := [x] + s;
    forall i, j | 0 <= i < j < |r| ensures RowCmp(r[i], r[j], terms) <= 0 {
      if i > 0 {
        assert r[i] == s[i - 1] && r[j] == s[j - 1];
      } else {
        assert r[j] == s[j - 1];
      }
    }
  }

  lemma FirstBeforeAll(x: Row, s: seq<Row>, terms: seq<Term>)
    requires |s| > 0 && Sorted(s, terms) && RowCmp(x, s[0], terms) <= 0
    ensures forall k :: 0 <= k < |s| ==> RowCmp(x, s[k], terms) <= 0
  {
    forall k | 0 < k < |s| ensures RowCmp(x, s[k], terms) <= 0 {
      RowCmpTransitive(x, s[0], s[k], terms);
    }
  }

  lemma HeadBeforeInserted(x: Row, s: seq<Row>, rest: seq<Row>, terms: seq<Term>)
    requires |s| > 0 && Sorted(s, terms) && RowCmp(x, s[0], terms) > 0
    requires multiset(rest) == multiset(s[1..]) + multiset{x}
    ensures forall k :: 0 <= k < |rest| ==> RowCmp(s[0], rest[k], terms) <= 0
  {
    RowCmpAntisymmetric(x, s[0], terms);
    forall k | 0 <= k < |rest| ensures RowCmp(s[0], rest[k], terms) <= 0 {
      assert rest[k] in multiset(rest);
      if rest[k] != x {
        assert rest[k] in multiset(s[1..]);
        var j :| 0 <= j < |s[1..]| && s[1..][j] == rest[k];
        assert s[j + 1] == rest[k];
      }
    }
  }

  lemma {:induction false} InsertSortedKeepsOrder(x: Row, s: seq<Row>, terms: seq<Term>)
    requires Sorted(s, terms)
    ensures Sorted(InsertSorted(x, s, terms), terms)
  {
    if |s| == 0 {
    } else if RowCmp(x, s[0], terms) <= 0 {
      FirstBeforeAll(x, s, terms);
      PrependKeepsOrder(x, s, terms);
    } else {
      assert Sorted(s[1..], terms);
      InsertSortedKeepsOrder(x, s[1..], terms);
      var rest := InsertSorted(x, s[1..], terms);
      HeadBeforeInserted(x, s, rest, terms);
      PrependKeepsOrder(s[0], rest, terms);
    }
  }

  /** The sort's output is ordered by `terms`. */
  lemma {:induction false} SortBySorted(s: seq<Row>, terms: seq<Term>)
    ensures Sorted(SortBy(s, terms), terms)
  {
    if |s| > 0 {
      SortBySorted(s[1..], terms);
      InsertSortedKeepsOrder(s[0], SortBy(s[1..], terms), terms);
    }
  }
}

=== FILE: statement.dfy ===
/** The SQL text of the two PATCH statements of api/index.js. Both splice a
    column name made from a body key into the statement: PATCH /api/projects/:id
    puts each name between double quotes, PATCH /api/tasks/:id writes it bare.
    The handlers' contracts rely on the statement assigning exactly the named
    columns, which holds for the names characterised here; the two injection
    lemmas show keys for which it does not. */
module Statement {
  import opened Text
  import opened Numbers

  /** One `column = $k` item of a SET list. */
  datatype Assignment = Assignment(column: string, placeholder: nat)

  function Columns(plan: seq<Assignment>): (cs: seq<string>)
    ensures |cs| == |plan|
    ensures forall i :: 0 <= i < |plan| ==> cs[i] == plan[i].column
  {
    seq(|plan|, i requires 0 <= i < |plan| => plan[i].column)
  }

  // ---------------------------------------------------------------------
  // Quoted column names
  // ---------------------------------------------------------------------

  predicate IsQuote(c: char) {
    c == '"'
  }

  predicate QuoteFree(s: string) {
    forall i :: 0 <= i < |s| ==> !IsQuote(s[i])
  }

  /** A name that stays one quoted identifier naming itself: 1 to 63 printable
      ASCII characters (PostgreSQL truncates longer identifiers to 63 bytes),
      none of them a double quote. */
  predicate QuoteSafe(c: string) {
    && 1 <= |c| <= 63
    && forall i :: 0 <= i < |c| ==> ' ' <= c[i] <= '~' && !IsQuote(c[i])
  }

  /** `"column" = $k`. */
  function ClauseText(a: Assignment): string {
    "\"" + a.column + "\" = $" + NatToString(a.placeholder)
  }

  /** The items joined with `, `. */
  function SetListText(plan: seq<Assignment>): string {
    if |plan| == 0 then ""
    else if |plan| == 1 then ClauseText(plan[0])
    else ClauseText(plan[0]) + ", " + SetListText(plan[1..])
  }

  /** `UPDATE projects SET … WHERE id = $k RETURNING *`. */
  function ProjectStatement(plan: seq<Assignment>, idPlaceholder: nat): string {
    "UPDATE projects SET " + SetListText(plan) + " WHERE id = $" + NatToString(idPlaceholder) + " RETURNING *"
  }

  /** The body of a quoted identifier whose opening quote has been read: the
      name up to the closing quote, where a doubled quote `""` stands for one
      `"` inside the name, and the text after the closing quote (an
      unterminated identifier runs to the end). */
  function ReadQuoted(s: string): (r: (string, string))
    ensures |r.1| <= |s|
    decreases |s|
  {
    if |s| == 0 then ("", "")
    else if IsQuote(s[0]) then
      if |s| > 1 && IsQuote(s[1]) then
        var (name, rest) := ReadQuoted(s[2..]);
        ("\"" + name, rest)
      else ("", s[1..])
    else
      var (name, rest) := ReadQuoted(s[1..]);
      ([s[0]] + name, rest)
  }

  /** The names a statement writes as quoted identifiers, in order. */
  function QuotedNames(t: string): seq<string>
    decreases |t|
  {
    if |t| == 0 then []
    else if !IsQuote(t[0]) then QuotedNames(t[1..])
    else
      var (name, rest) := ReadQuoted(t[1..]);
      [name] + QuotedNames(rest)
  }

  /** A quote-free name followed by a quote that is not doubled is read as
      itself, and reading resumes after that quote. */
  lemma {:induction false} ReadQuotedPlain(c: string, t: string)
    requires QuoteFree(c)
    requires |t| == 0 || !IsQuote(t[0])
    ensures ReadQuoted(c + "\"" + t) == (c, t)
  {
    var s := c + "\"" + t;
    if |c| == 0 {
      assert s == "\"" + t;
      assert s[1..] == t;
    } else {
      assert s[0] == c[0];
      assert s[1..] == c[1..] + "\"" + t;
      ReadQuotedPlain(c[1..], t);
      assert [c[0]] + c[1..] == c;
    }
  }

  /** A doubled quote inside a quoted identifier is one quote of the name:
      `"a""b"` is the single identifier `a"b`. */
  lemma EscapedQuote(a: string, b: string, t: string)
    requires QuoteFree(a) && QuoteFree(b)
    requires |t| == 0 || !IsQuote(t[0])
    ensures QuotedNames("\"" + a + "\"\"" + b + "\"" + t) == [a + "\"" + b] + QuotedNames(t)
  {
    var rest := b + "\"" + t;
    var body := a + "\"\"" + rest;
    assert "\"" + a + "\"\"" + b + "\"" + t == "\"" + body;
    ReadQuotedPlain(b, t);
    ReadQuotedEscape(a, rest);
    QuotedNamesOpen(body);
  }

  /** An opening quote starts a name, and the names go on after it. */
  lemma QuotedNamesOpen(body: string)
    ensures QuotedNames("\"" + body) == [ReadQuoted(body).0] + QuotedNames(ReadQuoted(body).1)
  {
    var x := "\"" + body;
    assert IsQuote(x[0]) && x[1..] == body;
  }

  lemma {:induction false} ReadQuotedEscape(a: string, s: string)
    requires QuoteFree(a)
    ensures ReadQuoted(a + "\"\"" + s) == (a + "\"" + ReadQuoted(s).0, ReadQuoted(s).1)
  {
    var u := a + "\"\"" + s;
    if |a| == 0 {
      assert u == "\"\"" + s;
      assert IsQuote(u[0]) && IsQuote(u[1]);
      assert u[2..] == s;
      assert a + "\"" + ReadQuoted(s).0 == "\"" + ReadQuoted(s).0;
    } else {
      assert u[0] == a[0];
      assert u[1..] == a[1..] + "\"\"" + s;
      ReadQuotedEscape(a[1..], s);
      assert [a[0]] + (a[1..] + "\"" + ReadQuoted(s).0) == a + "\"" + ReadQuoted(s).0;
    }
  }

  /** Text without quotes before a statement adds no quoted name. */
  lemma {:induction false} QuotedNamesSkip(p: string, t: string)
    requires QuoteFree(p)
    ensures QuotedNames(p + t) == QuotedNames(t)
  {
    if |p| == 0 {
      assert p + t == t;
    } else {
      assert (p + t)[0] == p[0];
      assert (p + t)[1..] == p[1..] + t;
      QuotedNamesSkip(p[1..], t);
    }
  }

  /** A quoted name followed by anything but a quote is read back as itself. */
  lemma QuotedNamesQuoted(c: string, t: string)
    requires QuoteFree(c)
    requires |t| == 0 || !IsQuote(t[0])
    ensures QuotedNames("\"" + c + "\"" + t) == [c] + QuotedNames(t)
  {
    var s := "\"" + c + "\"" + t;
    assert s[1..] == c + "\"" + t;
    ReadQuotedPlain(c, t);
  }

  /** A text without quotes quotes no name. */
  lemma {:induction false} QuotedNamesNone(t: string)
    requires QuoteFree(t)
    ensures QuotedNames(t) == []
  {
    QuotedNamesSkip(t, "");
    assert t + "" == t;
  }

  lemma DigitsQuoteFree(s: string)
    requires AllDigits(s)
    ensures QuoteFree(s)
  {
  }

  /** `" = $k"` and `" = $k, "` hold no quote. */
  lemma GapQuoteFree(digits: string, comma: bool)
    requires AllDigits(digits)
    ensures QuoteFree(" = $" + digits + (if comma then ", " else ""))
  {
    var g := " = $" + digits + (if comma then ", " else "");
    forall j | 0 <= j < |g| ensures !IsQuote(g[j]) {
      if 4 <= j < 4 + |digits| {
        assert g[j] == digits[j - 4];
      }
    }
  }

  /** The first item of a SET list, split at its quotes. */
  lemma {:induction false} SetListShape(plan: seq<Assignment>, tail: string)
    requires |plan| > 0
    ensures var digits := NatToString(plan[0].placeholder);
            var gap := " = $" + digits + (if |plan| > 1 then ", " else "");
            var next := if |plan| > 1 then SetListText(plan[1..]) + tail else tail;
            SetListText(plan) + tail == "\"" + plan[0].column + "\"" + (gap + next)
  {
    var digits := NatToString(plan[0].placeholder);
    var c := plan[0].column;
    assert ClauseText(plan[0]) == "\"" + c + "\"" + " = $" + digits;
    if |plan| > 1 {
      var more := SetListText(plan[1..]);
      assert SetListText(plan) == ClauseText(plan[0]) + ", " + more;
      calc {
        SetListText(plan) + tail;
        "\"" + c + "\"" + " = $" + digits + ", " + more + tail;
        "\"" + c + "\"" + (" = $" + digits + ", " + (more + tail));
      }
    } else {
      assert SetListText(plan) == ClauseText(plan[0]);
      assert " = $" + digits + "" == " = $" + digits;
    }
  }

  /** The SET list of quote-safe columns, followed by text without quotes,
      quotes exactly those columns, in order. */
  lemma {:induction false} SetListNames(plan: seq<Assignment>, tail: string)
    requires forall i :: 0 <= i < |plan| ==> QuoteSafe(plan[i].column)
    requires QuoteFree(tail)
    ensures QuotedNames(SetListText(plan) + tail) == Columns(plan)
  {
    if |plan| == 0 {
      QuotedNamesNone(tail);
      assert "" + tail == tail;
    } else {
      var digits := NatToString(plan[0].placeholder);
      var gap := " = $" + digits + (if |plan| > 1 then ", " else "");
      var next := if |plan| > 1 then SetListText(plan[1..]) + tail else tail;
      SetListShape(plan, tail);
      QuotedNamesQuoted(plan[0].column, gap + next);
      GapQuoteFree(digits, |plan| > 1);
      QuotedNamesSkip(gap, next);
      if |plan| == 1 {
        QuotedNamesNone(tail);
        assert Columns(plan) == [plan[0].column];
      } else {
        SetListNames(plan[1..], tail);
        assert Columns(plan) == [plan[0].column] + Columns(plan[1..]);
      }
    }
  }

  /** The whole UPDATE of projects quotes exactly the planned columns: with
      quote-safe names, the statement assigns the columns the plan names and
      nothing else. */
  lemma ProjectStatementNames(plan: seq<Assignment>, idPlaceholder: nat)
    requires forall i :: 0 <= i < |plan| ==> QuoteSafe(plan[i].column)
    ensures QuotedNames(ProjectStatement(plan, idPlaceholder)) == Columns(plan)
  {
    var head := "UPDATE projects SET ";
    var digits := NatToString(idPlaceholder);
    var tail := " WHERE id = $" + digits + " RETURNING *";
    WhereQuoteFree(digits);
    SetListNames(plan, tail);
    QuotedNamesSkip(head, SetListText(plan) + tail);
    JoinRegroup(head, SetListText(plan), " WHERE id = $", digits, " RETURNING *");
  }

  /** `" WHERE id = $k RETURNING *"` holds no quote. */
  lemma WhereQuoteFree(digits: string)
    requires AllDigits(digits)
    ensures QuoteFree(" WHERE id = $" + digits + " RETURNING *")
  {
    var tail := " WHERE id = $" + digits + " RETURNING *";
    forall j | 0 <= j < |tail| ensures !IsQuote(tail[j]) {
      if 13 <= j < 13 + |digits| {
        assert tail[j] == digits[j - 13];
      }
    }
  }

  lemma JoinRegroup(a: string, b: string, c: string, d: string, e: string)
    ensures a + b + c + d + e == a + (b + (c + d + e))
  {
  }

  // ---------------------------------------------------------------------
  // Bare column names
  // ---------------------------------------------------------------------

  /** The key words PostgreSQL does not accept as the column of `SET col = …`:
      the reserved ones and those reserved for types and functions. */
  const NotColumnWords: set<string> := {
    "all", "analyse", "analyze", "and", "any", "array", "as", "asc", "asymmetric",
    "authorization", "binary", "both", "case", "cast", "check", "collate", "collation",
    "column", "concurrently", "constraint", "create", "cross", "current_catalog",
    "current_date", "current_role", "current_schema", "current_time", "current_timestamp",
    "current_user", "default", "deferrable", "desc", "distinct", "do", "else", "end",
    "except", "false", "fetch", "for", "foreign", "freeze", "from", "full", "grant",
    "group", "having", "ilike", "in", "initially", "inner", "intersect", "into", "is",
    "isnull", "join", "lateral", "leading", "left", "like", "limit", "localtime",
    "localtimestamp", "natural", "not", "notnull", "null", "offset", "on", "only", "or",
    "order", "outer", "overlaps", "placing", "primary", "references", "returning", "right",
    "select", "session_user", "similar", "some", "symmetric", "system_user", "table",
    "tablesample", "then", "to", "trailing", "true", "union", "unique", "user", "using",
    "variadic", "verbose", "when", "where", "window", "with"}

  predicate IsLowerLetter(c: char) {
    'a' <= c <= 'z'
  }

  /** A bare name PostgreSQL reads as one column named by itself: a lower-case
      ASCII letter or `_`, then letters, digits, `_` or `$`, at most 63 in all,
      and not a key word. */
  predicate PlainIdentifier(c: string) {
    && 1 <= |c| <= 63
    && (IsLowerLetter(c[0]) || c[0] == '_')
    && (forall i :: 1 <= i < |c| ==> IsLowerLetter(c[i]) || IsDigit(c[i]) || c[i] == '_' || c[i] == '$')
    && c !in NotColumnWords
  }

  /** `UPDATE tasks SET ${column} = $1 WHERE id = $2 RETURNING *`. */
  function TaskStatement(column: string): string {
    "UPDATE tasks SET " + column + LineRest
  }

  // ---------------------------------------------------------------------
  // Keys that rewrite the statement
  // ---------------------------------------------------------------------

  lemma QuoteFreeJoin(a: string, b: string)
    requires QuoteFree(a) && QuoteFree(b)
    ensures QuoteFree(a + b)
  {
    assert forall j :: |a| <= j < |a + b| ==> (a + b)[j] == b[j - |a|];
  }

  lemma PlainJoin(a: string, b: string)
    requires NoSpace(a) && NoUpper(a) && NoSpace(b) && NoUpper(b)
    ensures NoSpace(a + b) && NoUpper(a + b)
  {
    assert forall j :: |a| <= j < |a + b| ==> (a + b)[j] == b[j - |a|];
  }

  /** A key holding two double quotes that are not adjacent closes its
      identifier early: for the one field `a"mid"b`, the statement text names
      `a` and `b` as two quoted identifiers, neither of them the key. What the
      text between them does depends on `mid`: with `a` = `project_name`,
      `mid` = ` = 'x', ` and `b` = `project_status`, the statement sets both the
      name and the status of the project. (With `mid` empty the two quotes are
      one escaped quote, and the key stays one identifier: `EscapedQuote`.) */
  lemma QuoteBreakingKey(a: string, mid: string, b: string)
    requires QuoteFree(a) && QuoteFree(mid) && QuoteFree(b) && |mid| > 0
    ensures !QuoteSafe(a + "\"" + mid + "\"" + b)
    ensures QuotedNames(ProjectStatement([Assignment(a + "\"" + mid + "\"" + b, 1)], 2)) == [a, b]
  {
    var key := a + "\"" + mid + "\"" + b;
    assert IsQuote(key[|a|]);
    var tail := " = $" + NatToString(1) + " WHERE id = $" + NatToString(2) + " RETURNING *";
    TailQuoteFree(1, 2);
    SingleClauseStatement(key, 1, 2);
    QuoteRegroup(a, mid, b, tail);
    QuotedNamesSkip("UPDATE projects SET ", "\"" + a + "\"" + (mid + ("\"" + b + "\"" + tail)));
    assert (mid + ("\"" + b + "\"" + tail))[0] == mid[0];
    QuotedNamesQuoted(a, mid + ("\"" + b + "\"" + tail));
    QuotedNamesSkip(mid, "\"" + b + "\"" + tail);
    QuotedNamesQuoted(b, tail);
    QuotedNamesNone(tail);
  }

  /** The statement for a one-column plan, split after the column's quotes. */
  lemma SingleClauseStatement(column: string, p: nat, q: nat)
    ensures ProjectStatement([Assignment(column, p)], q)
         == "UPDATE projects SET " + ("\"" + column + "\"" + (" = $" + NatToString(p) + " WHERE id = $" + NatToString(q) + " RETURNING *"))
  {
    var n, m := NatToString(p), NatToString(q);
    assert SetListText([Assignment(column, p)]) == "\"" + column + "\" = $" + n;
    assert "\" = $" == "\"" + " = $";
    ClauseRegroup("UPDATE projects SET ", column, n, m);
  }

  lemma ClauseRegroup(pre: string, column: string, n: string, m: string)
    ensures pre + ("\"" + column + ("\"" + " = $") + n) + " WHERE id = $" + m + " RETURNING *"
         == pre + ("\"" + column + "\"" + (" = $" + n + " WHERE id = $" + m + " RETURNING *"))
  {
  }

  lemma QuoteRegroup(a: string, mid: string, b: string, t: string)
    ensures "\"" + (a + "\"" + mid + "\"" + b) + "\"" + t == "\"" + a + "\"" + (mid + ("\"" + b + "\"" + t))
  {
  }

  /** The text after a clause carries no double quote. */
  lemma TailQuoteFree(p: nat, q: nat)
    ensures QuoteFree(" = $" + NatToString(p) + " WHERE id = $" + NatToString(q) + " RETURNING *")
  {
    DigitsQuoteFree(NatToString(p));
    DigitsQuoteFree(NatToString(q));
    QuoteFreeJoin(" = $", NatToString(p));
    QuoteFreeJoin(" = $" + NatToString(p), " WHERE id = $");
    QuoteFreeJoin(" = $" + NatToString(p) + " WHERE id = $", NatToString(q));
    QuoteFreeJoin(" = $" + NatToString(p) + " WHERE id = $" + NatToString(q), " RETURNING *");
  }

  /** The quote-breaking key reaches the statement unchanged: the key-to-column
      mapping leaves a key without blanks or capitals as it is. */
  lemma QuoteBreakingKeyKept(a: string, mid: string, b: string)
    requires NoSpace(a) && NoUpper(a) && NoSpace(mid) && NoUpper(mid) && NoSpace(b) && NoUpper(b)
    ensures ColumnName(a + "\"" + mid + "\"" + b) == a + "\"" + mid + "\"" + b
  {
    assert NoSpace("\"") && NoUpper("\"");
    PlainJoin(a, "\"");
    PlainJoin(a + "\"", mid);
    PlainJoin(a + "\"" + mid, "\"");
    PlainJoin(a + "\"" + mid + "\"", b);
    ColumnNameFixpoint(a + "\"" + mid + "\"" + b);
  }

  /** A bare key can end in a line comment that swallows the handler's own
      filter: for the key `c --` the statement's text after `--` runs to its
      end, so what PostgreSQL executes is `UPDATE tasks SET c`. With
      `c` = `status = $1 where $2::text is not null or true`, that statement
      sets the status of every task, not of the one with the given id. */
  lemma CommentingKey(c: string)
    requires NoUpper(c)
    ensures Lower(c + " --") == c + " --"
    ensures TaskStatement(Lower(c + " --")) == "UPDATE tasks SET " + c + " " + "--" + LineRest
    ensures forall i :: 0 <= i < |LineRest| ==> LineRest[i] != '\n'
  {
    assert NoUpper(" --");
    NoUpperJoin(c, " --");
    LowerFixpoint(c + " --");
  }

  /** The key `c --` is no bare column name, so the task handler's contract
      does not describe what its statement does. */
  lemma CommentingKeyNotPlain(c: string)
    ensures !PlainIdentifier(c + " --")
  {
    var key := c + " --";
    assert key[|c|] == ' ';
    if |c| == 0 {
      assert key[0] == ' ';
    }
  }

  /** What follows the column in the task statement. */
  const LineRest: string := " = $1 WHERE id = $2 RETURNING *"

  lemma NoUpperJoin(a: string, b: string)
    requires NoUpper(a) && NoUpper(b)
    ensures NoUpper(a + b)
  {
    assert forall j :: |a| <= j < |a + b| ==> (a + b)[j] == b[j - |a|];
  }
}

=== FILE: store.dfy ===
/** The relational store the handlers query, as in-memory tables. A table keeps
    its column set, its rows in scan order and the last value its id sequence
    handed out. A query that names a column its table lacks throws, as does any
    query the caller marks as failing; the handlers turn both into 500. */
module Store {
  import opened Values
  import opened Text
  import opened Numbers

  datatype Tbl = Users | Accounts | Projects | Tasks | Updates

  /** A row: its integer primary key and its other columns. */
  datatype Row = Row(id: nat, cols: map<string, Val>)

  /** `row.col` on the JSON object of a row. */
  function Cell(r: Row, c: string): Val {
    if c in r.cols then r.cols[c] else Undefined
  }

  /** `SELECT r.*, e AS x, …`: the row with extra output columns, later ones
      winning on a name clash as they do in node-postgres result objects. */
  function With(r: Row, extra: map<string, Val>): (o: Row)
    ensures o.id == r.id
    ensures forall c :: c in extra ==> Cell(o, c) == extra[c]
    ensures forall c :: c !in extra ==> Cell(o, c) == Cell(r, c)
  {
    Row(r.id, r.cols + extra)
  }

  /** The JSON object a row is sent as: its columns plus `id`. */
  function AsVal(r: Row): (v: Val)
    ensures v.Rec? && Prop(v, "id") == Num(r.id)
  {
    Rec(r.cols + map["id" := Num(r.id)])
  }

  datatype Table = Table(columns: set<string>, rows: seq<Row>, serial: nat)

  datatype Db = Db(users: Table, accounts: Table, projects: Table, tasks: Table, updates: Table)
  {
    function Get(t: Tbl): Table {
      match t
      case Users => users
      case Accounts => accounts
      case Projects => projects
      case Tasks => tasks
      case Updates => updates
    }

    /** The store with one table replaced and the other four untouched. */
    function Put(t: Tbl, table: Table): (d: Db)
      ensures d.Get(t) == table
      ensures forall u :: u != t ==> d.Get(u) == Get(u)
    {
      match t
      case Users => this.(users := table)
      case Accounts => this.(accounts := table)
      case Projects => this.(projects := table)
      case Tasks => this.(tasks := table)
      case Updates => this.(updates := table)
    }
  }

  /** A column a query names. */
  type Need = (Tbl, string)

  predicate HasColumns(db: Db, needs: seq<Need>) {
    forall i :: 0 <= i < |needs| ==> needs[i].1 in db.Get(needs[i].0).columns
  }

  /** Whether the handler's query number `k` (0-based, in the order the handler
      issues them) throws: it is one of the `faults`, or it names a missing column. */
  predicate Throws(db: Db, faults: set<nat>, k: nat, needs: seq<Need>) {
    k in faults || !HasColumns(db, needs)
  }

  // ---------------------------------------------------------------------
  // Parameters
  // ---------------------------------------------------------------------

  /** The text node-postgres sends for a parameter compared with a text column;
      `None` stands for SQL NULL, which equals nothing. */
  function ParamText(v: Val): (t: Option<string>)
    ensures v.Str? ==> t == Some(v.s)
    ensures v == Undefined || v == Null ==> t == None
  {
    match v
    case Str(s) => Some(s)
    case Num(n) => Some(IntToString(n))
    case Bool(b) => Some(if b then "true" else "false")
    case _ => None
  }

  /** `WHERE col = $1` on a text column. */
  predicate TextMatches(r: Row, col: string, param: Val) {
    ParamText(param).Some? && Cell(r, col) == Str(ParamText(param).value)
  }

  /** `rows[0]` of `SELECT … WHERE col = $1`: the first row in scan order whose
      text column equals the parameter. */
  function FirstMatch(rows: seq<Row>, col: string, param: Val): (r: Option<Row>)
    ensures r.None? <==> forall i :: 0 <= i < |rows| ==> !TextMatches(rows[i], col, param)
    ensures r.Some? ==> exists i :: 0 <= i < |rows| && rows[i] == r.value && TextMatches(rows[i], col, param)
                          && forall j :: 0 <= j < i ==> !TextMatches(rows[j], col, param)
  {
    if |rows| == 0 then None
    else if TextMatches(rows[0], col, param) then Some(rows[0])
    else
      var r := FirstMatch(rows[1..], col, param);
      assert forall i :: 1 <= i < |rows| ==> rows[i] == rows[1..][i - 1];
      r
  }

  /** How a value bound to an integer parameter reaches the store. */
  datatype IntArg = NullArg | IntVal(n: int) | BadArg

  /** A parameter's text through the `integer` input function. */
  function TextArg(s: string): (a: IntArg)
    ensures a != NullArg
  {
    match PgInt4(s)
    case Some(n) => IntVal(n)
    case None => BadArg
  }

  /** An integer parameter reaches PostgreSQL as text and goes through the
      `integer` input function: a number is sent as its decimal text, a string
      as itself, `undefined`/`null` as NULL; a boolean, array or object is text
      the input function refuses. The refusal, like a value outside 32 bits,
      makes the query throw. */
  function IntParam(v: Val): (a: IntArg)
    ensures a == NullArg <==> v == Undefined || v == Null
    ensures a.IntVal? ==> InInt4(a.n)
    ensures v.Str? ==> a == TextArg(v.s)
    ensures v.Num? ==> a == TextArg(IntToString(v.n))
    ensures v.Num? ==> a == if InInt4(v.n) then IntVal(v.n) else BadArg
    ensures !(v.Str? || v.Num? || v == Undefined || v == Null) ==> a == BadArg
  {
    match v
    case Undefined => NullArg
    case Null => NullArg
    case Num(n) =>
      PgInt4Reads(n, "", "");
      assert "" + IntToString(n) + "" == IntToString(n);
      if InInt4(n) then IntVal(n) else BadArg
    case Str(s) => TextArg(s)
    case _ => BadArg
  }

  /** The text of an integer with blanks around it binds as that integer when
      it fits in 32 bits, and makes the query throw otherwise. */
  lemma IntParamOfText(n: int, b1: string, b2: string)
    requires AllBlank(b1, IsPgSpace) && AllBlank(b2, IsPgSpace)
    ensures IntParam(Str(b1 + IntToString(n) + b2)) == if InInt4(n) then IntVal(n) else BadArg
  {
    PgInt4Reads(n, b1, b2);
  }

  /** `"7"` binds as 7; `"abc"` and `true` are refused. */
  lemma IntParamExamples()
    ensures IntParam(Str("7")) == IntVal(7)
    ensures IntParam(Str("abc")) == BadArg
    ensures IntParam(Bool(true)) == BadArg
  {
    IntParamOfText(7, "", "");
  }

  /** The cell an integer parameter is stored as; a refused parameter stores
      nothing, since its query throws. */
  function IntCell(a: IntArg): (v: Val)
    ensures a.IntVal? ==> v == Num(a.n)
    ensures a.NullArg? ==> v == Null
  {
    match a
    case IntVal(n) => Num(n)
    case _ => Null
  }

  /** The first row with primary key `id`. */
  function FindById(rows: seq<Row>, id: int): (r: Option<Row>)
    ensures r.None? <==> forall i :: 0 <= i < |rows| ==> rows[i].id != id
    ensures r.Some? ==> r.value in rows && r.value.id == id
  {
    if |rows| == 0 then None
    else if rows[0].id == id then Some(rows[0])
    else
      var r := FindById(rows[1..], id);
      assert forall i :: 1 <= i < |rows| ==> rows[i] == rows[1..][i - 1];
      r
  }

  /** The row a foreign-key cell points at, as `LEFT JOIN … ON fk = t.id` finds
      it; a NULL or non-integer cell joins nothing. */
  function Deref(rows: seq<Row>, fk: Val): (r: Option<Row>)
    ensures !fk.Num? ==> r.None?
    ensures fk.Num? ==> r == FindById(rows, fk.n)
  {
    if fk.Num? then FindById(rows, fk.n) else None
  }

  /** A row's column holds the integer `id`. */
  predicate RefersTo(r: Row, col: string, id: int) {
    Cell(r, col) == Num(id)
  }

  /** `SELECT id FROM t WHERE col = $1`: ids of the rows whose column refers to
      `id`, in scan order. */
  function IdsWhere(rows: seq<Row>, col: string, id: int): (ids: seq<nat>)
    ensures |ids| <= |rows|
    ensures forall x :: x in ids <==> exists i :: 0 <= i < |rows| && rows[i].id == x && RefersTo(rows[i], col, id)
    ensures ids == Ids(RowsWhere(rows, col, id))
  {
    if |rows| == 0 then []
    else
      var rest := IdsWhere(rows[1..], col, id);
      assert forall i :: 1 <= i < |rows| ==> rows[i] == rows[1..][i - 1];
      if RefersTo(rows[0], col, id) then
        IdsCons(rows[0], RowsWhere(rows[1..], col, id));
        [rows[0].id] + rest
      else rest
  }

  lemma IdsCons(r: Row, rows: seq<Row>)
    ensures Ids([r] + rows) == [r.id] + Ids(rows)
  {
    assert ([r] + rows)[1..] == rows;
  }

  /** `SELECT * FROM t WHERE col = $1`: the rows whose column refers to `id`, in
      scan order. */
  function RowsWhere(rows: seq<Row>, col: string, id: int): (out: seq<Row>)
    ensures |out| <= |rows|
    ensures forall r :: r in out <==> r in rows && RefersTo(r, col, id)
  {
    if |rows| == 0 then []
    else
      var rest := RowsWhere(rows[1..], col, id);
      assert forall r :: r in rows <==> r == rows[0] || r in rows[1..];
      if RefersTo(rows[0], col, id) then [rows[0]] + rest else rest
  }

  /** No two rows share a primary key. */
  predicate UniqueIds(rows: seq<Row>) {
    forall i, j :: 0 <= i < j < |rows| ==> rows[i].id != rows[j].id
  }

  /** `WHERE id = ANY($1)`: the rows whose id is in the list, in scan order. */
  function RowsWithIds(rows: seq<Row>, ids: seq<int>): (out: seq<Row>)
    ensures |out| <= |rows|
    ensures forall r :: r in out <==> r in rows && r.id in ids
    ensures UniqueIds(rows) ==> UniqueIds(out)
  {
    if |rows| == 0 then []
    else
      var rest := RowsWithIds(rows[1..], ids);
      assert forall r :: r in rows <==> r == rows[0] || r in rows[1..];
      if rows[0].id in ids then [rows[0]] + rest else rest
  }

  /** A row with unique ids occurs once: its multiplicity is at most one. */
  lemma {:induction false} UniqueIdsOnce(rows: seq<Row>, x: Row)
    requires UniqueIds(rows)
    ensures multiset(rows)[x] <= 1
  {
    if |rows| > 0 {
      var init := rows[..|rows| - 1];
      assert rows == init + [rows[|rows| - 1]];
      assert UniqueIds(init);
      UniqueIdsOnce(init, x);
      if rows[|rows| - 1] == x {
        assert x !in init by {
          forall k | 0 <= k < |init| ensures init[k] != x {
            assert rows[k].id != rows[|rows| - 1].id;
          }
        }
      }
    }
  }

  /** Reordering rows keeps their ids unique. */
  lemma UniqueIdsPermuted(a: seq<Row>, b: seq<Row>)
    requires multiset(a) == multiset(b) && UniqueIds(a)
    ensures UniqueIds(b)
  {
    forall i, j | 0 <= i < j < |b| ensures b[i].id != b[j].id {
      if b[i].id == b[j].id {
        assert b[i] in multiset(a) && b[j] in multiset(a);
        var p :| 0 <= p < |a| && a[p] == b[i];
        var q :| 0 <= q < |a| && a[q] == b[j];
        if p == q {
          assert b == b[..j] + b[j..];
          assert b[i] in b[..j] && b[j] in b[j..];
          assert multiset(b)[b[i]] >= 2;
          UniqueIdsOnce(a, b[i]);
        }
      }
    }
  }

  function Ids(rows: seq<Row>): (ids: seq<nat>)
    ensures |ids| == |rows|
    ensures forall i :: 0 <= i < |rows| ==> ids[i] == rows[i].id
  {
    if |rows| == 0 then [] else [rows[0].id] + Ids(rows[1..])
  }

  /** `DISTINCT`: the first occurrence of every element, nothing repeated. */
  function Distinct(s: seq<nat>): (d: seq<nat>)
    ensures forall x :: x in d <==> x in s
    ensures forall i, j :: 0 <= i < j < |d| ==> d[i] != d[j]
  {
    if |s| == 0 then []
    else
      var rest := Distinct(s[..|s| - 1]);
      assert forall x :: x in s <==> x in s[..|s| - 1] || x == s[|s| - 1];
      if s[|s| - 1] in rest then rest else rest + [s[|s| - 1]]
  }

  function Nums(ids: seq<nat>): (v: Val)
    ensures v.Arr? && |v.items| == |ids|
    ensures forall i :: 0 <= i < |ids| ==> v.items[i] == Num(ids[i])
  {
    Arr(seq(|ids|, i requires 0 <= i < |ids| => Num(ids[i])))
  }

  // ---------------------------------------------------------------------
  // Writes
  // ---------------------------------------------------------------------

  /** `INSERT INTO t (…) VALUES (…) RETURNING *`: the next id from the table's
      sequence, the given values in their columns and NULL in the others. */
  function InsertRow(t: Table, values: map<string, Val>): (r: (Table, Row))
    ensures r.1.id == t.serial + 1 && r.0.serial == t.serial + 1
    ensures r.0.columns == t.columns
    ensures r.0.rows == t.rows + [r.1]
    ensures r.1.cols.Keys == t.columns
    ensures forall c :: c in values && c in t.columns ==> Cell(r.1, c) == values[c]
    ensures forall c :: c in t.columns && c !in values ==> Cell(r.1, c) == Null
  {
    var row := Row(t.serial + 1, map c | c in t.columns :: if c in values then values[c] else Null);
    (Table(t.columns, t.rows + [row], t.serial + 1), row)
  }

  /** After `UPDATE … WHERE id = n`, the first row with id `n` is the first one
      before it with the assignments applied: what `RETURNING *` puts first. */
  lemma {:induction false} FindUpdated(rows: seq<Row>, n: int, assign: map<string, Val>)
    ensures FindById(UpdateWhereId(rows, n, assign), n)
         == if FindById(rows, n).Some? then Some(With(FindById(rows, n).value, assign)) else None
  {
    if |rows| > 0 {
      var out := UpdateWhereId(rows, n, assign);
      assert out[1..] == UpdateWhereId(rows[1..], n, assign);
      FindUpdated(rows[1..], n, assign);
    }
  }

  /** `UPDATE t SET … WHERE id = $k`: every row with that id gets the assignments. */
  function UpdateWhereId(rows: seq<Row>, id: int, assign: map<string, Val>): (out: seq<Row>)
    ensures |out| == |rows|
    ensures forall i :: 0 <= i < |rows| ==> out[i].id == rows[i].id
    ensures forall i :: 0 <= i < |rows| && rows[i].id != id ==> out[i] == rows[i]
    ensures forall i :: 0 <= i < |rows| && rows[i].id == id ==> out[i] == With(rows[i], assign)
  {
    seq(|rows|, i requires 0 <= i < |rows| => if rows[i].id == id then With(rows[i], assign) else rows[i])
  }
}

=== FILE: text.dfy ===
/** String operations the handlers and the client rely on: decimal rendering and
    reading, `split`/`join` on one separator, JavaScript `\s`, ASCII lowercasing,
    `padStart`, and the column-name rule of the PATCH handler. */
module Text {

  predicate IsDigit(c: char) {
    '0' <= c <= '9'
  }

  predicate AllDigits(s: string) {
    forall i :: 0 <= i < |s| ==> IsDigit(s[i])
  }

  function DigitChar(d: nat): (c: char)
    requires d < 10
    ensures IsDigit(c)
  {
    ('0' as int + d) as char
  }

  function DigitValue(c: char): (d: nat)
    requires IsDigit(c)
    ensures d < 10
  {
    c as int - '0' as int
  }

  /** The value of a string of decimal digits, most significant first; `""` reads
      as 0, as `Number("")` does. */
  function DigitsValue(s: string): nat
    requires AllDigits(s)
  {
    if |s| == 0 then 0 else 10 * DigitsValue(s[..|s| - 1]) + DigitValue(s[|s| - 1])
  }

  /** `String(n)` for a non-negative integer. */
  function NatToString(n: nat): (s: string)
    ensures |s| >= 1 && AllDigits(s)
    ensures n < 10 <==> |s| == 1
  {
    if n < 10 then [DigitChar(n)] else NatToString(n / 10) + [DigitChar(n % 10)]
  }

  /** `String(i)` for any integer. */
  function IntToString(i: int): (s: string)
    ensures |s| >= 1
    ensures i >= 0 <==> AllDigits(s)
  {
    if i < 0 then
      var s := "-" + NatToString(-i);
      assert !IsDigit(s[0]);
      s
    else NatToString(i)
  }

  /** Rendering a number in decimal and reading it back gives the number. */
  lemma {:induction false} DigitsValueOfNatToString(n: nat)
    ensures DigitsValue(NatToString(n)) == n
  {
    if n >= 10 {
      var s := NatToString(n);
      assert s[..|s| - 1] == NatToString(n / 10);
      DigitsValueOfNatToString(n / 10);
    }
  }

  /** `s.split(sep)` for a one-character separator: the pieces between separators,
      at least one, none containing the separator. */
  function Split(s: string, sep: char): (parts: seq<string>)
    ensures |parts| >= 1
    ensures forall i :: 0 <= i < |parts| ==> sep !in parts[i]
  {
    if |s| == 0 then [""]
    else
      var rest := Split(s[1..], sep);
      if s[0] == sep then [""] + rest
      else [[s[0]] + rest[0]] + rest[1..]
  }

  /** `parts.join(sep)`. */
  function Join(parts: seq<string>, sep: char): string
    requires |parts| >= 1
  {
    if |parts| == 1 then parts[0] else parts[0] + [sep] + Join(parts[1..], sep)
  }

  lemma {:induction false} SplitWithoutSeparator(p: string, sep: char)
    requires sep !in p
    ensures Split(p, sep) == [p]
  {
    if |p| > 0 {
      assert sep !in p[1..];
      SplitWithoutSeparator(p[1..], sep);
      assert [p[0]] + p[1..] == p;
    }
  }

  lemma {:induction false} SplitAtSeparator(p: string, sep: char, rest: string)
    requires sep !in p
    ensures Split(p + [sep] + rest, sep) == [p] + Split(rest, sep)
  {
    if |p| == 0 {
      assert p + [sep] + rest == [sep] + rest;
      assert ([sep] + rest)[1..] == rest;
    } else {
      var s := p + [sep] + rest;
      assert s[1..] == p[1..] + [sep] + rest;
      assert sep !in p[1..];
      SplitAtSeparator(p[1..], sep, rest);
      assert [s[0]] + p[1..] == p;
    }
  }

  /** Joining pieces that do not contain the separator and splitting the result
      gives the pieces back. */
  lemma {:induction false} SplitJoin(parts: seq<string>, sep: char)
    requires |parts| >= 1
    requires forall i :: 0 <= i < |parts| ==> sep !in parts[i]
    ensures Split(Join(parts, sep), sep) == parts
  {
    if |parts| == 1 {
      SplitWithoutSeparator(parts[0], sep);
    } else {
      SplitJoin(parts[1..], sep);
      SplitAtSeparator(parts[0], sep, Join(parts[1..], sep));
      assert [parts[0]] + parts[1..] == parts;
    }
  }

  /** Splitting and joining again gives the original string. */
  lemma {:induction false} JoinSplit(s: string, sep: char)
    ensures Join(Split(s, sep), sep) == s
  {
    if |s| > 0 {
      JoinSplit(s[1..], sep);
      var rest := Split(s[1..], sep);
      if s[0] == sep {
        assert ([""] + rest)[1..] == rest;
        assert Join([""] + rest, sep) == [sep] + Join(rest, sep);
      } else if |rest| == 1 {
        assert s == [s[0]] + s[1..];
      } else {
        var parts := [[s[0]] + rest[0]] + rest[1..];
        assert parts[1..] == rest[1..];
        assert Join(rest, sep) == rest[0] + [sep] + Join(rest[1..], sep);
        assert s == [s[0]] + s[1..];
      }
    }
  }

  /** The characters JavaScript's `\s` matches. */
  predicate IsJsSpace(c: char) {
    var n := c as int;
    (9 <= n <= 13) || n == 0x20 || n == 0xA0 || n == 0x1680 || (0x2000 <= n <= 0x200A)
    || n == 0x2028 || n == 0x2029 || n == 0x202F || n == 0x205F || n == 0x3000 || n == 0xFEFF
  }

  predicate NoSpace(s: string) {
    forall i :: 0 <= i < |s| ==> !IsJsSpace(s[i])
  }

  predicate IsUpper(c: char) {
    'A' <= c <= 'Z'
  }

  function LowerChar(c: char): (l: char)
    ensures !IsUpper(l)
    ensures !IsUpper(c) ==> l == c
    ensures IsJsSpace(l) <==> IsJsSpace(c)
  {
    if IsUpper(c) then (c as int + 32) as char else c
  }

  /** `s.toLowerCase()` on the ASCII letters. */
  function Lower(s: string): (l: string)
    ensures |l| == |s|
    ensures forall i :: 0 <= i < |s| ==> l[i] == LowerChar(s[i])
  {
    if |s| == 0 then "" else [LowerChar(s[0])] + Lower(s[1..])
  }

  function DropSpaces(s: string): (r: string)
    ensures |r| <= |s|
    ensures |r| > 0 ==> !IsJsSpace(r[0])
  {
    if |s| > 0 && IsJsSpace(s[0]) then DropSpaces(s[1..]) else s
  }

  /** `s.replace(/\s+/g, '_')`: every maximal run of whitespace becomes one `_`. */
  function ReplaceSpaceRuns(s: string): string
    decreases |s|
  {
    if |s| == 0 then ""
    else if IsJsSpace(s[0]) then "_" + ReplaceSpaceRuns(DropSpaces(s[1..]))
    else [s[0]] + ReplaceSpaceRuns(s[1..])
  }

  /** The result of replacing whitespace runs holds no whitespace. */
  lemma {:induction false} ReplaceSpaceRunsNoSpace(s: string)
    ensures NoSpace(ReplaceSpaceRuns(s))
    decreases |s|
  {
    if |s| > 0 {
      if IsJsSpace(s[0]) {
        ReplaceSpaceRunsNoSpace(DropSpaces(s[1..]));
      } else {
        ReplaceSpaceRunsNoSpace(s[1..]);
      }
    }
  }

  /** On a string without whitespace the replacement changes nothing, and only
      there. */
  lemma {:induction false} ReplaceSpaceRunsFixpoint(s: string)
    ensures ReplaceSpaceRuns(s) == s <==> NoSpace(s)
    decreases |s|
  {
    if |s| > 0 {
      if IsJsSpace(s[0]) {
        ReplaceSpaceRunsNoSpace(s);
        assert !NoSpace(s);
      } else {
        ReplaceSpaceRunsFixpoint(s[1..]);
        assert NoSpace(s) <==> NoSpace(s[1..]) by {
          if NoSpace(s[1..]) {
            forall i | 0 <= i < |s| ensures !IsJsSpace(s[i]) {
              if i > 0 { assert s[i] == s[1..][i - 1]; }
            }
          }
          if NoSpace(s) {
            forall i | 0 <= i < |s[1..]| ensures !IsJsSpace(s[1..][i]) {
              assert s[1..][i] == s[i + 1];
            }
          }
        }
        assert s == [s[0]] + s[1..];
      }
    }
  }

  /** The PATCH /api/projects column rule: whitespace runs become `_`, then the
      name is lowercased. */
  function ColumnName(key: string): string {
    Lower(ReplaceSpaceRuns(key))
  }

  predicate NoUpper(s: string) {
    forall i :: 0 <= i < |s| ==> !IsUpper(s[i])
  }

  lemma LowerFixpoint(s: string)
    ensures Lower(s) == s <==> NoUpper(s)
  {
    if NoUpper(s) {
      assert forall i :: 0 <= i < |s| ==> Lower(s)[i] == s[i];
    }
  }

  /** A column name holds neither whitespace nor upper-case ASCII letters. */
  lemma ColumnNameShape(key: string)
    ensures NoSpace(ColumnName(key)) && NoUpper(ColumnName(key))
  {
    ReplaceSpaceRunsNoSpace(key);
    var r := ReplaceSpaceRuns(key);
    assert forall i :: 0 <= i < |r| ==> Lower(r)[i] == LowerChar(r[i]);
  }

  /** A key is its own column name exactly when it has no whitespace and no
      upper-case letter. */
  lemma ColumnNameFixpoint(key: string)
    ensures ColumnName(key) == key <==> NoSpace(key) && NoUpper(key)
  {
    ColumnNameShape(key);
    if NoSpace(key) && NoUpper(key) {
      ReplaceSpaceRunsFixpoint(key);
      LowerFixpoint(key);
    }
  }

  /** Applying the column rule twice gives the same column as applying it once. */
  lemma ColumnNameIdempotent(key: string)
    ensures ColumnName(ColumnName(key)) == ColumnName(key)
  {
    ColumnNameShape(key);
    ColumnNameFixpoint(ColumnName(key));
  }

  /** `s.padStart(2, '0')`. */
  function PadTwo(s: string): (r: string)
    ensures |s| >= 2 ==> r == s
    ensures |s| < 2 ==> |r| == 2 && r[2 - |s|..] == s && forall i :: 0 <= i < 2 - |s| ==> r[i] == '0'
  {
    if |s| >= 2 then s else if |s| == 1 then "0" + s else "00"
  }

  /** `hay.includes(needle)`. */
  predicate Contains(hay: string, needle: string) {
    exists i :: 0 <= i <= |hay| - |needle| && OccursAt(hay, needle, i)
  }

  predicate OccursAt(hay: string, needle: string, i: nat) {
    i + |needle| <= |hay| && hay[i..i + |needle|] == needle
  }
}

=== FILE: values.dfy ===
/** JSON / JavaScript values as the handlers and the client see them, with
    JavaScript truthiness and the `||` defaulting idiom. */
module Values {

  /** A JavaScript value as it travels through JSON. `Undefined` is a missing
      property; `Num` holds integers only (fractions are not modelled); `Rec`
      is a plain object (key order is not modelled). */
  datatype Val =
    | Undefined
    | Null
    | Bool(b: bool)
    | Num(n: int)
    | Str(s: string)
    | Arr(items: seq<Val>)
    | Rec(props: map<string, Val>)

  /** JavaScript truthiness: `undefined`, `null`, `false`, `0` and `""` are falsy;
      arrays and objects are truthy even when empty. */
  predicate Truthy(v: Val) {
    match v
    case Undefined => false
    case Null => false
    case Bool(b) => b
    case Num(n) => n != 0
    case Str(s) => s != ""
    case Arr(_) => true
    case Rec(_) => true
  }

  /** `v || d`. */
  function Or(v: Val, d: Val): (r: Val)
    ensures Truthy(v) ==> r == v
    ensures !Truthy(v) ==> r == d
  {
    if Truthy(v) then v else d
  }

  /** `v ? [v] : []`, the legacy one-element-list shape of an optional reference. */
  function Listed(v: Val): (r: Val)
    ensures r.Arr? && |r.items| <= 1
    ensures |r.items| == 1 <==> Truthy(v)
    ensures |r.items| == 1 ==> r.items[0] == v
  {
    if Truthy(v) then Arr([v]) else Arr([])
  }

  /** The value a `Listed` field still carries: its single element, or
      `undefined` for the empty list. */
  function Unlisted(v: Val): Val {
    if v.Arr? && |v.items| > 0 then v.items[0] else Undefined
  }

  /** The legacy list shape loses exactly the falsy values: a truthy value comes
      back unchanged, a falsy one comes back as `undefined`. */
  lemma ListedLosesOnlyFalsy(v: Val)
    ensures Truthy(v) ==> Unlisted(Listed(v)) == v
    ensures !Truthy(v) ==> Unlisted(Listed(v)) == Undefined
  {
  }

  /** `obj.prop` on a value: `undefined` unless the value is an object holding it. */
  function Prop(v: Val, key: string): Val {
    if v.Rec? && key in v.props then v.props[key] else Undefined
  }

  datatype Option<T> = None | Some(value: T)

  /** A parsed JSON request body: its entries in `Object.keys` order. A body
      `JSON.parse` produces has `DistinctKeys` (a repeated key keeps its last
      value, at the position of its first). The type admits repeated keys, and
      on those `Get` reads the first entry. */
  type Obj = seq<(string, Val)>

  /** No two entries of `o` share a key. */
  predicate DistinctKeys(o: Obj) {
    forall i, j :: 0 <= i < j < |o| ==> o[i].0 != o[j].0
  }

  /** `body[key]`: the value of the first entry named `key`, `undefined` if none. */
  function Get(o: Obj, key: string): (v: Val)
    ensures (forall i :: 0 <= i < |o| ==> o[i].0 != key) ==> v == Undefined
    ensures (exists i :: 0 <= i < |o| && o[i].0 == key) ==> exists i :: 0 <= i < |o| && o[i].0 == key && v == o[i].1
  {
    if |o| == 0 then Undefined
    else if o[0].0 == key then o[0].1
    else Get(o[1..], key)
  }

  /** On a body with distinct keys, each entry's key reads that entry's value. */
  lemma {:induction false} GetDistinct(o: Obj, i: nat)
    requires DistinctKeys(o) && i < |o|
    ensures Get(o, o[i].0) == o[i].1
  {
    if i > 0 {
      assert o[0].0 != o[i].0;
      assert DistinctKeys(o[1..]) by {
        forall a, b | 0 <= a < b < |o[1..]| ensures o[1..][a].0 != o[1..][b].0 {
          assert o[1..][a] == o[a + 1] && o[1..][b] == o[b + 1];
        }
      }
      GetDistinct(o[1..], i - 1);
      assert o[1..][i - 1] == o[i];
    }
  }

  /** A value bound as a query parameter: node-postgres sends `undefined` as NULL. */
  function AsParam(v: Val): (r: Val)
    ensures r != Undefined
    ensures v != Undefined ==> r == v
  {
    if v == Undefined then Null else v
  }
}
